=== FILE: README.md ===
# auth_rs in Dafny

A functional model of the authentication service `auth_rs`: registration, login and
token refresh over a user table and a refresh-token table; the three token codecs;
bearer-header extraction and rate-limit keys; the configuration enums and the Redis
URL; the error-to-response mapping; email verification; the user-management rules in
their three generations; and the input validators.

The model is pure. Every table is a sequence of rows in insertion order:
- a lookup returns the first matching row (`fetch_optional`);
- a delete removes every matching row;
- an update rewrites every matching row in place.

Properties such as "at most one refresh row per user" or "usernames are unique" are
stated as invariants, with lemmas showing that the operations keep them.

The following are all parameters:
- the clock, as `now` in seconds;
- fresh identifiers;
- random tokens;
- password-hash outcomes and the verify oracle;
- the token-hash function;
- the email regex of the older repository.

A token is an abstract signed claim record, `Signed(claims, key)`, or some other
string, `Malformed(text)`. The record holds the registered claims `sub`, `iat` and
`exp` of section 4.1 of RFC 7519, plus the custom `email` and `typ`. Decoding
follows the `jsonwebtoken` crate's checks in its order:
1. malformed;
2. signature;
3. missing claim field;
4. expiry, with the crate's leeway as a parameter.

The auth service is wired to the untyped codec of `src/utils/jwt.rs`. As a result,
access and refresh tokens are interchangeable there.

Modules, by source file:
- `Wrappers`, `Text`, `Tables`: Option/Result, the string functions the code relies
  on (trim, ASCII lower-casing, decimal rendering), and table queries.
- `Jwt` (the `jsonwebtoken` library's decode), `TypedJwt` (`src/services/jwt.rs`),
  `UntypedJwt` (`src/utils/jwt.rs`), `LegacyJwt` (`src/service/jwt.rs`),
  `PasswordPolicy` (`src/services.rs`).
- `BearerExtractor` (`src/utils/extractor.rs`), `RateLimitKeys`
  (`src/middlewares/rate_limit.rs`).
- `RateLimitConfig`, `RedisConfig`, `DatabaseConfig`, `EnvironmentConfig`
  (`src/configuration/*.rs`).
- `SessionModels` (`src/models/token.rs`, `src/models/session.rs`),
  `RefreshTokenStore` (`src/services/refresh_token.rs`), `AuthDto`
  (`src/dto/auth.rs`), `AuthErrors` (`src/utils/error.rs`), `AuthService`
  (`src/services/auth.rs`).
- `EmailVerification` (`src/services/email_verification/email_verification_service.rs`).
- `UserService` (`src/services/user/user_service.rs` and the older `src/service/user.rs`,
  told apart by a `Generation` parameter), `UserRepository` (`src/repository/user.rs`).
- `ValidationService`, `LegacyValidation`, `InputValidation` (the three validation files).

The code does two things that its callers evidently do not intend (see Findings).
Each is modelled twice: once as written, once as intended. The flows take a
parameter that chooses between them:
- `Issuance` selects token issuance in `AuthService`;
- `Guard` selects the guard in `EmailVerification`.

## Model

| member | source | states |
|---|---|---|
| Jwt.Decode | src/services/jwt.rs:111-116 | The library accepts exactly a token signed with the key, carrying the claims struct's fields, whose `exp` is not more than the leeway in the past; an otherwise good token past that point is `ExpiredSignature` |
| Jwt.EncodeDecodeRoundTrip | src/utils/jwt.rs:47-64 | Decoding an encoded claim record with the same key returns it until expiry plus leeway |
| Jwt.WrongKeyNeverDecodes | src/utils/jwt.rs:57-64 | A token signed with another secret is refused with `InvalidSignature` |
| TypedJwt.TypeNameInjective | src/services/jwt.rs:75-82 | `"access"` and `"refresh"` name distinct classes: the tag determines the class |
| TypedJwt.Decode | src/services/jwt.rs:111-125 | Success iff the library accepts and the `typ` tag equals the expected class; a library-accepted token of the other class is `InvalidTokenType{expected, actual}` |
| TypedJwt.GetExpiresIn | src/services/jwt.rs:149-154 | Defined only for tokens that decode as access tokens, and then `exp − iat`; a refresh token is refused |
| TypedJwt.ClassesNeverCross | src/services/jwt.rs:128-164 | A generated access token never validates as a refresh token and vice versa, and within its lifetime the failure is the class mismatch |
| TypedJwt.GeneratedTokensValidate | src/services/jwt.rs:128-164 | Each generated token validates as its own class until its lifetime (minutes for access, days for refresh) plus leeway has passed |
| TypedJwt.ExpiresInIsIssuedLifetime | src/services/jwt.rs:128-154 | For a generated access token, `expires_in` is `access_minutes × 60` at every instant the token still validates, independent of the clock |
| TypedJwt.DecodedClaimsRoundTrip | src/services/jwt.rs:43-58 | For a positive duration, decoding gives `exp > iat`, the subject and the email that were encoded |
| UntypedJwt.GetExpiresIn | src/utils/jwt.rs:82-85 | `expires_in` is `exp − now` against the clock at the call, defined exactly when the token decodes, never below minus the leeway |
| UntypedJwt.ClassesInterchangeable | src/utils/jwt.rs:14-20 | With no class tag, a refresh token decodes wherever an access token is expected, yielding its subject |
| UntypedJwt.ExpiresInCountsDown | src/utils/jwt.rs:66-85 | An access token reports `access_minutes × 60` when issued, and the figure drops by exactly the seconds elapsed |
| UntypedJwt.RefreshExpiryWindow | src/utils/jwt.rs:115-125 | A fresh refresh token decodes and its `exp` lies in `(now, now + days × 86400]` |
| UntypedJwt.MalformedNeverDecodes | src/utils/jwt.rs:108-113 | A string that is not a signed token is refused |
| LegacyJwt.VerifyJwtToken | src/service/jwt.rs:56-72 | Verification returns exactly the encoded subject, iff the signature is good and `exp ≥ now`; a token the library accepts within its leeway but with `exp < now` is `TokenExpired` |
| LegacyJwt.GenerateVerifyRoundTrip | src/service/jwt.rs:36-72 | A generated token verifies to its subject up to `iat + expiration` and is refused after |
| LegacyJwt.ExpiredInsideLeeway | src/service/jwt.rs:103-115 | A five-second token checked six seconds later is `TokenExpired`, even though the library's leeway would still accept it |
| PasswordPolicy.ValidatePassword | src/services.rs:42-55 | Refuses exactly the passwords that are blank or lack an ASCII lower-case letter, an ASCII upper-case letter, an ASCII digit or a non-ASCII-alphanumeric character, with the rule's message |
| PasswordPolicy.HasAllClasses | src/services.rs:49-55 | One character of each class suffices for acceptance |
| PasswordPolicy.PasswordsAccepted | src/services.rs:98-103 | The test vectors `Password1!`, `P@ssw0rd`, `P@ssw0rd!123` are accepted |
| PasswordPolicy.PasswordsRefused | src/services.rs:105-112 | The test vectors `""`, `password`, `PASSWORD`, `password1`, `Password!` are refused |
| PasswordPolicy.EncodeJwt | src/services.rs:76-86 | Encoding fails exactly when `JWT_SECRET` is unset; otherwise it signs with that secret claims with `sub = user`, `iat = now` and `exp = iat + 24 h` |
| PasswordPolicy.DecodeJwt | src/services.rs:88-92 | An unset secret is an environment error; otherwise the library's verdict, returning the token's own claims |
| PasswordPolicy.EncodeDecodeRoundTrip | src/services.rs:76-92 | Under one secret, a token encoded at `issued` decodes to its subject until a day plus leeway later, and a malformed string never decodes |
| ValidationService.ValidateUsername | src/services/user/validation_service.rs:6-30 | Refuses exactly the names that are blank or contain a character other than a Unicode alphanumeric, `_` or `-` |
| ValidationService.ValidatePassword | src/services/user/validation_service.rs:15-38 | Refuses exactly the passwords that are blank or lack an ASCII lower, an ASCII upper, an ASCII digit, or a character that is not Unicode-alphanumeric |
| ValidationService.UsernameNonEmptySuffices | src/services/user/validation_service.rs:25-30 | Since no allowed character is white space, "not blank" reduces to "not empty" |
| ValidationService.StricterThanAsciiRule | src/services/user/validation_service.rs:32-38 | Every password this rule accepts is accepted by the ASCII rule of `services.rs` |
| ValidationService.AccentedLetterSeparatesRules | src/services/user/validation_service.rs:32-38 | `Pa1é` passes the ASCII rule of `services.rs` but not this one, since `é` is alphanumeric |
| ValidationService.HasAllClasses | src/services/user/validation_service.rs:32-38 | One character of each class suffices |
| ValidationService.UsernamesAccepted | src/services/user/validation_service.rs:44-50 | The accepted user-name test vectors pass |
| ValidationService.UsernamesRefused | src/services/user/validation_service.rs:52-58 | The refused user-name test vectors fail |
| ValidationService.PasswordsAccepted | src/services/user/validation_service.rs:60-65 | The accepted password test vectors pass |
| ValidationService.PasswordsRefused | src/services/user/validation_service.rs:67-74 | The refused password test vectors fail |
| LegacyValidation.ValidateUsername | src/service/validation.rs:3-24 | Refuses exactly the names the user-name rule rejects, with its message |
| LegacyValidation.ValidatePassword | src/service/validation.rs:12-32 | Refuses exactly the passwords the four-class rule rejects, with its message |
| LegacyValidation.SameRulesAsUserService | src/service/validation.rs:19-68 | Both copies give the same verdict and message on every input, so the shared test vectors carry over |
| InputValidation.EmailRecogniserMatchesPattern | src/utils/validation.rs:22-25 | The hand-written recogniser accepts exactly what `^[A-Za-z0-9._%+-]+@[A-Za-z0-9.-]+\.[A-Za-z]{2,}$` matches |
| InputValidation.ValidateEmail | src/utils/validation.rs:8-13 | Refuses exactly the strings the pattern rejects, with "Invalid email address" |
| InputValidation.RefusedWithoutAt | src/utils/validation.rs:22-25 | A string without `@` is refused |
| InputValidation.RefusedWithoutDotAfterAt | src/utils/validation.rs:22-25 | A string with no dot after its `@` is refused |
| InputValidation.EmailsRefused | src/utils/validation.rs:57-63 | `user@example`, `user.example.com`, `user@examplecom`, `user@exa$mple.com` are refused |
| InputValidation.DollarInDomainRefused | src/utils/validation.rs:62 | A `$` inside the domain label fails the domain character rule |
| InputValidation.EmailAccepted | src/utils/validation.rs:22-25 | An ordinary address `user@example.com` passes |
| InputValidation.ValidatePassword | src/utils/validation.rs:15-34 | Refuses exactly the passwords lacking one of the four ASCII classes (no blank check) |
| InputValidation.SameAsServiceRule | src/utils/validation.rs:27-34 | The missing blank check changes nothing: the verdicts equal those of `services.rs` |
| BearerExtractor.ExtractJwtToken | src/utils/extractor.rs:54-78 | No header → `MissingAuthorizationHeader`; non-visible-ASCII → `NonUtf8Header`; no exact `Bearer ` prefix → `InvalidHeaderFormat`; blank remainder → `InvalidHeaderContent`; otherwise the trimmed remainder, non-empty with no surrounding white space, each as an iff |
| BearerExtractor.ExtractRoundTrip | src/utils/extractor.rs:70-77 | Any token without surrounding white space, written after `Bearer ` with any padding, is read back unchanged |
| BearerExtractor.ExtractRefusals | src/utils/extractor.rs:85-114 | The test scenarios: no header, `Invalid`, `Bearer ` fail with the three errors |
| BearerExtractor.ExtractAccepts | src/utils/extractor.rs:116-132 | `Bearer valid.jwt.token` and the padded form yield `valid.jwt.token` |
| RateLimitKeys.IpAddressOf | src/middlewares/rate_limit.rs:18-29 | The reported address, else `127.0.0.1` |
| RateLimitKeys.GenerateKey | src/middlewares/rate_limit.rs:46-59 | Never fails; `IpAddress` keys by address; `Token` by the extracted token, falling back to the address; `TokenOrIpWithPath` by that identifier, `:`, and the path |
| RateLimitKeys.PathKeyExtendsTokenKey | src/middlewares/rate_limit.rs:52-57 | The path key extends the token key, and for equal-length paths equal path keys mean equal token keys and paths |
| RateLimitKeys.KeyFallbacks | src/middlewares/rate_limit.rs:46-59 | The address key ignores headers; no header falls back to the address; a well-formed bearer header keys by its token |
| RateLimitConfig.TryFrom | src/configuration/rate_limit.rs:26-40 | Accepts exactly the ASCII-case-insensitive names `token`, `ip-address`, `token-or-ip-with-path`; otherwise the error quotes the lower-cased text |
| RateLimitConfig.TryFromAsStr | src/configuration/rate_limit.rs:16-40 | Every strategy parses back from its name in any capitalisation, and parsing ignores capitalisation |
| RateLimitConfig.Default | src/configuration/rate_limit.rs:51-61 | 100 requests per 60-second window, no error message, `redis://127.0.0.1`, `Token` keys |
| RateLimitConfig.Build | src/configuration/rate_limit.rs:133-219 | Each setting comes from the builder when set (the error message only from there); otherwise requests, window and key strategy come from a readable environment value and the Redis URL from any set value; an unset or unreadable value gives the default |
| RateLimitConfig.BuildWithNothingIsDefault | src/configuration/rate_limit.rs:133-219 | With nothing set, or only unreadable environment values, building gives the defaults |
| RedisConfig.Default | src/configuration/redis.rs:18-31 | Port 6379, host 127.0.0.1, db 0, no TLS, timeout 5, keep-alive, no credentials |
| RedisConfig.ToConnectionString | src/configuration/redis.rs:67-79 | The URL starts with `rediss://` iff TLS is on, followed by the credentials and the host then `:` |
| RedisConfig.PortAndDbRoundTrip | src/configuration/redis.rs:75-78 | The port and database index can be read back from the URL, whatever the host and credentials contain |
| RedisConfig.DefaultConnectionString | src/configuration/redis.rs:319-323 | With every setting at its default the URL is `redis://127.0.0.1:6379/0` |
| RedisConfig.PasswordConnectionString | src/configuration/redis.rs:325-335 | A password without a user name gives `redis://secret@127.0.0.1:6379/0` |
| RedisConfig.TlsConnectionString | src/configuration/redis.rs:337-344 | TLS switches the scheme: `rediss://127.0.0.1:6379/0` |
| RedisConfig.UsernameAloneIsDropped | src/configuration/redis.rs:69-73 | A user name without a password does not change the URL |
| DatabaseConfig.Default | src/configuration/database.rs:19-30 | Port 5432, host 127.0.0.1, empty credentials and name, SSL mode `Prefer` |
| DatabaseConfig.TryFrom | src/configuration/database.rs:78-92 | Accepts exactly the case-insensitive `require`, `prefer`, `disable`; otherwise the error quotes the lower-cased text |
| DatabaseConfig.TryFromAsStr | src/configuration/database.rs:78-111 | Every mode parses back from its name in any capitalisation |
| EnvironmentConfig.TryFrom | src/configuration/environment.rs:17-30 | Accepts exactly the case-insensitive `development`, `production`; otherwise the error quotes the lower-cased text |
| EnvironmentConfig.TryFromAsStr | src/configuration/environment.rs:8-30 | Every environment parses back from its name in any capitalisation |
| SessionModels.NewRefreshToken | src/models/token.rs:21-32 | A new row is not revoked, copies user, token and expiry verbatim, and is stamped `now` |
| SessionModels.Serialize | src/models/token.rs:8-19 | The serialised row has every field but the token |
| SessionModels.TokenIsRedacted | src/models/token.rs:47-55 | Neither the serialised form nor the `Display` text depends on the token |
| SessionModels.NewRefreshTokenLifetime | src/models/token.rs:34-36 | A new row is expired iff `now > expires_at`; it is not expired at exactly `expires_at` |
| SessionModels.NewSession | src/models/session.rs:20-31 | A new session is not revoked, keeps user and refresh token, and expires `duration` after its creation instant `now` |
| SessionModels.SessionLifetime | src/models/session.rs:33-35 | A session with non-negative duration is live when created and expired iff `now > created + duration` |
| RefreshTokenStore.ErrorText | src/services/refresh_token.rs:8-15 | The two named failures have their fixed texts; a database failure shows its own message unchanged |
| RefreshTokenStore.TransparentTextIsAmbiguous | src/services/refresh_token.rs:8-15 | The named texts differ, but a database failure with the same message reads exactly like either of them |
| RefreshTokenStore.GetByUserId | src/services/refresh_token.rs:50-54 | Returns a row of the user, and none iff the user has no row |
| RefreshTokenStore.GetByToken | src/services/refresh_token.rs:56-60 | Returns a row holding the token, and none iff no row holds it |
| RefreshTokenStore.Create | src/services/refresh_token.rs:36-48 | Fails `RefreshTokenAlreadyExists` with the store unchanged iff the user has a row; otherwise appends one fresh row expiring at the service's fixed instant |
| RefreshTokenStore.Revoke | src/repositories/refresh_token.rs:71-86 | Fails with the database's no-row error iff the user has no row; otherwise flips only the revoked flag and stamp of the user's rows, keeping them |
| RefreshTokenStore.Delete | src/services/refresh_token.rs:68-72 | Never fails; afterwards the user has no row, every other row stays, and nothing new appears |
| RefreshTokenStore.FilterKeepsAtMostOne | src/repositories/refresh_token.rs:88-99 | Removing rows keeps the table at one row per user |
| RefreshTokenStore.OperationsKeepAtMostOne | src/services/refresh_token.rs:36-72 | `create`, `revoke` and `delete` keep the table at one row per user |
| RefreshTokenStore.CreatedRowsShareExpiry | src/configuration/base.rs:248-252 | Every created row gets the instant fixed at start-up, whatever the clock, so rows created after it are born expired |
| RefreshTokenStore.DeleteThenCreate | src/services/refresh_token.rs:36-72 | After a delete, a create for the same user succeeds and is the user's only row |
| AuthDto.NewTokenDetails | src/dto/auth.rs:38-51 | Token type `Bearer`, no scope, the other fields as given |
| AuthDto.New | src/dto/auth.rs:69-76 | A bare status and message, with no details |
| AuthDto.SuccessResponse | src/dto/auth.rs:79-86 | Status `Success`, token details present, no error details |
| AuthDto.ErrorResponse | src/dto/auth.rs:89-96 | Status `Error`, message "Authentication failed", error details present, no token details |
| AuthDto.ResponsesAreTellable | src/dto/auth.rs:53-101 | `get_token` returns the token put in; `is_success` holds of success responses and not of error responses |
| AuthErrors.Description | src/utils/error.rs:42-101 | Wrapped user-service and store failures show the wrapped error's own text; hashing and JWT failures show their tag followed by the message |
| AuthErrors.TaggedDescriptions | src/utils/error.rs:68-78 | A hashing failure never reads as a JWT failure, and its description determines its message |
| AuthErrors.ToResponse | src/utils/error.rs:42-101 | Every error becomes an error response with the fixed message, no token details, the kind's code and no link |
| AuthErrors.IntoAuthResponse | src/utils/error.rs:108-114 | Defined on failures only; gives the error response of the failure |
| AuthErrors.CodesIdentifyKind | src/utils/error.rs:44-98 | Two errors share a code iff they are of the same kind |
| AuthErrors.EveryFailureIsAnErrorResponse | src/utils/error.rs:42-101 | Whatever the failure, the response is not a success, carries the fixed message and the code, and a wrapped store error keeps its text |
| AuthService.UserById | src/repositories/user.rs:36-48 | The account found has the id; none iff no account has it |
| AuthService.UserByEmail | src/repositories/user.rs:50-62 | The account found has the email; none iff no account has it |
| AuthService.DeleteUser | src/repositories/user.rs:116-127 | No account with the id remains; the others stay |
| AuthService.SetEmail | src/repositories/user.rs:80-96 | The accounts with the id get the email; all others are untouched |
| AuthService.SetPasswordHash | src/repositories/user.rs:98-114 | The accounts with the id get the hash; all others are untouched |
| AuthService.UpdatedUserFound | src/repositories/user.rs:80-114 | After rewriting an account's fields, looking it up by id finds the rewritten account |
| AuthService.ValidateRefreshToken | src/services/auth.rs:153-172 | An unstored token is `Invalid` with the tables unchanged; a stored token that is expired, revoked or does not decode is `Invalid` and its owner's rows are deleted; otherwise `Valid(row)` with nothing written |
| AuthService.RefreshAccessToken | src/services/auth.rs:128-151 | `Invalid` → `InvalidToken`; `Valid` → a fresh access token for the row's subject and email, with no refresh token, and no write |
| AuthService.StoreToken | src/services/auth.rs:33-41 | The store's `create`, its failure wrapped as `RefreshTokenServiceError` |
| AuthService.GenerateTokens | src/services/auth.rs:43-81 | As written: succeeds iff the freshly minted token is already stored and live (and the access lifetime is usable), else `InvalidToken` with the validation's deletions; then no row of the user → store the minted token and answer without refresh token; stale row → replace it and hand back the minted token; live row → write nothing and hand back the stored token |
| AuthService.GenerateTokensIntended | src/services/auth.rs:43-81 | The intended issuance: a live stored row is kept, nothing is written and its token handed back; otherwise the user's rows are replaced by one holding the new token, which is handed back; other users' rows are untouched; a failure writes nothing |
| AuthService.Register | src/services/auth.rs:83-106 | A taken email fails before hashing; a hashing failure creates nothing; otherwise the account is created and tokens issued |
| AuthService.Authenticate | src/services/auth.rs:108-126 | Unknown email and wrong password both give `InvalidCredentials` with nothing written; otherwise tokens are issued |
| AuthService.Logout | src/services/auth.rs:153-184 | A live token deletes every row of its owner; otherwise `InvalidToken`, with a stored but dead token's owner losing all rows |
| AuthService.DeleteMe | src/services/auth.rs:186-199 | Succeeds iff the token decodes (access or refresh alike), and then no account and no refresh row of its subject remain; otherwise `JwtError` with nothing written |
| AuthService.GetMe | src/services/auth.rs:201-217 | Returns the account owning a live refresh token, without writing; on an invalid token the tables are as validation leaves them (a dead stored token's owner loses all rows) |
| AuthService.UpdateEmail | src/services/auth.rs:225-248 | A token that does not decode is a JWT error and a missing account `UserNotFound`, both with nothing written; a decoding token whose subject exists always succeeds, replacing that account's email and deleting its rows |
| AuthService.UpdatePassword | src/services/auth.rs:250-281 | A token that does not decode is a JWT error and a missing account `UserNotFound`; for an existing subject a hashing failure is `HashingError` with its message and nothing written, and otherwise it always succeeds, replacing the hash and deleting the subject's rows |
| AuthService.AsWrittenIssuanceNeedsStoredToken | src/services/auth.rs:44-49 | As written, issuance succeeds only if the just-minted token is already a live stored row |
| AuthService.AsWrittenRegistrationFails | src/services/auth.rs:83-126 | With an empty refresh store, registration creates the account and then fails `InvalidToken`; logging in afterwards with the right password fails `InvalidToken` too and writes nothing |
| AuthService.IntendedIssuanceSucceeds | src/services/auth.rs:43-81 | The intended issuance always succeeds |
| AuthService.DeletedOwnerTokensGone | src/services/auth.rs:162-167 | After deleting a user's rows no row holds a token of that user |
| AuthService.IntendedTokensRefresh | src/services/auth.rs:61-66 | A refresh token issued to a user with no row refreshes to an access token for that user while the fixed expiry lies ahead |
| AuthService.LogoutEndsSession | src/services/auth.rs:174-184 | After logout the same refresh token is `Invalid` at every later instant |
| AuthService.CredentialChangeEndsSessions | src/services/auth.rs:225-281 | After an email or password change the subject has no stored row |
| AuthService.PasswordChangeStoresHash | src/services/auth.rs:250-281 | After a password change the account holds the new hash |
| AuthService.EmailChangeStoresEmail | src/services/auth.rs:225-248 | After an email change the account is found under the new email |
| AuthService.DeleteMeAcceptsRefreshToken | src/services/auth.rs:186-199 | With the untagged codec a refresh token is accepted by `delete_me` |
| AuthService.IntendedRegisterThenGetMe | src/services/auth.rs:83-217 | After an intended registration, `get_me` with the issued refresh token returns the new account |
| AuthService.IntendedRegisterThenLogin | src/services/auth.rs:83-126 | After an intended registration, logging in with the hashed password succeeds, writes nothing and hands back the refresh token the registration issued |
| AuthService.DeleteKeepsAtMostOne | src/services/auth.rs:162-167 | Deleting a user's rows keeps one row per user |
| AuthService.ValidateKeepsAtMostOne | src/services/auth.rs:153-172 | Validation keeps one row per user |
| AuthService.EndpointsKeepAtMostOne | src/services/auth.rs:174-281 | Logout, delete and the credential changes keep one row per user |
| AuthService.StoreKeepsAtMostOne | src/services/auth.rs:33-41 | Storing for a user with no row keeps one row per user |
| AuthService.IssuanceKeepsAtMostOne | src/services/auth.rs:43-81 | Both issuances keep one row per user |
| EmailVerification.ErrorText | src/services/email_verification/email_verification_service.rs:8-19 | The database and mail failures quote their message after their own prefix |
| EmailVerification.ErrorTextInjective | src/services/email_verification/email_verification_service.rs:8-19 | Distinct failures have distinct texts, so the text determines the failure and its message |
| EmailVerification.ByUser | src/repositories/email_verification.rs:58-69 | A record of the user; none iff the user has none |
| EmailVerification.ByTokenHash | src/repositories/email_verification.rs:115-126 | A record with the hash; none iff none has it |
| EmailVerification.CreateVerification | src/services/email_verification/email_verification_service.rs:40-77 | As written, refused `VerificationNotFound` with nothing written iff the user has no record; intended, refused iff the user is unknown; a created record is unused, expires `hours × 3600` after `now` and stores the token's hash |
| EmailVerification.VerifyEmail | src/services/email_verification/email_verification_service.rs:79-112 | Unknown hash → `VerificationNotFound`; used → `VerificationAlreadyUsed` (before the expiry check); `expires_at < now` → `VerificationExpired`; otherwise the record becomes used and the user verified |
| EmailVerification.DeleteById | src/repositories/email_verification.rs:71-77 | No record with the id remains; the others stay |
| EmailVerification.ResendVerification | src/services/email_verification/email_verification_service.rs:114-139 | An unused, unexpired record refuses the resend with nothing deleted; a used or expired record is deleted and creation runs on the rest; no record → plain creation |
| EmailVerification.CleanupExpired | src/services/email_verification/email_verification_service.rs:141-147 | Removes exactly the expired, unused records |
| EmailVerification.AsWrittenResendLosesRecord | src/services/email_verification/email_verification_service.rs:114-139 | As written, a resend for a user whose only record is stale deletes it and then fails `VerificationNotFound` |
| EmailVerification.AsWrittenFirstCreateFails | src/services/email_verification/email_verification_service.rs:46-55 | As written, a user without a record can never get one |
| EmailVerification.IntendedCreateThenVerify | src/services/email_verification/email_verification_service.rs:40-112 | With the intended guard, a created verification is redeemed by its token before expiry and marks the user verified |
| EmailVerification.IntendedResendRenews | src/services/email_verification/email_verification_service.rs:114-139 | With the intended guard, a registered user whose only record is stale ends with exactly one record, fresh and unused, and records stay one per user |
| EmailVerification.UsedBeforeExpired | src/services/email_verification/email_verification_service.rs:91-99 | A used record is reported used even after it expired |
| EmailVerification.CleanupIdempotent | src/services/email_verification/email_verification_service.rs:141-147 | A second cleanup at the same instant removes nothing more; used records survive |
| UserService.ErrorText | src/services/user/user_service.rs:16-33 | Each failure's text quotes the name, email, id or message it carries after its own prefix |
| UserService.ErrorTextInjective | src/services/user/user_service.rs:16-33 | Distinct failures have distinct texts, so the text determines the failure and the value it quotes |
| UserService.ById | src/services/user/user_service.rs:97-101 | A user with the id; none iff none has it |
| UserService.ByUsername | src/services/user/user_service.rs:61-69 | A user with the name; none iff none has it |
| UserService.ByEmail | src/services/user/user_service.rs:61-73 | A user with the email; none iff none has it |
| UserService.Create | src/services/user/user_service.rs:54-91 | DTO validation (`ValidationError`), then taken username (`UsernameExists`), then taken email (`EmailExists`), then hashing (`HashError` with its message); each failure writes nothing; succeeds iff none applies, appending an unverified user |
| UserService.Replace | src/services/user/user_service.rs:109-117 | Only the row with the id changes |
| UserService.Update | src/services/user/user_service.rs:93-126 | A failed DTO validation is `ValidationError`, a missing id `UserNotFound`, a name held by another user `UsernameExists`; it succeeds iff none of these applies, so a free name or the user's own succeeds; success changes the name and stamp, keeping email, hash and creation time |
| UserService.ChangePassword | src/services/user/user_service.rs:128-157 | Checked in order: a failed DTO validation is `ValidationError`, a missing user `UserNotFound`, an unreadable stored hash `HashError`, a wrong current password `InvalidPassword`, a failed hashing `HashError`; failures write nothing, and with none of these it succeeds and stores the new hash |
| UserService.ChangePasswordKeepsUnique | src/services/user/user_service.rs:128-157 | Changing a password keeps ids, usernames and emails unique, and the lookup by id then finds the new hash |
| UserService.UpdateEmail | src/services/user/user_service.rs:159-175 | A failed DTO validation is `ValidationError`; an email held by another user is `EmailExists`; otherwise it succeeds, the user's own email included, and rewrites the email and stamp |
| UserService.Search | src/services/user/user_service.rs:228-257 | A blank query is `SearchQuery` before the table is read; otherwise the query's result |
| UserService.CountSearch | src/services/user/user_service.rs:268-278 | The same blank-query guard for counting |
| UserService.ErrorPrecedence | src/service/user.rs:50-86 | A taken username wins over a taken email; a blank query is refused |
| UserService.CreateKeepsUnique | src/services/user/user_service.rs:54-91 | Creating keeps ids, names and emails unique |
| UserService.UniqueLookups | src/services/user/user_service.rs:93-175 | In a unique table, each lookup finds the row that holds its key |
| UserService.UpdateKeepsUnique | src/services/user/user_service.rs:93-126 | Renaming keeps the table unique |
| UserService.UpdateEmailKeepsUnique | src/services/user/user_service.rs:159-175 | Changing an email keeps the table unique |
| UserService.GenerationsDifferOnlyInFlag | src/service/user.rs:88-120 | The two generations of `update` agree except that the older one takes the verified flag from the request |
| UserRepository.ErrorText | src/repository/user.rs:13-35 | The display texts, quoting the id, email or database message |
| UserRepository.ValidateUser | src/repository/user.rs:72-93 | Valid iff non-empty username, present non-empty email matching the pattern and non-empty password; the failures `EmptyUsername`, `EmptyEmail`, `InvalidEmail`, `EmptyPassword` in that order |
| UserRepository.FindById | src/repository/user.rs:134-141 | A user with the id; none iff none has it |
| UserRepository.FindByUsername | src/repository/user.rs:143-158 | An empty name is `EmptyUsername`; otherwise a user whose name equals it ignoring ASCII case, none iff there is none |
| UserRepository.FindByEmail | src/repository/user.rs:160-175 | An empty email is `EmptyEmail`; otherwise a user whose email equals it ignoring ASCII case, none iff there is none |
| UserRepository.Create | src/repository/user.rs:42-70 | Validation, then taken username, then taken email; failures write nothing; success appends the row with its new id and stamps |
| UserRepository.Window | src/repository/user.rs:114-124 | At most `limit` rows, starting with row `offset` when there is one |
| UserRepository.FindAll | src/repository/user.rs:105-132 | `limit` defaults to 10, `offset = page × limit`; an empty page is `EmptyTable`, otherwise the rows `offset` up to `offset + limit` |
| UserRepository.Update | src/repository/user.rs:177-222 | Succeeds iff the username and the email (when given and non-empty) are free or this row's and the id exists: a taken name is refused first, then an empty email (`EmptyEmail`) or a taken one (`EmailAlreadyTaken`), then a missing id; success rewrites name, email and stamp of the row with the id |
| UserRepository.UpdatePassword | src/repository/user.rs:224-247 | Succeeds iff the password is non-empty and a row has the id; an empty password is `EmptyPassword`, a missing id `UserNotFound(id)`; success rewrites that row's password |
| UserRepository.Delete | src/repository/user.rs:249-260 | Fails `UserNotFound(id)` iff no row has the id; on success every row with the id is gone and each other row is kept exactly as often as before, nothing added |
| UserRepository.Search | src/repository/user.rs:262-284 | Empty query → `EmptyTextSearch`; no match → `EmptyTable`; otherwise exactly the matching rows |
| UserRepository.CreateThenFind | src/repository/user.rs:42-70 | A created user is found under its name in any ASCII capitalisation |
| UserRepository.ValidationOrder | src/repository/user.rs:72-93 | An empty username wins over a missing email, which wins over an empty password |
| UserRepository.PagingDefaults | src/repository/user.rs:105-132 | With no arguments the first ten rows come back; page `p` of limit `l` starts at row `p × l` |
| UserRepository.PagesTile | src/repository/user.rs:105-132 | Row `i` is at position `i mod l` of page `i div l`, so the pages tile the table |
| UserRepository.DeleteTwice | src/repository/user.rs:249-260 | A second delete of the same id fails `UserNotFound` |
| UserRepository.UpdateThenFindById | src/repository/user.rs:177-222 | After an update, the row read back by id is the one returned |
| UserRepository.UpdatePasswordThenFindById | src/repository/user.rs:224-247 | After a password update, the row read back by id has the new password and is otherwise unchanged |

## Left out

- Database failures, transactions and concurrency. Every query succeeds unless the code itself raises an error. Concurrent logins and the atomicity of the delete-then-store sequences are not modelled.
- Argon2 hashing and verification, HMAC signing, SHA-256, base64 and random generation. Hash outcomes, the verify result, random tokens and the token-hash function are parameters.
- Unicode: `char::is_alphanumeric` is exact for ASCII and Latin-1 and treats characters above U+00FF as not alphanumeric. `to_lowercase` and SQL `LOWER` are modelled as ASCII lower-casing. For the enum parsers this decides acceptance exactly, since only ASCII names are accepted, but the error text quoting a refused value keeps its non-ASCII letters unlowered where Rust's `to_lowercase` would lower them. For the case-insensitive lookups and the search of `UserRepository`, which compare arbitrary stored text, a database lowering non-ASCII letters would match names such as "É" and "é" that the model keeps apart.
- Integer widths: `i64` timestamps and offsets, `u16` ports, and `usize`/`u64` counts are unbounded integers, so overflow of `page × limit` or `now + duration` is not modelled. Time has whole seconds only.
- HTTP handlers, routing, email sending, `main`, and the environment readers, apart from the rate-limit builder's fallbacks.
- The `todo!()` stubs `get_all_users`, `revoke_user_refresh_token` and `delete_user` in `src/services/auth.rs`: they have no behaviour to model.
- The user service behind `AuthService` (`src/services/user.rs` and `src/repositories/user.rs`). It is modelled as the minimal account table its calls need. Its error texts enter `AuthErrors.Description` as the parameter `userText`.
- The `jsonwebtoken` crate's error messages, which enter as `libText`.
- `Display for Session`, which prints the refresh token itself; only the refresh-token row's redacted `Display` is modelled.
- The repository behind `src/services/user/user_service.rs` and `src/service/user.rs`. What a search returns and counts is a parameter, as is the outcome of `validator` DTO validation (an optional message).
- UserService.Search: states only the blank-query guard and that the query's result is passed through, because the SQL behind it is not part of this model.
- `ILIKE` wildcards in `UserRepository.Search`: `%` and `_` inside the query are taken literally.
- `ORDER BY created_at DESC` in `UserRepository.FindAll`: the table is taken as already listed in that order.
- `get_all`, `count` and similar one-line pass-throughs of the services to their repositories.
- The redis `to_connection_info` parser and the builders' environment plumbing for Redis and the database.
- AuthErrors.Description: it models the description an error response carries, which for a hashing or JWT failure is the wrapped error's own text (`` `HASHING_ERROR` `` or `` `JWT_ERROR` `` and the message). `Display` of `AuthServiceError` itself is not modelled: for those two kinds it is the literal word "transparent" (src/utils/error.rs:26-30), and no response uses it.
- RateLimitKeys.GenerateKey: the middleware reads the token with `TokenExtract::extract`, whose definition is not part of this model; `BearerExtractor.ExtractJwtToken` (`extract_jwt_token`) stands in for it, on the assumption that it applies the same `Bearer` rules.
- RateLimitKeys.PathKeyExtendsTokenKey: stated for paths of equal length, because with `:` allowed in both tokens and paths, different token/path pairs can produce the same key.

## Findings

| source | as written | input that shows it | evidently intended | confidence | as-written member | corrected member |
|---|---|---|---|---|---|---|
| src/services/auth.rs:43-81 | `generate_tokens` first passes the refresh token it has just minted to `refresh_access_token`, which looks the token up in the store; a token that has not been stored yet is `Invalid`, so the call fails with `InvalidToken` | any registration or login while the store holds no row with that exact token string, e.g. the first login of a new user | mint both tokens, store the refresh token (replacing a stale row, keeping a live one) and return both | not executed | AuthService.GenerateTokens (shown by AuthService.AsWrittenRegistrationFails and AuthService.AsWrittenIssuanceNeedsStoredToken) | AuthService.GenerateTokensIntended (proved by AuthService.IntendedIssuanceSucceeds, AuthService.IntendedTokensRefresh, AuthService.IntendedRegisterThenGetMe and AuthService.IntendedRegisterThenLogin) |
| src/services/email_verification/email_verification_service.rs:46-55 | `create_verification` returns `VerificationNotFound` when the user has no verification record, i.e. it refuses exactly the users who need one | a user with no record yet; also `resend_verification` for a user whose record is stale, which deletes it and then fails | refuse only users that do not exist, and create a record otherwise | not executed | EmailVerification.CreateVerification with `AsWritten` (shown by EmailVerification.AsWrittenFirstCreateFails and EmailVerification.AsWrittenResendLosesRecord) | EmailVerification.CreateVerification with `Intended` (proved by EmailVerification.IntendedCreateThenVerify and EmailVerification.IntendedResendRenews) |

=== FILE: auth_dto.dfy ===
/** The response bodies of the authentication endpoints (`dto::auth`): an outcome with a
    fixed message, carrying token details on success and error details on failure. */
module AuthDto {
  import opened Wrappers
  import opened Jwt

  datatype AuthStatus = Success | Error

  /** Token details in the shape of section 5.1 of RFC 6749: the token, its type, the
      seconds it has left, and optionally a scope and a refresh token. */
  datatype TokenDetails = TokenDetails(
    tokenType: string,
    token: Token,
    expiresIn: int,
    scope: Option<string>,
    refreshToken: Option<Token>)

  /** `TokenDetails::new`: a bearer token without scope. */
  function NewTokenDetails(token: Token, expiresIn: int, refreshToken: Option<Token>): (d: TokenDetails)
    ensures d.tokenType == "Bearer" && d.scope.None?
    ensures d.token == token && d.expiresIn == expiresIn && d.refreshToken == refreshToken
  {
    TokenDetails("Bearer", token, expiresIn, None, refreshToken)
  }

  /** `get_token`. */
  function GetToken(d: TokenDetails): Token {
    d.token
  }

  datatype ErrorDetails = ErrorDetails(error: string, errorDescription: string, errorUri: Option<string>)

  datatype AuthResponse = AuthResponse(
    status: AuthStatus,
    message: string,
    tokenDetails: Option<TokenDetails>,
    errorDetails: Option<ErrorDetails>)

  /** `AuthResponse::new`: a bare status and message. */
  function New(status: AuthStatus, message: string): (r: AuthResponse)
    ensures r.status == status && r.message == message
    ensures r.tokenDetails.None? && r.errorDetails.None?
  {
    AuthResponse(status, message, None, None)
  }

  /** `AuthResponse::success`. */
  function SuccessResponse(details: TokenDetails, message: string): (r: AuthResponse)
    ensures r.status == Success && r.message == message
    ensures r.tokenDetails == Some(details) && r.errorDetails.None?
  {
    AuthResponse(Success, message, Some(details), None)
  }

  /** `AuthResponse::error`: always the same message. */
  function ErrorResponse(details: ErrorDetails): (r: AuthResponse)
    ensures r.status == Error && r.message == "Authentication failed"
    ensures r.tokenDetails.None? && r.errorDetails == Some(details)
  {
    AuthResponse(Error, "Authentication failed", None, Some(details))
  }

  /** `is_success`. */
  predicate IsSuccess(r: AuthResponse) {
    r.status == Success
  }

  /** The token put into details is the token read back; a success response reports
      success and an error response does not, and neither carries the other's details. */
  lemma ResponsesAreTellable(token: Token, expiresIn: int, refresh: Option<Token>, message: string, e: ErrorDetails)
    ensures GetToken(NewTokenDetails(token, expiresIn, refresh)) == token
    ensures IsSuccess(SuccessResponse(NewTokenDetails(token, expiresIn, refresh), message))
    ensures !IsSuccess(ErrorResponse(e))
    ensures IsSuccess(New(Success, message)) && !IsSuccess(New(Error, message))
    ensures SuccessResponse(NewTokenDetails(token, expiresIn, refresh), message) != ErrorResponse(e)
  {}
}

=== FILE: auth_errors.dfy ===
/** The authentication service's error type (`utils::error::AuthServiceError`) and its
    conversion into an error response. */
module AuthErrors {
  import opened Wrappers
  import opened Jwt
  import opened AuthDto
  import opened RefreshTokenStore
  import Text

  /** The user-service failures the authentication flow raises or passes on. */
  datatype UserError =
    | UserAlreadyExists
    | UserNotFound
    | UserStoreFailure(message: string)

  datatype AuthServiceError =
    | InvalidCredentials
    | TokenExpired
    | UserServiceError(user: UserError)
    | RefreshTokenServiceError(refresh: RefreshTokenServiceError)
    | HashingError(hashing: string)
    | JwtError(jwt: LibError)
    | InternalServerError
    | InvalidToken
    | UnexpectedError

  /** The short code of each kind of failure. */
  function Code(e: AuthServiceError): string {
    match e
    case InvalidCredentials => "invalid_credentials"
    case TokenExpired => "token_expired"
    case UserServiceError(_) => "user_service_error"
    case RefreshTokenServiceError(_) => "refresh_token_error"
    case HashingError(_) => "hashing_error"
    case JwtError(_) => "jwt_error"
    case InternalServerError => "internal_server_error"
    case InvalidToken => "invalid_token"
    case UnexpectedError => "unexpected_error"
  }

  /** The error description: the service's own text for its own failures, the wrapped
      error's text for wrapped ones. The user service's texts and the `jsonwebtoken`
      crate's texts come from code outside this model and are passed in. */
  function Description(e: AuthServiceError, userText: UserError -> string, libText: LibError -> string): (r: string)
    ensures e.UserServiceError? ==> r == userText(e.user)
    ensures e.RefreshTokenServiceError? ==> r == RefreshTokenStore.ErrorText(e.refresh)
    ensures e.HashingError? ==> r == "`HASHING_ERROR` " + e.hashing
    ensures e.JwtError? ==> r == "`JWT_ERROR` " + libText(e.jwt)
  {
    match e
    case InvalidCredentials => "Invalid credentials provided"
    case TokenExpired => "The provided token has expired"
    case UserServiceError(u) => userText(u)
    case RefreshTokenServiceError(r) => ErrorText(r)
    case HashingError(m) => "`HASHING_ERROR` " + m
    case JwtError(l) => "`JWT_ERROR` " + libText(l)
    case InternalServerError => "An internal server error occurred"
    case InvalidToken => "The token provided is invalid"
    case UnexpectedError => "An unexpected error occurred"
  }

  /** `From<AuthServiceError> for AuthResponse`: an error response carrying the code and
      the description, with no link. */
  function ToResponse(e: AuthServiceError, userText: UserError -> string, libText: LibError -> string): (r: AuthResponse)
    ensures r.status == Error && !IsSuccess(r) && r.message == "Authentication failed"
    ensures r.tokenDetails.None? && r.errorDetails.Some?
    ensures r.errorDetails.value.error == Code(e) && r.errorDetails.value.errorUri.None?
  {
    ErrorResponse(ErrorDetails(Code(e), Description(e, userText, libText), None))
  }

  /** `into_auth_response`: defined on failures only (the code panics on success). */
  function IntoAuthResponse<T>(res: Result<T, AuthServiceError>, userText: UserError -> string, libText: LibError -> string)
    : (r: AuthResponse)
    requires res.Err?
    ensures r.status == Error && r.message == "Authentication failed" && r.tokenDetails.None?
    ensures r.errorDetails.Some? && r.errorDetails.value.error == Code(res.error)
  {
    ToResponse(res.error, userText, libText)
  }

  /** The hashing and JWT descriptions carry their own tags: a hashing failure never
      reads as a JWT failure, and its description gives the hashing message back. */
  lemma TaggedDescriptions(m: string, m': string, l: LibError, userText: UserError -> string, libText: LibError -> string)
    ensures Description(HashingError(m), userText, libText) != Description(JwtError(l), userText, libText)
    ensures Description(HashingError(m), userText, libText) == Description(HashingError(m'), userText, libText) ==> m == m'
  {
    assert Description(HashingError(m), userText, libText)[1] == 'H';
    assert Description(JwtError(l), userText, libText)[1] == 'J';
    if Description(HashingError(m), userText, libText) == Description(HashingError(m'), userText, libText) {
      Text.Unframe("`HASHING_ERROR` ", m, m', "");
    }
  }

  /** Two failures of different kinds never share a code, so the code identifies the
      kind of failure. */
  lemma CodesIdentifyKind(a: AuthServiceError, b: AuthServiceError)
    ensures Code(a) == Code(b) <==>
      (a.InvalidCredentials? && b.InvalidCredentials?) || (a.TokenExpired? && b.TokenExpired?)
      || (a.UserServiceError? && b.UserServiceError?) || (a.RefreshTokenServiceError? && b.RefreshTokenServiceError?)
      || (a.HashingError? && b.HashingError?) || (a.JwtError? && b.JwtError?)
      || (a.InternalServerError? && b.InternalServerError?) || (a.InvalidToken? && b.InvalidToken?)
      || (a.UnexpectedError? && b.UnexpectedError?)
  {}

  /** Whatever the failure, the response is an error with the fixed message. */
  lemma EveryFailureIsAnErrorResponse(e: AuthServiceError, userText: UserError -> string, libText: LibError -> string)
    ensures !IsSuccess(ToResponse(e, userText, libText))
    ensures ToResponse(e, userText, libText).message == "Authentication failed"
    ensures ToResponse(e, userText, libText).errorDetails.value.error == Code(e)
    ensures e.RefreshTokenServiceError? && e.refresh == RefreshTokenAlreadyExists ==>
      ToResponse(e, userText, libText).errorDetails.value.errorDescription == "Refresh token already exists"
  {}
}

=== FILE: auth_service.dfy ===
/** The authentication service (`services::auth::AuthService`): registration, login,
    token refresh, logout and account changes over two tables, the accounts and the
    refresh-token store, with the untagged codec signing the tokens.

    Everything the code reads from outside is a parameter: the clock (`now`), fresh
    identifiers, the outcome of salting and hashing a password, and the outcome of
    checking a password against a stored hash. */
module AuthService {
  import opened Wrappers
  import opened Jwt
  import opened Tables
  import opened SessionModels
  import opened RefreshTokenStore
  import opened AuthDto
  import opened AuthErrors
  import UntypedJwt

  /** The account columns the service reads and writes. */
  datatype Account = Account(id: string, email: string, passwordHash: string)

  datatype Credentials = Credentials(email: string, password: string)

  datatype State = State(users: seq<Account>, tokens: Store)

  /** A result together with the tables as the call leaves them. */
  datatype Outcome<T> = Outcome(result: Result<T, AuthServiceError>, state: State)

  datatype TokenValidity = Valid(row: RefreshToken) | Invalid

  /** Which token issuance the flows use: the one the code has, or the one it evidently
      means (see `GenerateTokensIntended`). */
  datatype Issuance = AsWritten | Intended

  // ---- the account table (`repositories::user::UserRepository`) ----

  /** The `WHERE id = $1` selector of the account queries. */
  function HasId(id: string): Account -> bool {
    (a: Account) => a.id == id
  }

  /** `get_by_id`: the first account with this id. */
  function UserById(users: seq<Account>, id: string): (r: Option<Account>)
    ensures r.Some? ==> r.value in users && r.value.id == id
    ensures r.None? <==> forall i :: 0 <= i < |users| ==> users[i].id != id
  {
    FirstWhere(users, HasId(id))
  }

  /** `get_by_email`: the first account with this email. */
  function UserByEmail(users: seq<Account>, email: string): (r: Option<Account>)
    ensures r.Some? ==> r.value in users && r.value.email == email
    ensures r.None? <==> forall i :: 0 <= i < |users| ==> users[i].email != email
  {
    FirstWhere(users, (a: Account) => a.email == email)
  }

  /** `delete`: every account with this id goes. */
  function DeleteUser(users: seq<Account>, id: string): (r: seq<Account>)
    ensures UserById(r, id).None?
    ensures forall i :: 0 <= i < |users| && users[i].id != id ==> users[i] in r
  {
    Filter(users, (a: Account) => a.id != id)
  }

  /** `update_email`: the email of every account with this id replaced. */
  function SetEmail(users: seq<Account>, id: string, email: string): (r: seq<Account>)
    ensures |r| == |users|
    ensures forall i :: 0 <= i < |users| ==> r[i] == (if users[i].id == id then users[i].(email := email) else users[i])
  {
    UpdateWhere(users, HasId(id), (a: Account) => a.(email := email))
  }

  /** `update_password`: the hash of every account with this id replaced. */
  function SetPasswordHash(users: seq<Account>, id: string, hash: string): (r: seq<Account>)
    ensures |r| == |users|
    ensures forall i :: 0 <= i < |users| ==> r[i] == (if users[i].id == id then users[i].(passwordHash := hash) else users[i])
  {
    UpdateWhere(users, HasId(id), (a: Account) => a.(passwordHash := hash))
  }

  /** The first account with an id still is one after its fields are rewritten. */
  lemma UpdatedUserFound(users: seq<Account>, id: string, f: Account -> Account)
    requires UserById(users, id).Some?
    requires forall a: Account :: f(a).id == a.id
    ensures UserById(UpdateWhere(users, HasId(id), f), id)
            == Some(f(UserById(users, id).value))
  {
    Tables.UpdateThenFirst(users, HasId(id), f);
  }

  // ---- refresh-token validation and token issuance ----

  /** A presented refresh token is live: the store holds it, the row is neither expired
      nor revoked, and the token itself still decodes. */
  predicate IsLive(codec: UntypedJwt.Codec, tokens: Store, t: Token, now: Timestamp) {
    GetByToken(tokens, t).Some?
    && !IsExpired(GetByToken(tokens, t).value, now)
    && !GetByToken(tokens, t).value.isRevoked
    && UntypedJwt.Decode(codec, t, now).Ok?
  }

  /** `validate_refresh_token`: a live token yields its row; a stored but dead token
      costs its owner every stored row. */
  function ValidateRefreshToken(codec: UntypedJwt.Codec, st: State, t: Token, now: Timestamp)
    : (out: (TokenValidity, State))
    ensures out.0.Valid? <==> IsLive(codec, st.tokens, t, now)
    ensures out.0.Valid? ==> out.0.row == GetByToken(st.tokens, t).value && out.1 == st
    ensures GetByToken(st.tokens, t).None? ==> out.1 == st
    ensures out.0.Invalid? && GetByToken(st.tokens, t).Some? ==>
      out.1 == st.(tokens := Delete(st.tokens, GetByToken(st.tokens, t).value.userId))
  {
    match GetByToken(st.tokens, t)
    case None => (Invalid, st)
    case Some(r) =>
      if IsExpired(r, now) || r.isRevoked || UntypedJwt.Decode(codec, t, now).Err? then
        (Invalid, st.(tokens := Delete(st.tokens, r.userId)))
      else
        (Valid(r), st)
  }

  /** `refresh_access_token`: for a live refresh token, a new access token for the same
      subject and email, without a refresh token; otherwise `InvalidToken`. */
  function RefreshAccessToken(codec: UntypedJwt.Codec, st: State, t: Token, now: Timestamp)
    : (out: Outcome<TokenDetails>)
    ensures out.state == ValidateRefreshToken(codec, st, t, now).1
    ensures !IsLive(codec, st.tokens, t, now) ==> out.result == Err(AuthServiceError.InvalidToken)
    ensures out.result.Ok? <==> IsLive(codec, st.tokens, t, now) && codec.config.accessMinutes * 60 + codec.leeway >= 0
    ensures out.result.Ok? ==>
      var d := out.result.value;
      d.tokenType == "Bearer" && d.refreshToken.None?
      && d.token == UntypedJwt.GenerateAccessToken(codec, t.claims.sub, t.claims.email.value, now)
      && d.expiresIn == codec.config.accessMinutes * 60
  {
    var (v, st1) := ValidateRefreshToken(codec, st, t, now);
    match v
    case Invalid => Outcome(Err(AuthServiceError.InvalidToken), st1)
    case Valid(r) =>
      match UntypedJwt.Decode(codec, r.token, now)
      case Err(e) => Outcome(Err(JwtError(e)), st1)
      case Ok(c) =>
        var access := UntypedJwt.GenerateAccessToken(codec, c.sub, c.email.value, now);
        match UntypedJwt.GetExpiresIn(codec, access, now)
        case Err(e) => Outcome(Err(JwtError(e)), st1)
        case Ok(n) => Outcome(Ok(NewTokenDetails(access, n, None)), st1)
  }

  /** `store_token`: the store's `create`, its failure wrapped. */
  function StoreToken(st: State, userId: string, t: Token, rowId: string, now: Timestamp): (out: Outcome<RefreshToken>)
    ensures out.result.Ok? <==> GetByUserId(st.tokens, userId).None?
    ensures out.result.Err? ==> out.result.error == RefreshTokenServiceError(RefreshTokenAlreadyExists) && out.state == st
    ensures out.result.Ok? ==>
      out.state.users == st.users && out.result.value.token == t
      && out.state.tokens.rows == st.tokens.rows + [out.result.value]
    ensures out.result.Ok? ==> GetByUserId(out.state.tokens, userId) == Some(out.result.value)
  {
    var (r, tokens) := Create(st.tokens, userId, t, rowId, now);
    match r
    case Err(e) => Outcome(Err(RefreshTokenServiceError(e)), st)
    case Ok(row) =>
      // the user had no row, so the appended one is the first of theirs
      assert tokens.rows[|st.tokens.rows|] == row;
      Outcome(Ok(row), st.(tokens := tokens))
  }

  /** The user's rows replaced by one new row holding `t`; the other users' rows stay. */
  function ReplaceUserRows(tokens: Store, userId: string, t: Token, rowId: string, now: Timestamp)
    : (r: (RefreshToken, Store))
    ensures r.0 == NewRefreshToken(rowId, userId, t, tokens.expiresAt, now)
    ensures r.1 == Delete(tokens, userId).(rows := Delete(tokens, userId).rows + [r.0])
    ensures GetByUserId(r.1, userId) == Some(r.0)
    ensures forall x: RefreshToken :: x.userId != userId ==> (x in tokens.rows <==> x in r.1.rows)
  {
    var cleared := Delete(tokens, userId);
    var (r, tokens') := Create(cleared, userId, t, rowId, now);
    assert tokens'.rows[|cleared.rows|] == r.value;
    (r.value, tokens')
  }

  /** `generate_tokens` as the code has it: the freshly minted refresh token is first
      run through `refresh_access_token`, which looks it up in the store before it has
      been stored; only afterwards is a row stored or reused. */
  function GenerateTokens(codec: UntypedJwt.Codec, st: State, userId: string, email: string, now: Timestamp, rowId: string)
    : (out: Outcome<TokenDetails>)
    ensures var refresh := UntypedJwt.GenerateRefreshToken(codec, userId, email, now);
            !IsLive(codec, st.tokens, refresh, now) ==>
              out.result == Err(AuthServiceError.InvalidToken)
              && out.state == ValidateRefreshToken(codec, st, refresh, now).1
    ensures out.state.users == st.users
    ensures out.result.Ok? <==>
      IsLive(codec, st.tokens, UntypedJwt.GenerateRefreshToken(codec, userId, email, now), now)
      && codec.config.accessMinutes * 60 + codec.leeway >= 0
    ensures out.result.Ok? && GetByUserId(st.tokens, userId).None? ==>
      out.result.value.refreshToken.None?
      && GetByUserId(out.state.tokens, userId).Some?
      && GetByUserId(out.state.tokens, userId).value.token == UntypedJwt.GenerateRefreshToken(codec, userId, email, now)
    ensures out.result.Ok? && GetByUserId(st.tokens, userId).Some? && !HasLiveRow(st.tokens, userId, now) ==>
      out.result.value.refreshToken == Some(UntypedJwt.GenerateRefreshToken(codec, userId, email, now))
      && GetByUserId(out.state.tokens, userId).Some?
      && GetByUserId(out.state.tokens, userId).value.token == UntypedJwt.GenerateRefreshToken(codec, userId, email, now)
    ensures out.result.Ok? && HasLiveRow(st.tokens, userId, now) ==>
      out.state == st && out.result.value.refreshToken == Some(GetByUserId(st.tokens, userId).value.token)
  {
    var refresh := UntypedJwt.GenerateRefreshToken(codec, userId, email, now);
    var o := RefreshAccessToken(codec, st, refresh, now);
    match o.result
    case Err(e) => Outcome(Err(e), o.state)
    case Ok(details) =>
      var access := GetToken(details);
      match UntypedJwt.GetExpiresIn(codec, access, now)
      case Err(e) => Outcome(Err(JwtError(e)), o.state)
      case Ok(expiresIn) =>
        match GetByUserId(o.state.tokens, userId)
        case None =>
          var s := StoreToken(o.state, userId, refresh, rowId, now);
          Outcome(if s.result.Ok? then Ok(details) else Err(RefreshTokenServiceError(RefreshTokenAlreadyExists)), s.state)
        case Some(stored) =>
          if IsExpired(stored, now) || stored.isRevoked then
            var cleared := o.state.(tokens := Delete(o.state.tokens, userId));
            var s := StoreToken(cleared, userId, refresh, rowId, now);
            Outcome(if s.result.Ok? then Ok(NewTokenDetails(access, expiresIn, Some(refresh)))
                    else Err(RefreshTokenServiceError(RefreshTokenAlreadyExists)), s.state)
          else
            Outcome(Ok(NewTokenDetails(access, expiresIn, Some(stored.token))), o.state)
  }

  /** The user has a stored row that is neither expired nor revoked. */
  predicate HasLiveRow(tokens: Store, userId: string, now: Timestamp) {
    GetByUserId(tokens, userId).Some?
    && !IsExpired(GetByUserId(tokens, userId).value, now)
    && !GetByUserId(tokens, userId).value.isRevoked
  }

  /** The issuance `generate_tokens` evidently means: mint both tokens, keep the user's
      stored refresh token while it is live, otherwise replace the user's rows with the
      new one, and hand the refresh token back in every case. */
  function GenerateTokensIntended(codec: UntypedJwt.Codec, st: State, userId: string, email: string, now: Timestamp, rowId: string)
    : (out: Outcome<TokenDetails>)
    ensures out.state.users == st.users
    ensures out.state.tokens.expiresAt == st.tokens.expiresAt
    ensures out.result.Ok? <==> codec.config.accessMinutes * 60 + codec.leeway >= 0
    ensures out.result.Err? ==> out.state == st
    ensures HasLiveRow(st.tokens, userId, now) ==>
      out.state == st
      && (out.result.Ok? ==> out.result.value.refreshToken == Some(GetByUserId(st.tokens, userId).value.token))
    ensures out.result.Ok? && !HasLiveRow(st.tokens, userId, now) ==>
      out.result.value.refreshToken == Some(UntypedJwt.GenerateRefreshToken(codec, userId, email, now))
    ensures now <= st.tokens.expiresAt && out.result.Ok? ==> HasLiveRow(out.state.tokens, userId, now)
    ensures forall r: RefreshToken :: r.userId != userId ==> (r in st.tokens.rows <==> r in out.state.tokens.rows)
    ensures out.result.Ok? ==>
      var d := out.result.value;
      d.tokenType == "Bearer" && d.refreshToken.Some?
      && d.token == UntypedJwt.GenerateAccessToken(codec, userId, email, now)
      && d.expiresIn == codec.config.accessMinutes * 60
      && GetByUserId(out.state.tokens, userId).Some?
      && GetByUserId(out.state.tokens, userId).value.token == d.refreshToken.value
      && !GetByUserId(out.state.tokens, userId).value.isRevoked
  {
    var refresh := UntypedJwt.GenerateRefreshToken(codec, userId, email, now);
    var access := UntypedJwt.GenerateAccessToken(codec, userId, email, now);
    match UntypedJwt.GetExpiresIn(codec, access, now)
    case Err(e) => Outcome(Err(JwtError(e)), st)
    case Ok(expiresIn) =>
      var stored := GetByUserId(st.tokens, userId);
      if stored.Some? && !IsExpired(stored.value, now) && !stored.value.isRevoked then
        Outcome(Ok(NewTokenDetails(access, expiresIn, Some(stored.value.token))), st)
      else
        var (_, tokens) := ReplaceUserRows(st.tokens, userId, refresh, rowId, now);
        Outcome(Ok(NewTokenDetails(access, expiresIn, Some(refresh))), st.(tokens := tokens))
  }

  function Issue(issuance: Issuance, codec: UntypedJwt.Codec, st: State, userId: string, email: string, now: Timestamp, rowId: string)
    : Outcome<TokenDetails>
  {
    match issuance
    case AsWritten => GenerateTokens(codec, st, userId, email, now, rowId)
    case Intended => GenerateTokensIntended(codec, st, userId, email, now, rowId)
  }

  // ---- the endpoints ----

  /** `register`: a taken email is refused; otherwise the hashed password is stored
      with a new account and tokens are issued for it. A failure to issue tokens does
      not undo the account. */
  function Register(issuance: Issuance, codec: UntypedJwt.Codec, st: State, cred: Credentials, now: Timestamp,
                    userId: string, rowId: string, hashed: Result<string, string>)
    : (out: Outcome<AuthResponse>)
    ensures UserByEmail(st.users, cred.email).Some? ==> out == Outcome(Err(UserServiceError(UserAlreadyExists)), st)
    ensures UserByEmail(st.users, cred.email).None? && hashed.Err? ==> out == Outcome(Err(HashingError(hashed.error)), st)
    ensures out.result.Ok? ==>
      hashed.Ok? && UserByEmail(st.users, cred.email).None?
      && out.state.users == st.users + [Account(userId, cred.email, hashed.value)]
      && IsSuccess(out.result.value) && out.result.value.message == "Registration successful"
  {
    if UserByEmail(st.users, cred.email).Some? then Outcome(Err(UserServiceError(UserAlreadyExists)), st)
    else
      match hashed
      case Err(m) => Outcome(Err(HashingError(m)), st)
      case Ok(h) =>
        var st1 := st.(users := st.users + [Account(userId, cred.email, h)]);
        var o := Issue(issuance, codec, st1, userId, cred.email, now, rowId);
        match o.result
        case Err(e) => Outcome(Err(e), o.state)
        case Ok(d) => Outcome(Ok(SuccessResponse(d, "Registration successful")), o.state)
  }

  /** `authenticate`: an unknown email or a wrong password is `InvalidCredentials`, an
      unreadable stored hash a hashing error; otherwise tokens are issued. `verify`
      stands for checking a password against a stored hash. */
  function Authenticate(issuance: Issuance, codec: UntypedJwt.Codec, st: State, cred: Credentials, now: Timestamp,
                        rowId: string, verify: (string, string) -> Result<bool, string>)
    : (out: Outcome<AuthResponse>)
    ensures UserByEmail(st.users, cred.email).None? ==> out == Outcome(Err(InvalidCredentials), st)
    ensures UserByEmail(st.users, cred.email).Some?
            && verify(cred.password, UserByEmail(st.users, cred.email).value.passwordHash) == Ok(false)
            ==> out == Outcome(Err(InvalidCredentials), st)
    ensures out.result.Ok? ==>
      UserByEmail(st.users, cred.email).Some?
      && verify(cred.password, UserByEmail(st.users, cred.email).value.passwordHash) == Ok(true)
      && IsSuccess(out.result.value) && out.result.value.message == "Authentication successful"
    ensures out.state.users == st.users
  {
    match UserByEmail(st.users, cred.email)
    case None => Outcome(Err(InvalidCredentials), st)
    case Some(u) =>
      match verify(cred.password, u.passwordHash)
      case Err(m) => Outcome(Err(HashingError(m)), st)
      case Ok(ok) =>
        if !ok then Outcome(Err(InvalidCredentials), st)
        else
          var o := Issue(issuance, codec, st, u.id, u.email, now, rowId);
          match o.result
          case Err(e) => Outcome(Err(e), o.state)
          case Ok(d) => Outcome(Ok(SuccessResponse(d, "Authentication successful")), o.state)
  }

  /** `logout`: a live refresh token ends every stored session of its owner. */
  function Logout(codec: UntypedJwt.Codec, st: State, t: Token, now: Timestamp): (out: Outcome<AuthResponse>)
    ensures out.result.Ok? <==> IsLive(codec, st.tokens, t, now)
    ensures out.result.Err? ==> out.result.error == AuthServiceError.InvalidToken
    ensures out.result.Err? ==> out.state == ValidateRefreshToken(codec, st, t, now).1
    ensures out.result.Ok? ==>
      out.result.value == New(Success, "Logout successful") && out.state.users == st.users
      && out.state.tokens == Delete(st.tokens, GetByToken(st.tokens, t).value.userId)
  {
    var (v, st1) := ValidateRefreshToken(codec, st, t, now);
    match v
    case Invalid => Outcome(Err(AuthServiceError.InvalidToken), st1)
    case Valid(r) =>
      Outcome(Ok(New(Success, "Logout successful")), st1.(tokens := Delete(st1.tokens, r.userId)))
  }

  /** `delete_me`: any token that decodes (access or refresh alike) removes its
      subject's sessions and account. */
  function DeleteMe(codec: UntypedJwt.Codec, st: State, access: Token, now: Timestamp): (out: Outcome<AuthResponse>)
    ensures out.result.Ok? <==> UntypedJwt.Decode(codec, access, now).Ok?
    ensures out.result.Err? ==> out.result == Err(JwtError(UntypedJwt.Decode(codec, access, now).error)) && out.state == st
    ensures out.result.Ok? ==>
      out.result.value == New(Success, "Deletion successful")
      && UserById(out.state.users, access.claims.sub).None?
      && GetByUserId(out.state.tokens, access.claims.sub).None?
  {
    match UntypedJwt.Decode(codec, access, now)
    case Err(e) => Outcome(Err(JwtError(e)), st)
    case Ok(c) =>
      Outcome(Ok(New(Success, "Deletion successful")),
              State(DeleteUser(st.users, c.sub), Delete(st.tokens, c.sub)))
  }

  /** `get_me`: the account owning a live refresh token. */
  function GetMe(codec: UntypedJwt.Codec, st: State, t: Token, now: Timestamp): (out: Outcome<Account>)
    ensures !IsLive(codec, st.tokens, t, now) ==> out.result == Err(AuthServiceError.InvalidToken)
    ensures out.state == ValidateRefreshToken(codec, st, t, now).1
    ensures IsLive(codec, st.tokens, t, now) ==> out.state == st
    ensures out.result.Ok? ==> out.result.value in st.users && out.result.value.id == GetByToken(st.tokens, t).value.userId
    ensures IsLive(codec, st.tokens, t, now) && UserById(st.users, GetByToken(st.tokens, t).value.userId).None?
            ==> out.result == Err(UserServiceError(UserNotFound))
  {
    var (v, st1) := ValidateRefreshToken(codec, st, t, now);
    match v
    case Invalid => Outcome(Err(AuthServiceError.InvalidToken), st1)
    case Valid(r) =>
      match UserById(st1.users, r.userId)
      case None => Outcome(Err(UserServiceError(UserNotFound)), st1)
      case Some(u) => Outcome(Ok(u), st1)
  }

  /** `update_email`: the subject's email replaced and all its sessions ended. */
  function UpdateEmail(codec: UntypedJwt.Codec, st: State, access: Token, newEmail: string, now: Timestamp)
    : (out: Outcome<AuthResponse>)
    ensures UntypedJwt.Decode(codec, access, now).Err? ==> out.result.Err? && out.result.error.JwtError? && out.state == st
    ensures UntypedJwt.Decode(codec, access, now).Ok? && UserById(st.users, access.claims.sub).None?
            ==> out == Outcome(Err(UserServiceError(UserNotFound)), st)
    ensures UntypedJwt.Decode(codec, access, now).Ok? && UserById(st.users, access.claims.sub).Some?
            ==> out.result.Ok?
    ensures out.result.Ok? ==>
      out.result.value == New(Success, "Email update successful")
      && out.state.users == SetEmail(st.users, access.claims.sub, newEmail)
      && out.state.tokens == Delete(st.tokens, access.claims.sub)
  {
    match UntypedJwt.Decode(codec, access, now)
    case Err(e) => Outcome(Err(JwtError(e)), st)
    case Ok(c) =>
      match UserById(st.users, c.sub)
      case None => Outcome(Err(UserServiceError(UserNotFound)), st)
      case Some(u) =>
        Outcome(Ok(New(Success, "Email update successful")),
                State(SetEmail(st.users, u.id, newEmail), Delete(st.tokens, u.id)))
  }

  /** `update_password`: the subject's hash replaced and all its sessions ended;
      `hashed` is the outcome of hashing the new password. */
  function UpdatePassword(codec: UntypedJwt.Codec, st: State, access: Token, hashed: Result<string, string>, now: Timestamp)
    : (out: Outcome<AuthResponse>)
    ensures UntypedJwt.Decode(codec, access, now).Err? ==> out.result.Err? && out.result.error.JwtError? && out.state == st
    ensures UntypedJwt.Decode(codec, access, now).Ok? && UserById(st.users, access.claims.sub).None?
            ==> out == Outcome(Err(UserServiceError(UserNotFound)), st)
    ensures UntypedJwt.Decode(codec, access, now).Ok? && UserById(st.users, access.claims.sub).Some? && hashed.Err?
            ==> out == Outcome(Err(HashingError(hashed.error)), st)
    ensures UntypedJwt.Decode(codec, access, now).Ok? && UserById(st.users, access.claims.sub).Some? && hashed.Ok?
            ==> out.result.Ok?
    ensures out.result.Ok? ==>
      hashed.Ok? && out.result.value == New(Success, "Password update successful")
      && out.state.users == SetPasswordHash(st.users, access.claims.sub, hashed.value)
      && out.state.tokens == Delete(st.tokens, access.claims.sub)
    ensures hashed.Err? ==> out.state == st
  {
    match UntypedJwt.Decode(codec, access, now)
    case Err(e) => Outcome(Err(JwtError(e)), st)
    case Ok(c) =>
      match UserById(st.users, c.sub)
      case None => Outcome(Err(UserServiceError(UserNotFound)), st)
      case Some(u) =>
        match hashed
        case Err(m) => Outcome(Err(HashingError(m)), st)
        case Ok(h) =>
          Outcome(Ok(New(Success, "Password update successful")),
                  State(SetPasswordHash(st.users, u.id, h), Delete(st.tokens, u.id)))
  }

  // ---- properties ----

  /** Every stored row holds a token issued to the row's own user, which holds for the
      rows the service itself stores. */
  predicate TokensMatchOwners(rows: seq<RefreshToken>) {
    forall i :: 0 <= i < |rows| && rows[i].token.Signed? ==> rows[i].token.claims.sub == rows[i].userId
  }

  /** As written, issuing tokens fails with `InvalidToken` unless the very token being
      minted is already stored and live, and then the tables are as they were: with an
      empty store no refresh row is ever created. */
  lemma AsWrittenIssuanceNeedsStoredToken(codec: UntypedJwt.Codec, st: State, userId: string, email: string, now: Timestamp, rowId: string)
    requires GetByToken(st.tokens, UntypedJwt.GenerateRefreshToken(codec, userId, email, now)).None?
    ensures GenerateTokens(codec, st, userId, email, now, rowId) == Outcome(Err(AuthServiceError.InvalidToken), st)
  {}

  /** The discrepancy at its plainest: with no refresh rows stored, registering a new
      email creates the account and then fails with `InvalidToken`, and logging in
      afterwards with the right password fails the same way, writing nothing. */
  lemma AsWrittenRegistrationFails(codec: UntypedJwt.Codec, st: State, cred: Credentials, now: Timestamp,
                                   userId: string, rowId: string, hash: string,
                                   verify: (string, string) -> Result<bool, string>)
    requires st.tokens.rows == []
    requires UserByEmail(st.users, cred.email).None?
    requires verify(cred.password, hash) == Ok(true)
    ensures var out := Register(AsWritten, codec, st, cred, now, userId, rowId, Ok(hash));
            out.result == Err(AuthServiceError.InvalidToken)
            && out.state == st.(users := st.users + [Account(userId, cred.email, hash)])
    ensures var after := Register(AsWritten, codec, st, cred, now, userId, rowId, Ok(hash)).state;
            Authenticate(AsWritten, codec, after, cred, now, rowId, verify)
            == Outcome(Err(AuthServiceError.InvalidToken), after)
  {
    var acct := Account(userId, cred.email, hash);
    var st1 := st.(users := st.users + [acct]);
    AsWrittenIssuanceNeedsStoredToken(codec, st1, userId, cred.email, now, rowId);
    assert UserByEmail(st1.users, cred.email) == Some(acct) by {
      assert st1.users[|st.users|] == acct;
    }
  }

  /** Without a live stored row for the new token the as-written flow never succeeds,
      while the intended flow succeeds for every user once the access lifetime is
      non-negative. */
  lemma IntendedIssuanceSucceeds(codec: UntypedJwt.Codec, st: State, userId: string, email: string, now: Timestamp, rowId: string)
    requires codec.config.accessMinutes >= 0
    ensures GenerateTokensIntended(codec, st, userId, email, now, rowId).result.Ok?
    ensures st.tokens.rows == [] ==> GenerateTokens(codec, st, userId, email, now, rowId).result.Err?
  {}

  /** Rows left after deleting a user's rows hold no token of that user. */
  lemma {:induction false} DeletedOwnerTokensGone(tokens: Store, userId: string, t: Token)
    requires TokensMatchOwners(tokens.rows)
    requires t.Signed? && t.claims.sub == userId
    ensures GetByToken(Delete(tokens, userId), t).None?
    ensures TokensMatchOwners(Delete(tokens, userId).rows)
  {
    var d := Delete(tokens, userId);
    forall i | 0 <= i < |d.rows| ensures d.rows[i].token != t
      && (d.rows[i].token.Signed? ==> d.rows[i].token.claims.sub == d.rows[i].userId)
    {
      assert d.rows[i] in tokens.rows;
      assert d.rows[i].userId != userId;
    }
  }

  /** After the user's rows are replaced, the user's own token is found in the new row
      and every stored token still names its row's owner. */
  lemma ReplacedTokenFound(tokens: Store, userId: string, t: Token, rowId: string, now: Timestamp)
    requires TokensMatchOwners(tokens.rows)
    requires t.Signed? && t.claims.sub == userId
    ensures var (r, s) := ReplaceUserRows(tokens, userId, t, rowId, now);
            GetByToken(s, t) == Some(r) && TokensMatchOwners(s.rows)
  {
    var d := Delete(tokens, userId);
    DeletedOwnerTokensGone(tokens, userId, t);
    var (r, s) := ReplaceUserRows(tokens, userId, t, rowId, now);
    assert s.rows[|d.rows|] == r;
  }

  /** With no row for the user yet, the intended issuance stores the refresh token it
      hands back, in a live row, and keeps the store's invariants. */
  lemma IntendedIssuanceStores(codec: UntypedJwt.Codec, st: State, userId: string, email: string, now: Timestamp, rowId: string)
    requires codec.config.accessMinutes >= 0 && codec.config.refreshDays >= 0
    requires now <= st.tokens.expiresAt
    requires TokensMatchOwners(st.tokens.rows) && AtMostOnePerUser(st.tokens.rows)
    requires GetByUserId(st.tokens, userId).None?
    ensures var out := GenerateTokensIntended(codec, st, userId, email, now, rowId);
            var refresh := UntypedJwt.GenerateRefreshToken(codec, userId, email, now);
            out.result.Ok? && out.result.value.refreshToken == Some(refresh)
            && IsLive(codec, out.state.tokens, refresh, now)
            && GetByToken(out.state.tokens, refresh).value.userId == userId
            && TokensMatchOwners(out.state.tokens.rows) && AtMostOnePerUser(out.state.tokens.rows)
  {
    var refresh := UntypedJwt.GenerateRefreshToken(codec, userId, email, now);
    ReplacedTokenFound(st.tokens, userId, refresh, rowId, now);
    ReplaceKeepsAtMostOne(st.tokens, userId, refresh, rowId, now);
  }
  /** Intended issuance for a user with no stored row, with a store whose fixed expiry
      has not passed, yields a refresh token that works: it is found, live, and buys a
      new access token. Both tables keep their invariants. */
  lemma IntendedTokensRefresh(codec: UntypedJwt.Codec, st: State, userId: string, email: string, now: Timestamp, rowId: string)
    requires codec.config.accessMinutes >= 0 && codec.config.refreshDays >= 0
    requires now <= st.tokens.expiresAt
    requires TokensMatchOwners(st.tokens.rows) && AtMostOnePerUser(st.tokens.rows)
    requires GetByUserId(st.tokens, userId).None?
    ensures var out := GenerateTokensIntended(codec, st, userId, email, now, rowId);
            out.result.Ok? && out.result.value.refreshToken == Some(UntypedJwt.GenerateRefreshToken(codec, userId, email, now))
            && IsLive(codec, out.state.tokens, out.result.value.refreshToken.value, now)
            && RefreshAccessToken(codec, out.state, out.result.value.refreshToken.value, now).result.Ok?
            && TokensMatchOwners(out.state.tokens.rows) && AtMostOnePerUser(out.state.tokens.rows)
  {
    IntendedIssuanceStores(codec, st, userId, email, now, rowId);
  }


  /** Logging out ends the session for good: with rows matching their owners, the
      token is no longer live afterwards, at any instant, and a second logout fails. */
  lemma LogoutEndsSession(codec: UntypedJwt.Codec, st: State, t: Token, now: Timestamp, later: Timestamp)
    requires TokensMatchOwners(st.tokens.rows)
    requires Logout(codec, st, t, now).result.Ok?
    ensures !IsLive(codec, Logout(codec, st, t, now).state.tokens, t, later)
    ensures Logout(codec, Logout(codec, st, t, now).state, t, later).result == Err(AuthServiceError.InvalidToken)
  {
    var row := GetByToken(st.tokens, t).value;
    assert row in st.tokens.rows;
    DeletedOwnerTokensGone(st.tokens, row.userId, t);
  }

  /** Changing the password or the email ends every session of the subject: no refresh
      token issued to it is live afterwards. */
  lemma CredentialChangeEndsSessions(codec: UntypedJwt.Codec, st: State, access: Token, newEmail: string,
                                     hashed: Result<string, string>, now: Timestamp, refresh: Token, later: Timestamp)
    requires TokensMatchOwners(st.tokens.rows)
    requires refresh.Signed? && access.Signed? && refresh.claims.sub == access.claims.sub
    ensures UpdatePassword(codec, st, access, hashed, now).result.Ok? ==>
      !IsLive(codec, UpdatePassword(codec, st, access, hashed, now).state.tokens, refresh, later)
    ensures UpdateEmail(codec, st, access, newEmail, now).result.Ok? ==>
      !IsLive(codec, UpdateEmail(codec, st, access, newEmail, now).state.tokens, refresh, later)
  {
    DeletedOwnerTokensGone(st.tokens, access.claims.sub, refresh);
  }

  /** After a successful password change the account's stored hash is the new one. */
  lemma PasswordChangeStoresHash(codec: UntypedJwt.Codec, st: State, access: Token, hash: string, now: Timestamp)
    requires UpdatePassword(codec, st, access, Ok(hash), now).result.Ok?
    ensures UserById(UpdatePassword(codec, st, access, Ok(hash), now).state.users, access.claims.sub).value.passwordHash == hash
  {
    UpdatedUserFound(st.users, access.claims.sub, (a: Account) => a.(passwordHash := hash));
  }

  /** After a successful email change the account is found under the new email. */
  lemma EmailChangeStoresEmail(codec: UntypedJwt.Codec, st: State, access: Token, newEmail: string, now: Timestamp)
    requires UpdateEmail(codec, st, access, newEmail, now).result.Ok?
    ensures UserById(UpdateEmail(codec, st, access, newEmail, now).state.users, access.claims.sub).value.email == newEmail
  {
    UpdatedUserFound(st.users, access.claims.sub, (a: Account) => a.(email := newEmail));
  }

  /** The untagged codec lets a refresh token stand in for an access token: while it
      decodes, it deletes its subject's account. */
  lemma DeleteMeAcceptsRefreshToken(codec: UntypedJwt.Codec, st: State, userId: string, email: string, issued: Timestamp, now: Timestamp)
    requires now <= issued + codec.config.refreshDays * 86400 + codec.leeway
    ensures var out := DeleteMe(codec, st, UntypedJwt.GenerateRefreshToken(codec, userId, email, issued), now);
            out.result.Ok? && UserById(out.state.users, userId).None?
  {}

  /** A registration with the intended issuance followed by `get_me` with the refresh
      token handed back returns the account just created. */
  lemma IntendedRegisterThenGetMe(codec: UntypedJwt.Codec, st: State, cred: Credentials, now: Timestamp,
                                  userId: string, rowId: string, hash: string)
    requires codec.config.accessMinutes >= 0 && codec.config.refreshDays >= 0
    requires now <= st.tokens.expiresAt
    requires TokensMatchOwners(st.tokens.rows) && AtMostOnePerUser(st.tokens.rows)
    requires GetByUserId(st.tokens, userId).None? && UserById(st.users, userId).None?
    requires UserByEmail(st.users, cred.email).None?
    ensures var out := Register(Intended, codec, st, cred, now, userId, rowId, Ok(hash));
            out.result.Ok? && out.result.value.tokenDetails.value.refreshToken.Some?
            && GetMe(codec, out.state, out.result.value.tokenDetails.value.refreshToken.value, now).result
               == Ok(Account(userId, cred.email, hash))
  {
    var acct := Account(userId, cred.email, hash);
    var st1 := st.(users := st.users + [acct]);
    IntendedIssuanceStores(codec, st1, userId, cred.email, now, rowId);
    var o := GenerateTokensIntended(codec, st1, userId, cred.email, now, rowId);
    var refresh := UntypedJwt.GenerateRefreshToken(codec, userId, cred.email, now);
    RegisterStoresIssuance(Intended, codec, st, cred, now, userId, rowId, hash);
    assert UserById(o.state.users, userId) == Some(acct) by {
      assert st1.users[|st.users|] == acct;
    }
    LiveTokenFindsOwner(codec, o.state, refresh, now, acct);
  }

  /** After an intended registration, logging in with the password that was hashed
      succeeds, hands back the refresh token the registration issued, and writes
      nothing: the row stored at registration is still live. */
  lemma IntendedRegisterThenLogin(codec: UntypedJwt.Codec, st: State, cred: Credentials, now: Timestamp,
                                  userId: string, rowId: string, loginRowId: string, hash: string,
                                  verify: (string, string) -> Result<bool, string>)
    requires codec.config.accessMinutes >= 0
    requires now <= st.tokens.expiresAt
    requires UserByEmail(st.users, cred.email).None?
    requires verify(cred.password, hash) == Ok(true)
    ensures var reg := Register(Intended, codec, st, cred, now, userId, rowId, Ok(hash));
            var login := Authenticate(Intended, codec, reg.state, cred, now, loginRowId, verify);
            reg.result.Ok? && login.result.Ok? && login.state == reg.state
            && login.result.value.tokenDetails.value.refreshToken
               == reg.result.value.tokenDetails.value.refreshToken
  {
    var acct := Account(userId, cred.email, hash);
    var st1 := st.(users := st.users + [acct]);
    var o := GenerateTokensIntended(codec, st1, userId, cred.email, now, rowId);
    RegisterStoresIssuance(Intended, codec, st, cred, now, userId, rowId, hash);
    assert UserByEmail(o.state.users, cred.email) == Some(acct) by {
      assert st1.users[|st.users|] == acct;
    }
    assert HasLiveRow(o.state.tokens, userId, now);
    var again := GenerateTokensIntended(codec, o.state, userId, cred.email, now, loginRowId);
    assert again.state == o.state;
  }

  /** A registration that gets its tokens leaves the tables as the issuance left them,
      and hands back the issued details. */
  lemma RegisterStoresIssuance(issuance: Issuance, codec: UntypedJwt.Codec, st: State, cred: Credentials,
                               now: Timestamp, userId: string, rowId: string, hash: string)
    requires UserByEmail(st.users, cred.email).None?
    requires Issue(issuance, codec, st.(users := st.users + [Account(userId, cred.email, hash)]),
                   userId, cred.email, now, rowId).result.Ok?
    ensures var o := Issue(issuance, codec, st.(users := st.users + [Account(userId, cred.email, hash)]),
                           userId, cred.email, now, rowId);
            Register(issuance, codec, st, cred, now, userId, rowId, Ok(hash))
            == Outcome(Ok(SuccessResponse(o.result.value, "Registration successful")), o.state)
  {}

  /** A live refresh token whose owner is in the account table yields that account. */
  lemma LiveTokenFindsOwner(codec: UntypedJwt.Codec, st: State, t: Token, now: Timestamp, acct: Account)
    requires IsLive(codec, st.tokens, t, now)
    requires UserById(st.users, GetByToken(st.tokens, t).value.userId) == Some(acct)
    ensures GetMe(codec, st, t, now).result == Ok(acct)
  {}

  lemma DeleteKeepsAtMostOne(tokens: Store, userId: string)
    requires AtMostOnePerUser(tokens.rows)
    ensures AtMostOnePerUser(Delete(tokens, userId).rows)
  {
    FilterKeepsAtMostOne(tokens.rows, (t: RefreshToken) => !OfUser(t, userId));
  }

  /** Validation keeps the store at one row per user. */
  lemma ValidateKeepsAtMostOne(codec: UntypedJwt.Codec, st: State, t: Token, now: Timestamp)
    requires AtMostOnePerUser(st.tokens.rows)
    ensures AtMostOnePerUser(ValidateRefreshToken(codec, st, t, now).1.tokens.rows)
  {
    if GetByToken(st.tokens, t).Some? {
      DeleteKeepsAtMostOne(st.tokens, GetByToken(st.tokens, t).value.userId);
    }
  }

  /** The session-ending endpoints keep the store at one row per user. */
  lemma EndpointsKeepAtMostOne(codec: UntypedJwt.Codec, st: State, t: Token, access: Token, newEmail: string,
                               hashed: Result<string, string>, now: Timestamp)
    requires AtMostOnePerUser(st.tokens.rows)
    ensures AtMostOnePerUser(Logout(codec, st, t, now).state.tokens.rows)
    ensures AtMostOnePerUser(DeleteMe(codec, st, access, now).state.tokens.rows)
    ensures AtMostOnePerUser(UpdateEmail(codec, st, access, newEmail, now).state.tokens.rows)
    ensures AtMostOnePerUser(UpdatePassword(codec, st, access, hashed, now).state.tokens.rows)
  {
    LogoutKeepsAtMostOne(codec, st, t, now);
    AccountChangesKeepAtMostOne(codec, st, access, newEmail, hashed, now);
  }

  lemma LogoutKeepsAtMostOne(codec: UntypedJwt.Codec, st: State, t: Token, now: Timestamp)
    requires AtMostOnePerUser(st.tokens.rows)
    ensures AtMostOnePerUser(Logout(codec, st, t, now).state.tokens.rows)
  {
    ValidateKeepsAtMostOne(codec, st, t, now);
    var st1 := ValidateRefreshToken(codec, st, t, now).1;
    if GetByToken(st.tokens, t).Some? {
      DeleteKeepsAtMostOne(st1.tokens, GetByToken(st.tokens, t).value.userId);
    }
  }

  lemma AccountChangesKeepAtMostOne(codec: UntypedJwt.Codec, st: State, access: Token, newEmail: string,
                                    hashed: Result<string, string>, now: Timestamp)
    requires AtMostOnePerUser(st.tokens.rows)
    ensures AtMostOnePerUser(DeleteMe(codec, st, access, now).state.tokens.rows)
    ensures AtMostOnePerUser(UpdateEmail(codec, st, access, newEmail, now).state.tokens.rows)
    ensures AtMostOnePerUser(UpdatePassword(codec, st, access, hashed, now).state.tokens.rows)
  {
    if access.Signed? {
      DeleteKeepsAtMostOne(st.tokens, access.claims.sub);
    }
  }

  /** Storing a row for a user without one, possibly after clearing the user's rows,
      keeps one row per user. */
  lemma StoreKeepsAtMostOne(st: State, userId: string, t: Token, rowId: string, now: Timestamp)
    requires AtMostOnePerUser(st.tokens.rows)
    ensures AtMostOnePerUser(StoreToken(st, userId, t, rowId, now).state.tokens.rows)
    ensures AtMostOnePerUser(StoreToken(st.(tokens := Delete(st.tokens, userId)), userId, t, rowId, now).state.tokens.rows)
  {
    OperationsKeepAtMostOne(st.tokens, userId, t, rowId, now);
    DeleteKeepsAtMostOne(st.tokens, userId);
    OperationsKeepAtMostOne(Delete(st.tokens, userId), userId, t, rowId, now);
  }

  /** Both issuances keep the store at one row per user. */
  lemma IssuanceKeepsAtMostOne(issuance: Issuance, codec: UntypedJwt.Codec, st: State, userId: string, email: string,
                               now: Timestamp, rowId: string)
    requires AtMostOnePerUser(st.tokens.rows)
    ensures AtMostOnePerUser(Issue(issuance, codec, st, userId, email, now, rowId).state.tokens.rows)
  {
    if issuance == AsWritten {
      AsWrittenIssuanceKeepsAtMostOne(codec, st, userId, email, now, rowId);
    } else {
      IntendedIssuanceKeepsAtMostOne(codec, st, userId, email, now, rowId);
    }
  }

  lemma AsWrittenIssuanceKeepsAtMostOne(codec: UntypedJwt.Codec, st: State, userId: string, email: string,
                                        now: Timestamp, rowId: string)
    requires AtMostOnePerUser(st.tokens.rows)
    ensures AtMostOnePerUser(GenerateTokens(codec, st, userId, email, now, rowId).state.tokens.rows)
  {
    var refresh := UntypedJwt.GenerateRefreshToken(codec, userId, email, now);
    ValidateKeepsAtMostOne(codec, st, refresh, now);
    StoreKeepsAtMostOne(RefreshAccessToken(codec, st, refresh, now).state, userId, refresh, rowId, now);
  }

  /** Replacing a user's rows keeps the store at one row per user. */
  lemma ReplaceKeepsAtMostOne(tokens: Store, userId: string, t: Token, rowId: string, now: Timestamp)
    requires AtMostOnePerUser(tokens.rows)
    ensures AtMostOnePerUser(ReplaceUserRows(tokens, userId, t, rowId, now).1.rows)
  {
    DeleteKeepsAtMostOne(tokens, userId);
    OperationsKeepAtMostOne(Delete(tokens, userId), userId, t, rowId, now);
  }

  lemma IntendedIssuanceKeepsAtMostOne(codec: UntypedJwt.Codec, st: State, userId: string, email: string,
                                       now: Timestamp, rowId: string)
    requires AtMostOnePerUser(st.tokens.rows)
    ensures AtMostOnePerUser(GenerateTokensIntended(codec, st, userId, email, now, rowId).state.tokens.rows)
  {
    ReplaceKeepsAtMostOne(st.tokens, userId, UntypedJwt.GenerateRefreshToken(codec, userId, email, now), rowId, now);
  }
}

=== FILE: bearer_extractor.dfy ===
/** Reading the bearer token out of an `Authorization` header (`extract_jwt_token`),
    in the `Bearer <token>` form of section 2.1 of RFC 6750. The header value is a
    string whose characters stand for its bytes. */
module BearerExtractor {
  import opened Wrappers
  import opened Text

  datatype TokenExtractionError =
    | MissingAuthorizationHeader
    | InvalidHeaderFormat
    | InvalidHeaderContent
    | NonUtf8Header

  const BearerPrefix := "Bearer "

  /** `HeaderValue::to_str` succeeds exactly on visible ASCII and horizontal tab. */
  predicate IsVisibleAscii(c: char) {
    (' ' <= c <= '~') || c == '\t'
  }

  /** `extract_jwt_token`, given the header's value if the request has one: the text
      after the exact, case-sensitive prefix `Bearer `, trimmed, and not empty. */
  function ExtractJwtToken(header: Option<string>): (r: Result<string, TokenExtractionError>)
    ensures header.None? <==> r == Err(MissingAuthorizationHeader)
    ensures r == Err(NonUtf8Header) <==> header.Some? && !AllChars(header.value, IsVisibleAscii)
    ensures r == Err(InvalidHeaderFormat) <==>
      header.Some? && AllChars(header.value, IsVisibleAscii) && !StartsWith(header.value, BearerPrefix)
    ensures r == Err(InvalidHeaderContent) <==>
      header.Some? && AllChars(header.value, IsVisibleAscii) && StartsWith(header.value, BearerPrefix)
      && IsBlank(header.value[|BearerPrefix|..])
    ensures r.Ok? ==>
      && header.Some? && StartsWith(header.value, BearerPrefix)
      && r.value == Trim(header.value[|BearerPrefix|..])
      && |r.value| > 0 && !IsWhitespace(r.value[0]) && !IsWhitespace(r.value[|r.value| - 1])
  {
    match header
    case None => Err(MissingAuthorizationHeader)
    case Some(value) =>
      if !AllChars(value, IsVisibleAscii) then Err(NonUtf8Header)
      else if !StartsWith(value, BearerPrefix) then Err(InvalidHeaderFormat)
      else
        var token := value[|BearerPrefix|..];
        if IsBlank(token) then Err(InvalidHeaderContent) else Ok(Trim(token))
  }

  /** A token, written after `Bearer ` with any white space around it, is read back
      as it was written. */
  lemma ExtractRoundTrip(pad: string, t: string, trailing: string)
    requires AllChars(pad, IsWhitespace) && AllChars(trailing, IsWhitespace)
    requires AllChars(pad + t + trailing, IsVisibleAscii)
    requires |t| > 0 && !IsWhitespace(t[0]) && !IsWhitespace(t[|t| - 1])
    ensures ExtractJwtToken(Some(BearerPrefix + pad + t + trailing)) == Ok(t)
  {
    var body := pad + t + trailing;
    var h := BearerPrefix + body;
    assert h == BearerPrefix + pad + t + trailing;
    assert h[..|BearerPrefix|] == BearerPrefix;
    assert h[|BearerPrefix|..] == body;
    assert AllChars(h, IsVisibleAscii) by {
      forall i | 0 <= i < |h| ensures IsVisibleAscii(h[i]) {
        if i >= |BearerPrefix| {
          assert h[i] == body[i - |BearerPrefix|];
        }
      }
    }
    assert body[|pad|] == t[0];
    NotBlankIfHas(body, |pad|);
    TrimPadded(pad, t, trailing);
  }

  /** The extractor's refusal scenarios: no header, no prefix, nothing after it. */
  lemma ExtractRefusals(h: Option<string>)
    requires h == None || h == Some("Invalid") || h == Some("Bearer ")
    ensures h.None? ==> ExtractJwtToken(h) == Err(MissingAuthorizationHeader)
    ensures h == Some("Invalid") ==> ExtractJwtToken(h) == Err(InvalidHeaderFormat)
    ensures h == Some("Bearer ") ==> ExtractJwtToken(h) == Err(InvalidHeaderContent)
  {
    if h == Some("Invalid") {
      assert h.value[1] != BearerPrefix[1];
    } else if h == Some("Bearer ") {
      assert h.value[|BearerPrefix|..] == "";
    }
  }

  /** The extractor's success scenarios: the token comes back with or without
      surrounding spaces. */
  lemma ExtractAccepts(h: string)
    requires h == "Bearer valid.jwt.token" || h == "Bearer  valid.jwt.token  "
    ensures ExtractJwtToken(Some(h)) == Ok("valid.jwt.token")
  {
    var t := "valid.jwt.token";
    if h == "Bearer valid.jwt.token" {
      assert h == BearerPrefix + "" + t + "";
      ExtractRoundTrip("", t, "");
    } else {
      assert h == BearerPrefix + " " + t + "  ";
      ExtractRoundTrip(" ", t, "  ");
    }
  }
}

=== FILE: config_database.dfy ===
/** Database connection settings (`configuration::database`): their defaults and the
    TLS mode setting. */
module DatabaseConfig {
  import opened Wrappers
  import opened Text

  datatype SslMode = Require | Prefer | Disable

  /** `SSLMode::default()`. */
  const DefaultSslMode := Prefer

  /** A port is an unsigned 16-bit number. */
  type Port = x: int | 0 <= x < 0x1_0000

  datatype DatabaseConfig = DatabaseConfig(
    username: string,
    password: string,
    port: Port,
    host: string,
    name: string,
    sslMode: SslMode)

  /** `DatabaseConfig::default()`. */
  function Default(): (c: DatabaseConfig)
    ensures c.port == 5432 && c.host == "127.0.0.1"
    ensures c.username == "" && c.password == "" && c.name == ""
    ensures c.sslMode == Prefer
  {
    DatabaseConfig("", "", 5432, "127.0.0.1", "", DefaultSslMode)
  }

  function AsStr(m: SslMode): string {
    match m
    case Require => "require"
    case Prefer => "prefer"
    case Disable => "disable"
  }

  /** `SSLMode::try_from`: the lower-cased text must name a mode (lower-casing modelled
      on ASCII letters, exact for these names). */
  function TryFrom(s: string): (r: Result<SslMode, string>)
    ensures r.Ok? ==> AsciiLower(s) == AsStr(r.value)
    ensures r.Err? <==> forall m: SslMode :: AsciiLower(s) != AsStr(m)
    ensures r.Err? ==> r.error == AsciiLower(s) + " is not a supported ssl mode. Use either `require`, `prefer`, or `disable`"
  {
    var lower := AsciiLower(s);
    if lower == "require" then Ok(Require)
    else if lower == "prefer" then Ok(Prefer)
    else if lower == "disable" then Ok(Disable)
    else Err(lower + " is not a supported ssl mode. Use either `require`, `prefer`, or `disable`")
  }

  /** Every mode parses back from its name, in any ASCII capitalisation. */
  lemma TryFromAsStr(m: SslMode, s: string)
    ensures TryFrom(AsStr(m)) == Ok(m)
    ensures AsciiLower(s) == AsStr(m) ==> TryFrom(s) == Ok(m)
    ensures TryFrom(AsciiLower(s)) == TryFrom(s)
  {
    AsciiLowerOfLower(AsStr(m));
    AsciiLowerIdempotent(s);
  }
}

=== FILE: config_environment.dfy ===
/** The deployment environment setting (`configuration::environment`). */
module EnvironmentConfig {
  import opened Wrappers
  import opened Text

  datatype Environment = Development | Production

  /** `Environment::default()`. */
  const DefaultEnvironment := Development

  function AsStr(e: Environment): string {
    match e
    case Development => "development"
    case Production => "production"
  }

  /** `Environment::try_from`: the lower-cased text must name an environment; the error
      quotes the lower-cased text. Lower-casing is modelled on ASCII letters, which
      decides acceptance exactly, since no other character lowers to an ASCII letter
      that occurs in the two names. */
  function TryFrom(s: string): (r: Result<Environment, string>)
    ensures r.Ok? ==> AsciiLower(s) == AsStr(r.value)
    ensures r.Err? <==> forall e: Environment :: AsciiLower(s) != AsStr(e)
    ensures r.Err? ==> r.error == AsciiLower(s) + " is not a supported environment. Use either `development` or `production`"
  {
    var lower := AsciiLower(s);
    if lower == "development" then Ok(Development)
    else if lower == "production" then Ok(Production)
    else Err(lower + " is not a supported environment. Use either `development` or `production`")
  }

  /** Every environment parses back from its name, in any ASCII capitalisation, and
      parsing does not depend on capitalisation. */
  lemma TryFromAsStr(e: Environment, s: string)
    ensures TryFrom(AsStr(e)) == Ok(e)
    ensures AsciiLower(s) == AsStr(e) ==> TryFrom(s) == Ok(e)
    ensures TryFrom(AsciiLower(s)) == TryFrom(s)
  {
    AsciiLowerOfLower(AsStr(e));
    AsciiLowerIdempotent(s);
  }
}

=== FILE: config_rate_limit.dfy ===
/** Rate-limiting settings (`configuration::rate_limit`): how requests are keyed, the
    window, and where the counters live. */
module RateLimitConfig {
  import opened Wrappers
  import opened Text

  /** Whose requests share a counter. */
  datatype KeyStrategy = Token | IpAddress | TokenOrIpWithPath

  /** `KeyStrategy::default()`. */
  const DefaultKeyStrategy := Token

  function AsStr(k: KeyStrategy): string {
    match k
    case Token => "token"
    case IpAddress => "ip-address"
    case TokenOrIpWithPath => "token-or-ip-with-path"
  }

  const UnsupportedStrategy := " is not a supported key strategy. Use either `token`, `ip-address`, or `token-or-ip-with-path`"

  /** `KeyStrategy::try_from`: the ASCII-lower-cased text must name a strategy; the
      error quotes the lower-cased text. */
  function TryFrom(s: string): (r: Result<KeyStrategy, string>)
    ensures r.Ok? ==> AsciiLower(s) == AsStr(r.value)
    ensures r.Err? <==> forall k: KeyStrategy :: AsciiLower(s) != AsStr(k)
    ensures r.Err? ==> r.error == AsciiLower(s) + UnsupportedStrategy
  {
    var lower := AsciiLower(s);
    if lower == "token" then Ok(Token)
    else if lower == "ip-address" then Ok(IpAddress)
    else if lower == "token-or-ip-with-path" then Ok(TokenOrIpWithPath)
    else Err(lower + UnsupportedStrategy)
  }

  /** Every strategy parses back from its name, in any ASCII capitalisation. */
  lemma TryFromAsStr(k: KeyStrategy, s: string)
    ensures TryFrom(AsStr(k)) == Ok(k)
    ensures AsciiLower(s) == AsStr(k) ==> TryFrom(s) == Ok(k)
    ensures TryFrom(AsciiLower(s)) == TryFrom(s)
  {
    AsciiLowerOfLower(AsStr(k));
    AsciiLowerIdempotent(s);
  }

  datatype RateLimitConfig = RateLimitConfig(
    requestsPerWindow: nat,
    windowSize: nat,
    errorMessage: Option<string>,
    redisUrl: string,
    keyStrategy: KeyStrategy)

  /** `RateLimitConfig::default()`. */
  function Default(): (c: RateLimitConfig)
    ensures c.requestsPerWindow == 100 && c.windowSize == 60
    ensures c.errorMessage.None? && c.redisUrl == "redis://127.0.0.1"
    ensures c.keyStrategy == Token
  {
    RateLimitConfig(100, 60, None, "redis://127.0.0.1", DefaultKeyStrategy)
  }

  /** Values set on `RateLimitConfigBuilder`. */
  datatype Builder = Builder(
    requestsPerWindow: Option<nat>,
    windowSize: Option<nat>,
    errorMessage: Option<string>,
    redisUrl: Option<string>,
    keyStrategy: Option<KeyStrategy>)

  /** What the environment holds for the builder's fallbacks. A numeric variable is
      `None` when unset, `Some(None)` when set but not a number, and `Some(Some(n))`
      when it reads as `n`. */
  datatype Env = Env(
    requests: Option<Option<nat>>,
    window: Option<Option<nat>>,
    redisUrl: Option<string>,
    keyStrategy: Option<string>)

  /** A numeric setting: the builder's value, else the environment's, else the default. */
  function Pick(given: Option<nat>, env: Option<Option<nat>>, default: nat): nat {
    match given
    case Some(v) => v
    case None => match env
      case Some(Some(v)) => v
      case _ => default
  }

  /** `RateLimitConfigBuilder::build`: each setting comes from the builder, else from the
      environment, else from the default; an unreadable key strategy falls back to the
      default. The error message has no environment fallback. */
  function Build(b: Builder, env: Env): (c: RateLimitConfig)
    ensures c.errorMessage == b.errorMessage
    ensures b.keyStrategy.Some? ==> c.keyStrategy == b.keyStrategy.value
    ensures b.keyStrategy.None? && env.keyStrategy.Some? && TryFrom(env.keyStrategy.value).Ok?
            ==> c.keyStrategy == TryFrom(env.keyStrategy.value).value
    ensures b.requestsPerWindow.Some? ==> c.requestsPerWindow == b.requestsPerWindow.value
    ensures b.windowSize.Some? ==> c.windowSize == b.windowSize.value
    ensures b.redisUrl.Some? ==> c.redisUrl == b.redisUrl.value
    ensures b.requestsPerWindow.None? && env.requests.Some? && env.requests.value.Some?
            ==> c.requestsPerWindow == env.requests.value.value
    ensures b.requestsPerWindow.None? && (env.requests.None? || env.requests.value.None?)
            ==> c.requestsPerWindow == Default().requestsPerWindow
    ensures b.windowSize.None? && env.window.Some? && env.window.value.Some?
            ==> c.windowSize == env.window.value.value
    ensures b.windowSize.None? && (env.window.None? || env.window.value.None?)
            ==> c.windowSize == Default().windowSize
    ensures b.redisUrl.None? && env.redisUrl.Some? ==> c.redisUrl == env.redisUrl.value
    ensures b.redisUrl.None? && env.redisUrl.None? ==> c.redisUrl == Default().redisUrl
    ensures b.keyStrategy.None? && (env.keyStrategy.None? || TryFrom(env.keyStrategy.value).Err?)
            ==> c.keyStrategy == Default().keyStrategy
  {
    var d := Default();
    var strategy := match b.keyStrategy
      case Some(k) => k
      case None => match env.keyStrategy
        case Some(s) => (match TryFrom(s) case Ok(k) => k case Err(_) => d.keyStrategy)
        case None => d.keyStrategy;
    RateLimitConfig(
      Pick(b.requestsPerWindow, env.requests, d.requestsPerWindow),
      Pick(b.windowSize, env.window, d.windowSize),
      b.errorMessage,
      b.redisUrl.GetOr(env.redisUrl.GetOr(d.redisUrl)),
      strategy)
  }

  /** With nothing set and nothing usable in the environment, building gives the
      defaults. */
  lemma BuildWithNothingIsDefault(junk: string)
    requires TryFrom(junk).Err?
    ensures Build(Builder(None, None, None, None, None), Env(None, None, None, None)) == Default()
    ensures Build(Builder(None, None, None, None, None), Env(Some(None), Some(None), None, Some(junk))) == Default()
  {}
}

=== FILE: config_redis.dfy ===
/** Redis connection settings (`configuration::redis`) and the connection URL they
    render to. */
module RedisConfig {
  import opened Wrappers
  import opened Text

  type Port = x: int | 0 <= x < 0x1_0000

  datatype RedisConfig = RedisConfig(
    username: Option<string>,
    password: Option<string>,
    port: Port,
    host: string,
    dbIndex: int,
    tlsEnabled: bool,
    connectionTimeout: nat,
    keepAlive: bool)

  /** `RedisConfig::default()`. */
  function Default(): (c: RedisConfig)
    ensures c.port == 6379 && c.host == "127.0.0.1" && c.dbIndex == 0
    ensures !c.tlsEnabled && c.connectionTimeout == 5 && c.keepAlive
    ensures c.username.None? && c.password.None?
  {
    RedisConfig(None, None, 6379, "127.0.0.1", 0, false, 5, true)
  }

  function Scheme(c: RedisConfig): string {
    if c.tlsEnabled then "rediss" else "redis"
  }

  /** The credentials part: `user:password@`, or `password@` without a user name, and
      nothing without a password (a user name alone is dropped). */
  function Auth(c: RedisConfig): string {
    match (c.username, c.password)
    case (Some(u), Some(p)) => u + ":" + p + "@"
    case (None, Some(p)) => p + "@"
    case _ => ""
  }

  /** Everything before the `:` that introduces the port. */
  function Authority(c: RedisConfig): string {
    Scheme(c) + "://" + Auth(c) + c.host
  }

  /** Everything after that `:`. */
  function PortAndDb(c: RedisConfig): string {
    NatToDecimal(c.port) + "/" + IntToDecimal(c.dbIndex)
  }

  /** `to_connection_string`: `scheme://auth host:port/db`. */
  function ToConnectionString(c: RedisConfig): (s: string)
    ensures StartsWith(s, "rediss://") <==> c.tlsEnabled
    ensures StartsWith(s, Scheme(c) + "://" + Auth(c) + c.host + ":")
  {
    var s := Authority(c) + ":" + PortAndDb(c);
    assert s[..|Authority(c) + ":"|] == Authority(c) + ":";
    assert !c.tlsEnabled ==> s[5] == ':';
    s
  }

  /** Reads the port and database back out of a connection URL: they follow the last
      `:`, separated by the first `/` after it. */
  function ParsePortAndDb(s: string): Option<(int, int)> {
    match LastIndexOf(s, ':')
    case None => None
    case Some(colon) =>
      var rest := s[colon + 1..];
      match IndexOf(rest, '/')
      case None => None
      case Some(slash) =>
        var port, db := rest[..slash], rest[slash + 1..];
        if |port| > 0 && AllDigits(port) && |db| > 0
           && (db[0] == '-' ==> AllDigits(db[1..])) && (db[0] != '-' ==> AllDigits(db))
        then Some((DecimalValue(port) as int, SignedDecimalValue(db)))
        else None
  }

  /** The separator before a colon-free tail is the last colon. */
  lemma LastColonBeforeTail(s: string, a: string, x: string)
    requires s == a + ":" + x
    requires forall k :: 0 <= k < |x| ==> x[k] != ':'
    ensures LastIndexOf(s, ':') == Some(|a|)
  {
    assert s[|a|] == ':';
    assert forall k :: |a| < k < |s| ==> s[k] != ':' by {
      forall k | |a| < k < |s| ensures s[k] != ':' {
        assert s[k] == x[k - |a| - 1];
      }
    }
    LastIndexOfIs(s, ':', |a|);
  }

  /** The first slash after a run of digits is the one that ends it. */
  lemma FirstSlashAfterDigits(s: string, p: string, d: string)
    requires s == p + "/" + d
    requires AllDigits(p)
    ensures IndexOf(s, '/') == Some(|p|)
  {
    assert s[|p|] == '/';
    assert forall k :: 0 <= k < |p| ==> s[k] == p[k];
    IndexOfIs(s, '/', |p|);
  }

  /** Digits, `/` and a signed number contain no colon. */
  lemma NoColonInTail(tail: string, p: string, d: string)
    requires tail == p + "/" + d
    requires AllDigits(p)
    requires forall k :: 0 <= k < |d| ==> IsAsciiDigit(d[k]) || d[k] == '-'
    ensures forall k :: 0 <= k < |tail| ==> tail[k] != ':'
  {
    forall k | 0 <= k < |tail| ensures tail[k] != ':' {
      if k < |p| {
        assert tail[k] == p[k];
      } else if k > |p| {
        assert tail[k] == d[k - |p| - 1];
      }
    }
  }

  /** A string made of any prefix, `:`, digits, `/` and a signed number parses to that
      number pair. */
  lemma ParseRendered(s: string, a: string, tail: string, p: string, d: string)
    requires s == a + ":" + tail && tail == p + "/" + d
    requires |p| > 0 && AllDigits(p)
    requires |d| > 0 && (d[0] == '-' ==> AllDigits(d[1..])) && (d[0] != '-' ==> AllDigits(d))
    requires forall k :: 0 <= k < |d| ==> IsAsciiDigit(d[k]) || d[k] == '-'
    ensures ParsePortAndDb(s) == Some((DecimalValue(p) as int, SignedDecimalValue(d)))
  {
    NoColonInTail(tail, p, d);
    LastColonBeforeTail(s, a, tail);
    assert s[|a| + 1..] == tail;
    FirstSlashAfterDigits(tail, p, d);
    assert tail[..|p|] == p;
    assert tail[|p| + 1..] == d;
  }

  /** The rendered URL determines the port and the database index, whatever the host
      and credentials contain. */
  lemma PortAndDbRoundTrip(c: RedisConfig)
    ensures ParsePortAndDb(ToConnectionString(c)) == Some((c.port, c.dbIndex))
  {
    DecimalRoundTrip(c.port);
    IntDecimalRoundTrip(c.dbIndex);
    ParseRendered(ToConnectionString(c), Authority(c), PortAndDb(c), NatToDecimal(c.port), IntToDecimal(c.dbIndex));
  }

  /** The default port and database render as `6379/0`. */
  lemma DefaultPortAndDb(c: RedisConfig)
    requires c.port == 6379 && c.dbIndex == 0
    ensures PortAndDb(c) == "6379/0"
  {
    assert NatToDecimal(6379) == NatToDecimal(637) + "9";
    assert NatToDecimal(637) == NatToDecimal(63) + "7";
    assert NatToDecimal(63) == NatToDecimal(6) + "3";
  }

  /** A URL with scheme `scheme`, credentials `auth` and the default endpoint. */
  lemma RendersDefaultEndpoint(c: RedisConfig, scheme: string, auth: string)
    requires c.port == 6379 && c.dbIndex == 0 && c.host == "127.0.0.1"
    requires Scheme(c) == scheme && Auth(c) == auth
    ensures ToConnectionString(c) == scheme + "://" + auth + "127.0.0.1:6379/0"
  {
    DefaultPortAndDb(c);
    assert Authority(c) == scheme + "://" + auth + "127.0.0.1";
  }

  /** The connection-string test scenario with every setting at its default. */
  lemma DefaultConnectionString(c: RedisConfig)
    requires c == Default()
    ensures ToConnectionString(c) == "redis://127.0.0.1:6379/0"
  {
    RendersDefaultEndpoint(c, "redis", "");
  }

  /** The scenario with a password and no user name. */
  lemma PasswordConnectionString(c: RedisConfig)
    requires c == Default().(password := Some("secret"))
    ensures ToConnectionString(c) == "redis://secret@127.0.0.1:6379/0"
  {
    assert c.username.None? && c.password == Some("secret");
    RendersDefaultEndpoint(c, "redis", "secret" + "@");
  }

  /** The scenario with TLS switched on. */
  lemma TlsConnectionString(c: RedisConfig)
    requires c == Default().(tlsEnabled := true)
    ensures ToConnectionString(c) == "rediss://127.0.0.1:6379/0"
  {
    RendersDefaultEndpoint(c, "rediss", "");
  }

  /** A user name without a password leaves no trace in the URL. */
  lemma UsernameAloneIsDropped(c: RedisConfig, u: string)
    requires c.password.None?
    ensures ToConnectionString(c.(username := Some(u))) == ToConnectionString(c.(username := None))
  {}
}

=== FILE: email_verification.dfy ===
/** Email verification (`EmailVerificationService`): single-use verification records,
    looked up by the hash of a random token, with a lifetime in hours. The random token,
    its hash, fresh identifiers and the clock are parameters. */
module EmailVerification {
  import opened Wrappers
  import opened Tables
  import Text

  type Timestamp = int

  datatype Verification = Verification(
    id: string,
    userId: string,
    tokenHash: string,
    expiresAt: Timestamp,
    createdAt: Timestamp,
    updatedAt: Timestamp,
    isUsed: bool)

  /** The columns of the user table the model tracks. */
  datatype UserRow = UserRow(id: string, isEmailVerified: Option<bool>)

  datatype VerificationError =
    | DatabaseError(message: string)
    | EmailError(message: string)
    | VerificationNotFound
    | VerificationExpired
    | VerificationAlreadyUsed

  /** `Display for EmailVerificationError`: the wrapped failures quote their message. */
  function ErrorText(e: VerificationError): (r: string)
    ensures e.DatabaseError? ==> r == "Database error: " + e.message
    ensures e.EmailError? ==> r == "Email sending error: " + e.message
  {
    match e
    case DatabaseError(m) => "Database error: " + m
    case EmailError(m) => "Email sending error: " + m
    case VerificationNotFound => "Verification not found"
    case VerificationExpired => "Verification expired"
    case VerificationAlreadyUsed => "Verification already used"
  }

  /** Distinct failures read differently: the text determines the failure and the
      message it quotes. */
  lemma ErrorTextInjective(a: VerificationError, b: VerificationError)
    requires ErrorText(a) == ErrorText(b)
    ensures a == b
  {
    var t := ErrorText(a);
    assert t[0] == ErrorText(b)[0];
    if a.VerificationNotFound? || a.VerificationExpired? || a.VerificationAlreadyUsed? {
      assert t[13] == ErrorText(b)[13];
    } else {
      match a
      case DatabaseError(m) => Text.Unframe("Database error: ", m, b.message, "");
      case EmailError(m) => Text.Unframe("Email sending error: ", m, b.message, "");
    }
  }

  datatype State = State(rows: seq<Verification>, users: seq<UserRow>)

  /** The service: the lifetime of a verification in hours, and `hashToken` for the
      SHA-256 hex digest of a token. */
  datatype Service = Service(expirationHours: int, hashToken: string -> string)

  /** Which guard `create_verification` uses: the one the code has, or the one it
      evidently means (see `CreateVerification`). */
  datatype Guard = AsWritten | Intended

  /** `get_by_user_id`: the first verification of the user. */
  function ByUser(rows: seq<Verification>, userId: string): (r: Option<Verification>)
    ensures r.Some? ==> r.value in rows && r.value.userId == userId
    ensures r.None? <==> forall i :: 0 <= i < |rows| ==> rows[i].userId != userId
  {
    FirstWhere(rows, (v: Verification) => v.userId == userId)
  }

  /** `get_by_token_hash`: the first verification with this hash. */
  function ByTokenHash(rows: seq<Verification>, hash: string): (r: Option<Verification>)
    ensures r.Some? ==> r.value in rows && r.value.tokenHash == hash
    ensures r.None? <==> forall i :: 0 <= i < |rows| ==> rows[i].tokenHash != hash
  {
    FirstWhere(rows, (v: Verification) => v.tokenHash == hash)
  }

  /** `create_verification`. As written, the guard refuses exactly the users who have
      no verification yet; the evidently intended guard (the flag is named
      `user_exists`) refuses users who are not in the user table. A new record is
      unused and lives `expirationHours` hours from `now`. */
  function CreateVerification(svc: Service, guard: Guard, st: State, userId: string, token: string, id: string, now: Timestamp)
    : (out: (Result<Verification, VerificationError>, State))
    ensures guard == AsWritten ==> (out.0.Err? <==> ByUser(st.rows, userId).None?)
    ensures guard == Intended ==> (out.0.Err? <==> forall i :: 0 <= i < |st.users| ==> st.users[i].id != userId)
    ensures out.0.Err? ==> out.0.error == VerificationNotFound && out.1 == st
    ensures out.0.Ok? ==>
      var v := out.0.value;
      !v.isUsed && v.userId == userId && v.tokenHash == svc.hashToken(token)
      && v.expiresAt == now + svc.expirationHours * 3600 && v.createdAt == now
      && out.1 == st.(rows := st.rows + [v])
  {
    var refused := match guard
      case AsWritten => ByUser(st.rows, userId).None?
      case Intended => !FirstWhere(st.users, (u: UserRow) => u.id == userId).Some?;
    if refused then (Err(VerificationNotFound), st)
    else
      var v := Verification(id, userId, svc.hashToken(token), now + svc.expirationHours * 3600, now, now, false);
      (Ok(v), st.(rows := st.rows + [v]))
  }

  /** `verify_email`: the record found by the token's hash, refused when already used
      (checked first) or expired; otherwise it is marked used, its user is marked
      verified, and the record is returned as it was read. */
  function VerifyEmail(svc: Service, st: State, token: string, now: Timestamp)
    : (out: (Result<Verification, VerificationError>, State))
    ensures ByTokenHash(st.rows, svc.hashToken(token)).None? ==> out == (Err(VerificationNotFound), st)
    ensures ByTokenHash(st.rows, svc.hashToken(token)).Some? && ByTokenHash(st.rows, svc.hashToken(token)).value.isUsed
            ==> out == (Err(VerificationAlreadyUsed), st)
    ensures ByTokenHash(st.rows, svc.hashToken(token)).Some? && !ByTokenHash(st.rows, svc.hashToken(token)).value.isUsed
            && ByTokenHash(st.rows, svc.hashToken(token)).value.expiresAt < now
            ==> out == (Err(VerificationExpired), st)
    ensures out.0.Err? ==> out.1 == st
    ensures out.0.Ok? <==>
      ByTokenHash(st.rows, svc.hashToken(token)).Some?
      && !ByTokenHash(st.rows, svc.hashToken(token)).value.isUsed
      && ByTokenHash(st.rows, svc.hashToken(token)).value.expiresAt >= now
    ensures out.0.Ok? ==>
      var v := out.0.value;
      v == ByTokenHash(st.rows, svc.hashToken(token)).value && !v.isUsed
      && |out.1.rows| == |st.rows| && |out.1.users| == |st.users|
      && (forall i :: 0 <= i < |st.rows| ==>
            out.1.rows[i] == (if st.rows[i].id == v.id then st.rows[i].(isUsed := true, updatedAt := now) else st.rows[i]))
      && (forall i :: 0 <= i < |st.users| ==>
            out.1.users[i] == (if st.users[i].id == v.userId then st.users[i].(isEmailVerified := Some(true)) else st.users[i]))
  {
    match ByTokenHash(st.rows, svc.hashToken(token))
    case None => (Err(VerificationNotFound), st)
    case Some(v) =>
      if v.isUsed then (Err(VerificationAlreadyUsed), st)
      else if v.expiresAt < now then (Err(VerificationExpired), st)
      else
        var rows := UpdateWhere(st.rows, (r: Verification) => r.id == v.id, (r: Verification) => r.(isUsed := true, updatedAt := now));
        var users := UpdateWhere(st.users, (u: UserRow) => u.id == v.userId, (u: UserRow) => u.(isEmailVerified := Some(true)));
        (Ok(v), State(rows, users))
  }

  /** `delete`: the verification with this id goes. */
  function DeleteById(rows: seq<Verification>, id: string): (r: seq<Verification>)
    ensures forall i :: 0 <= i < |r| ==> r[i] in rows && r[i].id != id
    ensures forall i :: 0 <= i < |rows| && rows[i].id != id ==> rows[i] in r
  {
    Filter(rows, (v: Verification) => v.id != id)
  }

  /** `resend_verification`: an existing record that is unused and unexpired is
      refused (with the "already used" error); any other existing record is deleted
      before a new one is created. */
  function ResendVerification(svc: Service, guard: Guard, st: State, userId: string, token: string, id: string, now: Timestamp)
    : (out: (Result<Verification, VerificationError>, State))
    ensures ByUser(st.rows, userId).Some? && !ByUser(st.rows, userId).value.isUsed && ByUser(st.rows, userId).value.expiresAt > now
            ==> out == (Err(VerificationAlreadyUsed), st)
    ensures ByUser(st.rows, userId).None? ==> out == CreateVerification(svc, guard, st, userId, token, id, now)
    ensures ByUser(st.rows, userId).Some? && (ByUser(st.rows, userId).value.isUsed || ByUser(st.rows, userId).value.expiresAt <= now)
            ==> out == CreateVerification(svc, guard, st.(rows := DeleteById(st.rows, ByUser(st.rows, userId).value.id)),
                                          userId, token, id, now)
  {
    match ByUser(st.rows, userId)
    case None => CreateVerification(svc, guard, st, userId, token, id, now)
    case Some(e) =>
      if !e.isUsed && e.expiresAt > now then (Err(VerificationAlreadyUsed), st)
      else CreateVerification(svc, guard, st.(rows := DeleteById(st.rows, e.id)), userId, token, id, now)
  }

  /** A record `cleanup_expired_verifications` removes: past its expiry and unused. */
  predicate IsStale(v: Verification, now: Timestamp) {
    v.expiresAt < now && !v.isUsed
  }

  /** `cleanup_expired_verifications`. */
  function CleanupExpired(st: State, now: Timestamp): (r: State)
    ensures r.users == st.users
    ensures forall i :: 0 <= i < |r.rows| ==> r.rows[i] in st.rows && !IsStale(r.rows[i], now)
    ensures forall i :: 0 <= i < |st.rows| && !IsStale(st.rows[i], now) ==> st.rows[i] in r.rows
  {
    st.(rows := Filter(st.rows, (v: Verification) => !IsStale(v, now)))
  }

  /** Each user has at most one verification record. */
  predicate OnePerUser(rows: seq<Verification>) {
    forall i, j :: 0 <= i < j < |rows| ==> rows[i].userId != rows[j].userId
  }

  /** As written, resending to a user whose only record is used or expired deletes
      that record and then fails: no user can ever get a fresh verification. */
  lemma AsWrittenResendLosesRecord(svc: Service, st: State, userId: string, token: string, id: string, now: Timestamp)
    requires OnePerUser(st.rows)
    requires ByUser(st.rows, userId).Some?
    requires ByUser(st.rows, userId).value.isUsed || ByUser(st.rows, userId).value.expiresAt <= now
    ensures var out := ResendVerification(svc, AsWritten, st, userId, token, id, now);
            out.0 == Err(VerificationNotFound)
            && out.1 == st.(rows := DeleteById(st.rows, ByUser(st.rows, userId).value.id))
            && ByUser(out.1.rows, userId).None?
  {
    UserGoneAfterDelete(st.rows, userId, ByUser(st.rows, userId).value);
  }

  /** With the intended guard, resending to a registered user whose only record is used
      or expired replaces it: the user ends with exactly one record, the fresh unused
      one, and still at most one record per user. */
  lemma IntendedResendRenews(svc: Service, st: State, userId: string, token: string, id: string, now: Timestamp)
    requires OnePerUser(st.rows)
    requires exists i :: 0 <= i < |st.users| && st.users[i].id == userId
    requires ByUser(st.rows, userId).Some?
    requires ByUser(st.rows, userId).value.isUsed || ByUser(st.rows, userId).value.expiresAt <= now
    ensures var out := ResendVerification(svc, Intended, st, userId, token, id, now);
            out.0.Ok? && !out.0.value.isUsed && out.0.value.expiresAt == now + svc.expirationHours * 3600
            && ByUser(out.1.rows, userId) == Some(out.0.value)
            && (forall k :: 0 <= k < |out.1.rows| && out.1.rows[k].userId == userId ==> out.1.rows[k] == out.0.value)
            && OnePerUser(out.1.rows)
  {
    var e := ByUser(st.rows, userId).value;
    var rest := DeleteById(st.rows, e.id);
    UserGoneAfterDelete(st.rows, userId, e);
    DeleteKeepsOnePerUser(st.rows, e.id);
    var out := ResendVerification(svc, Intended, st, userId, token, id, now);
    assert out == CreateVerification(svc, Intended, st.(rows := rest), userId, token, id, now);
    assert out.1.rows == rest + [out.0.value];
    assert ByUser(out.1.rows, userId) == Some(out.0.value) by {
      assert out.1.rows[|rest|] == out.0.value;
    }
  }

  /** Deleting the user's record by its id leaves no record of the user, when the user
      had only that one. */
  lemma UserGoneAfterDelete(rows: seq<Verification>, userId: string, e: Verification)
    requires OnePerUser(rows)
    requires ByUser(rows, userId) == Some(e)
    ensures forall k :: 0 <= k < |DeleteById(rows, e.id)| ==> DeleteById(rows, e.id)[k].userId != userId
  {
    var rest := DeleteById(rows, e.id);
    forall k | 0 <= k < |rest| ensures rest[k].userId != userId {
      var i :| 0 <= i < |rows| && rows[i] == rest[k];
      var j :| 0 <= j < |rows| && rows[j] == e;
      assert i != j;
    }
  }

  /** Deleting records keeps at most one per user. */
  lemma DeleteKeepsOnePerUser(rows: seq<Verification>, id: string)
    requires OnePerUser(rows)
    ensures OnePerUser(DeleteById(rows, id))
  {
    FilterKeepsOnePerUser(rows, (v: Verification) => v.id != id);
  }

  lemma {:induction false} FilterKeepsOnePerUser(rows: seq<Verification>, keep: Verification -> bool)
    requires OnePerUser(rows)
    ensures OnePerUser(Filter(rows, keep))
  {
    if |rows| > 0 {
      var rest := Filter(rows[1..], keep);
      assert OnePerUser(rows[1..]) by {
        forall i, j | 0 <= i < j < |rows[1..]| ensures rows[1..][i].userId != rows[1..][j].userId {
          assert rows[1..][i] == rows[i + 1] && rows[1..][j] == rows[j + 1];
        }
      }
      FilterKeepsOnePerUser(rows[1..], keep);
      if keep(rows[0]) {
        var r := [rows[0]] + rest;
        forall i, j | 0 <= i < j < |r| ensures r[i].userId != r[j].userId {
          var m :| 0 <= m < |rows[1..]| && rows[1..][m] == r[j];
          assert rows[m + 1] == r[j];
          if i > 0 {
            assert r[i] == rest[i - 1];
          }
        }
      }
    }
  }

  /** As written, a first verification can never be created: with no record for the
      user the guard refuses. */
  lemma AsWrittenFirstCreateFails(svc: Service, st: State, userId: string, token: string, id: string, now: Timestamp)
    requires ByUser(st.rows, userId).None?
    ensures CreateVerification(svc, AsWritten, st, userId, token, id, now) == (Err(VerificationNotFound), st)
    ensures ResendVerification(svc, AsWritten, st, userId, token, id, now) == (Err(VerificationNotFound), st)
  {}

  /** With the intended guard, a verification created for a registered user is redeemed
      by its token exactly once, while unexpired: the user ends up verified and the
      record used, and a second attempt is refused as already used. */
  lemma IntendedCreateThenVerify(svc: Service, st: State, userId: string, token: string, id: string, now: Timestamp, later: Timestamp)
    requires exists i :: 0 <= i < |st.users| && st.users[i].id == userId
    requires ByTokenHash(st.rows, svc.hashToken(token)).None?
    requires now <= later <= now + svc.expirationHours * 3600
    ensures var (c, st1) := CreateVerification(svc, Intended, st, userId, token, id, now);
            c.Ok?
            && var (v, st2) := VerifyEmail(svc, st1, token, later);
            v == Ok(c.value)
            && (forall i :: 0 <= i < |st2.users| && st2.users[i].id == userId ==> st2.users[i].isEmailVerified == Some(true))
            && VerifyEmail(svc, st2, token, later).0 == Err(VerificationAlreadyUsed)
  {
    var (c, st1) := CreateVerification(svc, Intended, st, userId, token, id, now);
    assert st1.rows[|st.rows|] == c.value;
    assert ByTokenHash(st1.rows, svc.hashToken(token)) == Some(c.value);
    VerifyAppendedRowTwice(svc, st1, st.rows, c.value, token, later);
  }

  /** A record appended after rows none of which carries its hash verifies once, marks
      its user verified, and is refused as used afterwards. */
  lemma VerifyAppendedRowTwice(svc: Service, st: State, before: seq<Verification>, row: Verification,
                               token: string, now: Timestamp)
    requires st.rows == before + [row]
    requires ByTokenHash(before, svc.hashToken(token)).None?
    requires ByTokenHash(st.rows, svc.hashToken(token)) == Some(row)
    requires !row.isUsed && row.expiresAt >= now
    ensures var (v, st2) := VerifyEmail(svc, st, token, now);
            v == Ok(row)
            && (forall i :: 0 <= i < |st2.users| && st2.users[i].id == row.userId ==> st2.users[i].isEmailVerified == Some(true))
            && VerifyEmail(svc, st2, token, now).0 == Err(VerificationAlreadyUsed)
  {
    var (v, st2) := VerifyEmail(svc, st, token, now);
    assert st2.rows[|before|] == row.(isUsed := true, updatedAt := now);
    assert forall i :: 0 <= i < |before| ==> st2.rows[i].tokenHash == before[i].tokenHash;
    assert ByTokenHash(st2.rows, svc.hashToken(token)) == Some(row.(isUsed := true, updatedAt := now));
  }

  /** A used record is refused as used even once it has also expired: the use check
      comes first. */
  lemma UsedBeforeExpired(svc: Service, st: State, token: string, now: Timestamp)
    requires ByTokenHash(st.rows, svc.hashToken(token)).Some?
    requires ByTokenHash(st.rows, svc.hashToken(token)).value.isUsed
    ensures VerifyEmail(svc, st, token, now).0 == Err(VerificationAlreadyUsed)
  {}

  /** Cleaning up twice at the same instant removes nothing more, and used records
      always survive. */
  lemma CleanupIdempotent(st: State, now: Timestamp)
    ensures CleanupExpired(CleanupExpired(st, now), now) == CleanupExpired(st, now)
    ensures forall i :: 0 <= i < |st.rows| && st.rows[i].isUsed ==> st.rows[i] in CleanupExpired(st, now).rows
  {
    var once := CleanupExpired(st, now);
    FilterKeepsAll(once.rows, (v: Verification) => !IsStale(v, now));
  }
}

=== FILE: input_validation.dfy ===
/** The handler-side input checks (`utils::validation::Validation`): a hand-written
    recogniser for the e-mail pattern `^[a-zA-Z0-9._%+-]+@[a-zA-Z0-9.-]+\.[a-zA-Z]{2,}$`
    and the ASCII password rule without its blank check. */
module InputValidation {
  import opened Wrappers
  import opened Text
  import PasswordPolicy

  /** Characters of the part before `@`. */
  predicate IsLocalChar(c: char) {
    IsAsciiAlphanumeric(c) || c == '.' || c == '_' || c == '%' || c == '+' || c == '-'
  }

  /** Characters of the domain before its last dot. */
  predicate IsDomainChar(c: char) {
    IsAsciiAlphanumeric(c) || c == '.' || c == '-'
  }

  /** What the anchored pattern denotes: a non-empty local part, `@`, a non-empty
      domain, a dot, and at least two ASCII letters, with the cut points anywhere. */
  predicate MatchesEmailPattern(s: string) {
    exists at: nat, dot: nat ::
      && at + 1 < dot < |s| - 2
      && 0 < at
      && s[at] == '@' && s[dot] == '.'
      && AllChars(s[..at], IsLocalChar)
      && AllChars(s[at + 1..dot], IsDomainChar)
      && AllChars(s[dot + 1..], IsAsciiAlpha)
  }

  /** `is_valid_email`, without backtracking: the `@` can only be the first one, since
      no other part admits it, and the dot before the final letters can only be the
      last dot, since the letters admit none. */
  function IsValidEmail(s: string): (b: bool) {
    match (IndexOf(s, '@'), LastIndexOf(s, '.'))
    case (Some(at), Some(dot)) =>
      && 0 < at && at + 1 < dot && dot < |s| - 2
      && AllChars(s[..at], IsLocalChar)
      && AllChars(s[at + 1..dot], IsDomainChar)
      && AllChars(s[dot + 1..], IsAsciiAlpha)
    case _ => false
  }

  /** When everything before an `@` is local-part characters, that `@` is the first. */
  lemma FirstAt(s: string, at: nat)
    requires at < |s| && s[at] == '@' && AllChars(s[..at], IsLocalChar)
    ensures IndexOf(s, '@') == Some(at)
  {
    assert forall i :: 0 <= i < at ==> s[..at][i] == s[i];
  }

  /** When everything after a dot is letters, that dot is the last. */
  lemma LastDot(s: string, dot: nat)
    requires dot < |s| && s[dot] == '.' && AllChars(s[dot + 1..], IsAsciiAlpha)
    ensures LastIndexOf(s, '.') == Some(dot)
  {
    assert forall i :: dot < i < |s| ==> s[dot + 1..][i - dot - 1] == s[i];
  }

  /** A pattern match fixes the cut points the recogniser finds. */
  lemma PatternMatchRecognised(s: string, at: nat, dot: nat)
    requires at + 1 < dot < |s| - 2 && 0 < at
    requires s[at] == '@' && s[dot] == '.'
    requires AllChars(s[..at], IsLocalChar)
    requires AllChars(s[at + 1..dot], IsDomainChar)
    requires AllChars(s[dot + 1..], IsAsciiAlpha)
    ensures IsValidEmail(s)
  {
    FirstAt(s, at);
    LastDot(s, dot);
  }

  /** The recogniser's cut points witness a pattern match. */
  lemma RecognisedMatchesPattern(s: string)
    requires IsValidEmail(s)
    ensures MatchesEmailPattern(s)
  {
    var at, dot := IndexOf(s, '@').value, LastIndexOf(s, '.').value;
    assert s[at] == '@' && s[dot] == '.';
  }

  /** The recogniser accepts exactly the strings the pattern matches. */
  lemma EmailRecogniserMatchesPattern(s: string)
    ensures IsValidEmail(s) <==> MatchesEmailPattern(s)
  {
    if MatchesEmailPattern(s) {
      var at: nat, dot: nat :| && at + 1 < dot < |s| - 2 && 0 < at
                                 && s[at] == '@' && s[dot] == '.'
                                 && AllChars(s[..at], IsLocalChar)
                                 && AllChars(s[at + 1..dot], IsDomainChar)
                                 && AllChars(s[dot + 1..], IsAsciiAlpha);
      PatternMatchRecognised(s, at, dot);
    }
    if IsValidEmail(s) {
      RecognisedMatchesPattern(s);
    }
  }

  /** `Validation::email`. */
  function ValidateEmail(s: string): (r: Result<(), PasswordPolicy.ValidationError>)
    ensures r.Ok? <==> MatchesEmailPattern(s)
    ensures r.Err? ==> r.error.code == "Invalid email address"
  {
    EmailRecogniserMatchesPattern(s);
    if IsValidEmail(s) then Ok(()) else Err(PasswordPolicy.ValidationError("Invalid email address"))
  }

  /** A string with no `@` is refused. */
  lemma RefusedWithoutAt(s: string)
    requires forall i :: 0 <= i < |s| ==> s[i] != '@'
    ensures !IsValidEmail(s)
  {}

  /** A string with no dot after its first `@` is refused. */
  lemma RefusedWithoutDotAfterAt(s: string, at: nat)
    requires at < |s| && s[at] == '@' && AllChars(s[..at], IsLocalChar)
    requires forall i :: at < i < |s| ==> s[i] != '.'
    ensures !IsValidEmail(s)
  {
    FirstAt(s, at);
  }

  /** The parts of the e-mail test vectors, character by character. */
  lemma UserIsLocalPart(t: string)
    requires t == "user"
    ensures AllChars(t, IsLocalChar)
  {}

  lemma ComIsLetters(t: string)
    requires t == "com"
    ensures AllChars(t, IsAsciiAlpha)
  {}

  lemma ExampleIsDomain(t: string)
    requires t == "example"
    ensures AllChars(t, IsDomainChar)
  {}

  lemma DollarVectorParts(s: string)
    requires s == "user@exa$mple.com"
    ensures s[..4] == "user" && s[4] == '@' && s[13] == '.' && s[14..] == "com"
  {}

  /** A `$` inside the domain label is refused. */
  lemma DollarInDomainRefused(s: string)
    requires s == "user@exa$mple.com"
    ensures ValidateEmail(s).Err?
  {
    DollarVectorParts(s);
    UserIsLocalPart(s[..4]);
    ComIsLetters(s[14..]);
    FirstAt(s, 4);
    LastDot(s, 13);
    assert !IsDomainChar(s[5..13][3]);
  }

  /** The refused e-mail test vectors. */
  lemma EmailsRefused(s: string)
    requires s == "user@example" || s == "user.example.com" || s == "user@examplecom" || s == "user@exa$mple.com"
    ensures ValidateEmail(s).Err?
  {
    if s == "user.example.com" {
      RefusedWithoutAt(s);
    } else if s == "user@exa$mple.com" {
      DollarInDomainRefused(s);
    } else {
      assert s[..4] == "user";
      UserIsLocalPart(s[..4]);
      RefusedWithoutDotAfterAt(s, 4);
    }
  }

  /** An ordinary address passes. */
  lemma EmailAccepted(s: string)
    requires s == "user@example.com"
    ensures ValidateEmail(s).Ok?
  {
    assert s[..4] == "user" && s[5..12] == "example" && s[13..] == "com";
    UserIsLocalPart(s[..4]);
    ExampleIsDomain(s[5..12]);
    ComIsLetters(s[13..]);
    FirstAt(s, 4);
    LastDot(s, 12);
  }

  /** `is_valid_password`: the four classes, with no blank check. */
  predicate IsValidPassword(p: string) {
    && AnyChar(p, IsAsciiLower)
    && AnyChar(p, IsAsciiUpper)
    && AnyChar(p, IsAsciiDigit)
    && AnyChar(p, PasswordPolicy.IsAsciiSpecial)
  }

  /** `Validation::password`. */
  function ValidatePassword(p: string): (r: Result<(), PasswordPolicy.ValidationError>)
    ensures r.Ok? <==> IsValidPassword(p)
    ensures r.Err? ==> r.error.code == PasswordPolicy.PasswordRule
  {
    if IsValidPassword(p) then Ok(()) else Err(PasswordPolicy.ValidationError(PasswordPolicy.PasswordRule))
  }

  /** The missing blank check changes nothing: a password with a lower-case letter is
      never blank, so this rule and the first service layer's agree on every input. */
  lemma SameAsServiceRule(p: string)
    ensures ValidatePassword(p) == PasswordPolicy.ValidatePassword(p)
  {
    if IsValidPassword(p) {
      var i :| 0 <= i < |p| && IsAsciiLower(p[i]);
      NotBlankIfHas(p, i);
    }
  }
}

=== FILE: jwt_library.dfy ===
/** Compact signed tokens as the `jsonwebtoken` crate produces and checks them, with the
    cryptography abstracted away. A token is either the output of signing a claim record
    with a key, or some other string. Signing is deterministic (HS256), so two tokens are
    the same string exactly when they are equal values here.

    The claim record carries the registered claims of section 4.1 of RFC 7519 that the
    services use (`sub`, `iat`, `exp`) plus the custom `email` and `typ` claims, the last
    two optional because not every claims struct in the code declares them. */
module Jwt {
  import opened Wrappers

  /** Seconds since the Unix epoch (`DateTime::timestamp`). */
  type Timestamp = int

  datatype Claims = Claims(
    sub: string,
    email: Option<string>,
    iat: Timestamp,
    exp: Timestamp,
    typ: Option<string>)

  datatype Token =
    | Signed(claims: Claims, key: string)
    | Malformed(text: string)

  /** The `jsonwebtoken` error kinds a decode can end in. */
  datatype LibError =
    | InvalidToken
    | InvalidSignature
    | ExpiredSignature
    | MissingField(field: string)

  /** Which optional claims the Rust claims struct being deserialised declares;
      a payload without a declared field fails to deserialise. */
  datatype Shape = Shape(needsEmail: bool, needsTyp: bool)

  predicate HasFields(c: Claims, shape: Shape) {
    (shape.needsEmail ==> c.email.Some?) && (shape.needsTyp ==> c.typ.Some?)
  }

  /** `encode(&Header::default(), &claims, &key)`: HMAC signing cannot fail. */
  function Encode(claims: Claims, key: string): Token {
    Signed(claims, key)
  }

  /** `decode(token, &key, &Validation::default())`: the signature must be one made with
      `key`, the payload must have the struct's fields, and `exp` must not lie more than
      `leeway` seconds in the past (the crate's default leeway is 60 seconds). */
  function Decode(t: Token, key: string, shape: Shape, now: Timestamp, leeway: nat): (r: Result<Claims, LibError>)
    ensures r.Ok? <==> t.Signed? && t.key == key && HasFields(t.claims, shape) && t.claims.exp >= now - leeway
    ensures r.Ok? ==> r.value == t.claims
    ensures t.Signed? && t.key == key && HasFields(t.claims, shape) && t.claims.exp < now - leeway
            ==> r == Err(ExpiredSignature)
  {
    match t
    case Malformed(_) => Err(InvalidToken)
    case Signed(c, k) =>
      if k != key then Err(InvalidSignature)
      else if shape.needsEmail && c.email.None? then Err(MissingField("email"))
      else if shape.needsTyp && c.typ.None? then Err(MissingField("typ"))
      else if c.exp < now - leeway then Err(ExpiredSignature)
      else Ok(c)
  }

  /** Decoding what was encoded with the same key hands back the claims, for as long
      as the expiry (plus leeway) has not passed. */
  lemma EncodeDecodeRoundTrip(c: Claims, key: string, shape: Shape, now: Timestamp, leeway: nat)
    requires HasFields(c, shape)
    requires now <= c.exp + leeway
    ensures Decode(Encode(c, key), key, shape, now, leeway) == Ok(c)
  {}

  /** A token signed with another key never decodes. */
  lemma WrongKeyNeverDecodes(c: Claims, key: string, other: string, shape: Shape, now: Timestamp, leeway: nat)
    requires key != other
    ensures Decode(Encode(c, other), key, shape, now, leeway) == Err(InvalidSignature)
  {}
}

=== FILE: legacy_jwt.dfy ===
/** The earlier token service (`service::jwt::JwtService`): subject-only tokens with a
    lifetime in seconds, and an explicit expiry check after the library's own. */
module LegacyJwt {
  import opened Wrappers
  import opened Jwt

  /** Secret and lifetime in seconds (`JwtConfig`). */
  datatype JwtConfig = JwtConfig(secret: string, expiration: int)

  datatype JwtService = JwtService(config: JwtConfig, leeway: nat)

  datatype Error = JwtError(lib: LibError) | TokenExpired

  /** This `Claims` struct has neither `email` nor `typ`. */
  const ClaimsShape := Shape(false, false)

  /** `generate_jwt_token`. */
  function GenerateJwtToken(svc: JwtService, subject: string, now: Timestamp): Token {
    Jwt.Encode(Claims(subject, None, now, now + svc.config.expiration, None), svc.config.secret)
  }

  /** `verify_jwt_token`: library failures are wrapped; a token the library lets
      through inside its leeway is still refused once `exp` has passed. */
  function VerifyJwtToken(svc: JwtService, t: Token, now: Timestamp): (r: Result<string, Error>)
    ensures r.Ok? <==> t.Signed? && t.key == svc.config.secret && t.claims.exp >= now
    ensures r.Ok? ==> r.value == t.claims.sub
    ensures r == Err(TokenExpired) <==> t.Signed? && t.key == svc.config.secret
                                        && now - svc.leeway <= t.claims.exp < now
  {
    match Jwt.Decode(t, svc.config.secret, ClaimsShape, now, svc.leeway)
    case Err(e) => Err(JwtError(e))
    case Ok(c) => if c.exp < now then Err(TokenExpired) else Ok(c.sub)
  }

  /** Verifying a token generated at `issued` gives back its subject up to the end of
      its lifetime, and fails from the next second on. */
  lemma GenerateVerifyRoundTrip(svc: JwtService, subject: string, issued: Timestamp, now: Timestamp)
    ensures now <= issued + svc.config.expiration ==>
      VerifyJwtToken(svc, GenerateJwtToken(svc, subject, issued), now) == Ok(subject)
    ensures now > issued + svc.config.expiration ==>
      VerifyJwtToken(svc, GenerateJwtToken(svc, subject, issued), now).Err?
  {}

  /** The scenario of the expiry test: a five-second token checked six seconds later
      is refused as expired, although the library's leeway would still accept it. */
  lemma ExpiredInsideLeeway(subject: string, issued: Timestamp)
    ensures var svc := JwtService(JwtConfig("my_secret", 5), 60);
            VerifyJwtToken(svc, GenerateJwtToken(svc, subject, issued), issued + 6) == Err(TokenExpired)
  {}
}

=== FILE: legacy_validation.dfy ===
/** The earlier copy of the input rules (`service::validation`): the same user-name
    and password predicates as the user service's `ValidationService`. */
module LegacyValidation {
  import opened Wrappers
  import PasswordPolicy
  import ValidationService

  /** `validate_username`. */
  function ValidateUsername(u: string): (r: Result<(), PasswordPolicy.ValidationError>)
    ensures r.Ok? <==> ValidationService.IsValidUsername(u)
    ensures r.Err? ==> r.error.code == ValidationService.UsernameRule
  {
    if ValidationService.IsValidUsername(u) then Ok(())
    else Err(PasswordPolicy.ValidationError(ValidationService.UsernameRule))
  }

  /** `validate_password`. */
  function ValidatePassword(p: string): (r: Result<(), PasswordPolicy.ValidationError>)
    ensures r.Ok? <==> ValidationService.IsValidPassword(p)
    ensures r.Err? ==> r.error.code == PasswordPolicy.PasswordRule
  {
    if ValidationService.IsValidPassword(p) then Ok(())
    else Err(PasswordPolicy.ValidationError(PasswordPolicy.PasswordRule))
  }

  /** Both copies of the rules give the same verdict and message on every input. */
  lemma SameRulesAsUserService(u: string, p: string)
    ensures ValidateUsername(u) == ValidationService.ValidateUsername(u)
    ensures ValidatePassword(p) == ValidationService.ValidatePassword(p)
  {}
}

=== FILE: password_policy.dfy ===
/** The free functions of the first service layer (`services.rs`): the password rule
    and the environment-keyed token helpers. */
module PasswordPolicy {
  import opened Wrappers
  import opened Text
  import Jwt

  /** A character that is not an ASCII letter or digit counts as special here. */
  predicate IsAsciiSpecial(c: char) { !IsAsciiAlphanumeric(c) }

  /** `is_valid_password`: not blank, with an ASCII lower-case letter, an ASCII
      upper-case letter, an ASCII digit and a special character. */
  predicate IsValidPassword(p: string) {
    && !IsBlank(p)
    && AnyChar(p, IsAsciiLower)
    && AnyChar(p, IsAsciiUpper)
    && AnyChar(p, IsAsciiDigit)
    && AnyChar(p, IsAsciiSpecial)
  }

  /** `validator::ValidationError` carries a code naming the broken rule. */
  datatype ValidationError = ValidationError(code: string)

  const PasswordRule := "Password must contain at least one lowercase letter, one uppercase letter, one digit, and one special character"

  /** `validate_password`: refuses exactly the passwords the rule rejects. */
  function ValidatePassword(p: string): (r: Result<(), ValidationError>)
    ensures r.Ok? <==> IsValidPassword(p)
    ensures r.Err? ==> r.error.code == PasswordRule
  {
    if IsValidPassword(p) then Ok(()) else Err(ValidationError(PasswordRule))
  }

  /** A password with a character of each class at the given positions passes. */
  lemma HasAllClasses(p: string, lower: nat, upper: nat, digit: nat, special: nat)
    requires lower < |p| && upper < |p| && digit < |p| && special < |p|
    requires IsAsciiLower(p[lower]) && IsAsciiUpper(p[upper])
    requires IsAsciiDigit(p[digit]) && IsAsciiSpecial(p[special])
    ensures ValidatePassword(p).Ok?
  {
    NotBlankIfHas(p, lower);
  }

  /** The rule's accepted test vectors. */
  lemma PasswordsAccepted(p: string)
    requires p in ["Password1!", "P@ssw0rd", "P@ssw0rd!123"]
    ensures ValidatePassword(p).Ok?
  {
    if p == "Password1!" {
      HasAllClasses(p, 1, 0, 8, 9);
    } else {
      HasAllClasses(p, 2, 0, 5, 1);
    }
  }

  /** The rule's refused test vectors, each missing one class. */
  lemma PasswordsRefused(p: string)
    requires p in ["", "password", "PASSWORD", "password1", "Password!"]
    ensures ValidatePassword(p).Err?
  {
    if p == "password" || p == "password1" {
      assert !AnyChar(p, IsAsciiUpper);
    } else if p == "PASSWORD" {
      assert !AnyChar(p, IsAsciiLower);
    } else if p == "Password!" {
      assert !AnyChar(p, IsAsciiDigit);
    }
  }

  /** The failures of this layer's token helpers. */
  datatype ServiceError =
    | HashError(message: string)
    | JwtError(lib: Jwt.LibError)
    | EnvError
    | UserAlreadyExists
    | InvalidCredentials
    | InternalServerError
    | InvalidToken

  /** Token lifetime: 24 hours. */
  const TokenLifetime := 24 * 3600

  /** This `Claims` struct has neither `email` nor `typ`. */
  const ClaimsShape := Jwt.Shape(false, false)

  /** `encode_jwt`: claims for `userId` issued at `now` and valid for a day, signed with
      the `JWT_SECRET` environment variable (`secretEnv`); without it, `EnvError`. */
  function EncodeJwt(userId: string, secretEnv: Option<string>, now: Jwt.Timestamp): (r: Result<Jwt.Token, ServiceError>)
    ensures r.Ok? <==> secretEnv.Some?
    ensures r.Err? ==> r.error == EnvError
    ensures r.Ok? ==> r.value.Signed? && r.value.key == secretEnv.value
                      && r.value.claims.sub == userId && r.value.claims.iat == now
                      && r.value.claims.exp == r.value.claims.iat + TokenLifetime
  {
    var claims := Jwt.Claims(userId, None, now, now + TokenLifetime, None);
    match secretEnv
    case None => Err(EnvError)
    case Some(secret) => Ok(Jwt.Encode(claims, secret))
  }

  /** `decode_jwt`: the library's checks with the environment's secret. */
  function DecodeJwt(t: Jwt.Token, secretEnv: Option<string>, now: Jwt.Timestamp, leeway: nat): (r: Result<Jwt.Claims, ServiceError>)
    ensures secretEnv.None? ==> r == Err(EnvError)
    ensures secretEnv.Some? ==>
      (r.Ok? <==> Jwt.Decode(t, secretEnv.value, ClaimsShape, now, leeway).Ok?)
    ensures r.Ok? ==> r.value == t.claims
  {
    match secretEnv
    case None => Err(EnvError)
    case Some(secret) =>
      match Jwt.Decode(t, secret, ClaimsShape, now, leeway)
      case Err(e) => Err(JwtError(e))
      case Ok(c) => Ok(c)
  }

  /** Under one environment, decoding an encoded token gives back its subject for a
      day (plus leeway), with an expiry in `(now, now + 24h]` of the instant of issue;
      a string that is no token is refused. */
  lemma EncodeDecodeRoundTrip(userId: string, secret: string, issued: Jwt.Timestamp, now: Jwt.Timestamp, leeway: nat, junk: string)
    requires now <= issued + TokenLifetime + leeway
    ensures DecodeJwt(EncodeJwt(userId, Some(secret), issued).value, Some(secret), now, leeway).Ok?
    ensures var c := DecodeJwt(EncodeJwt(userId, Some(secret), issued).value, Some(secret), now, leeway).value;
            c.sub == userId && issued < c.exp <= issued + TokenLifetime
    ensures DecodeJwt(Jwt.Malformed(junk), Some(secret), now, leeway).Err?
  {}
}

=== FILE: rate_limit_keys.dfy ===
/** The rate limiter's counter key for a request (`middlewares::rate_limit`): the
    bearer token, the client address, or either followed by the request path. */
module RateLimitKeys {
  import opened Wrappers
  import opened Text
  import opened RateLimitConfig
  import BearerExtractor

  /** What the middleware reads from a request. */
  datatype Request = Request(authorization: Option<string>, realIp: Option<string>, path: string)

  /** `IpAddress::new`: the address the connection reports, else the loopback address. */
  function IpAddressOf(req: Request): (ip: string)
    ensures req.realIp.Some? ==> ip == req.realIp.value
    ensures req.realIp.None? ==> ip == "127.0.0.1"
  {
    req.realIp.GetOr("127.0.0.1")
  }

  /** The request's bearer token if it has a usable one, else its address. */
  function Identifier(req: Request): string {
    BearerExtractor.ExtractJwtToken(req.authorization).ToOption().GetOr(IpAddressOf(req))
  }

  /** `generate` never fails; the limiter is built on its `.ok()`. */
  datatype RateLimitError = RateLimitError(message: string)

  /** `KeyGenerator::generate`. */
  function GenerateKey(strategy: KeyStrategy, req: Request): (r: Result<string, RateLimitError>)
    ensures r.Ok?
    ensures strategy == IpAddress ==> r.value == IpAddressOf(req)
    ensures strategy == Token ==>
      (BearerExtractor.ExtractJwtToken(req.authorization).Ok? ==> r.value == BearerExtractor.ExtractJwtToken(req.authorization).value)
      && (BearerExtractor.ExtractJwtToken(req.authorization).Err? ==> r.value == IpAddressOf(req))
    ensures strategy == TokenOrIpWithPath ==> r.value == Identifier(req) + ":" + req.path
  {
    match strategy
    case Token => Ok(Identifier(req))
    case IpAddress => Ok(IpAddressOf(req))
    case TokenOrIpWithPath => Ok(Identifier(req) + ":" + req.path)
  }

  /** The path-qualified key is the token key followed by `:` and the path, so two
      requests share a path-qualified counter only if they share a token counter and
      a path. */
  lemma PathKeyExtendsTokenKey(req: Request, other: Request)
    requires |req.path| == |other.path|
    ensures GenerateKey(TokenOrIpWithPath, req).value == GenerateKey(Token, req).value + ":" + req.path
    ensures GenerateKey(TokenOrIpWithPath, req) == GenerateKey(TokenOrIpWithPath, other)
            ==> GenerateKey(Token, req) == GenerateKey(Token, other) && req.path == other.path
  {
    var a, b := GenerateKey(Token, req).value, GenerateKey(Token, other).value;
    if GenerateKey(TokenOrIpWithPath, req) == GenerateKey(TokenOrIpWithPath, other) {
      var x, y := a + ":" + req.path, b + ":" + other.path;
      assert |a| == |b|;
      assert a == x[..|a|] == y[..|b|] == b;
      assert req.path == x[|a| + 1..] == y[|b| + 1..] == other.path;
    }
  }

  /** The address key ignores the headers; a request with a well-formed bearer header
      is keyed by its token, one without by its address. */
  lemma KeyFallbacks(req: Request, header: Option<string>, t: string)
    requires |t| > 0 && !IsWhitespace(t[0]) && !IsWhitespace(t[|t| - 1])
    requires AllChars(t, BearerExtractor.IsVisibleAscii)
    ensures GenerateKey(IpAddress, req) == GenerateKey(IpAddress, req.(authorization := header))
    ensures GenerateKey(Token, req.(authorization := None)) == Ok(IpAddressOf(req))
    ensures GenerateKey(Token, req.(authorization := Some(BearerExtractor.BearerPrefix + t))) == Ok(t)
  {
    assert BearerExtractor.BearerPrefix + t == BearerExtractor.BearerPrefix + "" + t + "";
    BearerExtractor.ExtractRoundTrip("", t, "");
  }
}

=== FILE: refresh_token_service.dfy ===
/** The refresh-token store (`RefreshTokenService` over `RefreshTokenRepository`): one
    table of rows, looked up by user or by token string. Every row is created with the
    same absolute expiry instant, fixed when the service is built. */
module RefreshTokenStore {
  import opened Wrappers
  import opened Jwt
  import opened Tables
  import opened SessionModels

  datatype RefreshTokenServiceError =
    | RefreshTokenNotFound
    | RefreshTokenAlreadyExists
    | DatabaseError(message: string)

  /** sqlx's text for a `fetch_one` that matched no row. */
  const RowNotFoundText := "no rows returned by a query that expected to return at least one row"

  /** `Display for RefreshTokenServiceError` (the database case is transparent). */
  function ErrorText(e: RefreshTokenServiceError): (r: string)
    ensures e.DatabaseError? ==> r == e.message
    ensures !e.DatabaseError? ==> r == "Refresh token " + (if e.RefreshTokenNotFound? then "not found" else "already exists")
  {
    match e
    case RefreshTokenNotFound => "Refresh token not found"
    case RefreshTokenAlreadyExists => "Refresh token already exists"
    case DatabaseError(m) => m
  }

  /** The two named failures read differently, but a database failure shows sqlx's text
      unchanged, so its text alone can be mistaken for either of them. */
  lemma TransparentTextIsAmbiguous()
    ensures ErrorText(RefreshTokenNotFound) != ErrorText(RefreshTokenAlreadyExists)
    ensures ErrorText(DatabaseError("Refresh token not found")) == ErrorText(RefreshTokenNotFound)
    ensures ErrorText(DatabaseError("Refresh token already exists")) == ErrorText(RefreshTokenAlreadyExists)
  {
    assert ErrorText(RefreshTokenNotFound)[14] != ErrorText(RefreshTokenAlreadyExists)[14];
  }

  /** The table and the expiry instant computed once at start-up. */
  datatype Store = Store(rows: seq<RefreshToken>, expiresAt: Timestamp)

  predicate OfUser(t: RefreshToken, userId: string) {
    t.userId == userId
  }

  /** The table holds at most one row per user. */
  predicate AtMostOnePerUser(rows: seq<RefreshToken>) {
    forall i, j :: 0 <= i < j < |rows| ==> rows[i].userId != rows[j].userId
  }

  /** `get_by_user_id`: the first row of the user. */
  function GetByUserId(s: Store, userId: string): (r: Option<RefreshToken>)
    ensures r.Some? ==> r.value in s.rows && r.value.userId == userId
    ensures r.None? <==> forall i :: 0 <= i < |s.rows| ==> s.rows[i].userId != userId
  {
    FirstWhere(s.rows, (t: RefreshToken) => OfUser(t, userId))
  }

  /** `get_by_token`: the first row holding exactly this token string. */
  function GetByToken(s: Store, token: Token): (r: Option<RefreshToken>)
    ensures r.Some? ==> r.value in s.rows && r.value.token == token
    ensures r.None? <==> forall i :: 0 <= i < |s.rows| ==> s.rows[i].token != token
  {
    FirstWhere(s.rows, (t: RefreshToken) => t.token == token)
  }

  /** `create`: refused when the user already has a row; otherwise a new row, expiring
      at the store's fixed instant, is appended and returned. */
  function Create(s: Store, userId: string, token: Token, id: string, now: Timestamp)
    : (out: (Result<RefreshToken, RefreshTokenServiceError>, Store))
    ensures out.0.Err? <==> GetByUserId(s, userId).Some?
    ensures out.0.Err? ==> out.0.error == RefreshTokenAlreadyExists && out.1 == s
    ensures out.0.Ok? ==> out.1 == s.(rows := s.rows + [out.0.value])
    ensures out.0.Ok? ==> out.0.value == NewRefreshToken(id, userId, token, s.expiresAt, now)
  {
    if GetByUserId(s, userId).Some? then (Err(RefreshTokenAlreadyExists), s)
    else
      var t := NewRefreshToken(id, userId, token, s.expiresAt, now);
      (Ok(t), s.(rows := s.rows + [t]))
  }

  function MarkRevoked(t: RefreshToken, now: Timestamp): RefreshToken {
    t.(isRevoked := true, updatedAt := now)
  }

  /** `revoke`: every row of the user is marked revoked and stamped; the first is
      returned, and a user without rows is a `RowNotFound` database error. */
  function Revoke(s: Store, userId: string, now: Timestamp)
    : (out: (Result<RefreshToken, RefreshTokenServiceError>, Store))
    ensures out.0.Err? <==> GetByUserId(s, userId).None?
    ensures out.0.Err? ==> out.0.error == DatabaseError(RowNotFoundText) && out.1 == s
    ensures |out.1.rows| == |s.rows| && out.1.expiresAt == s.expiresAt
    ensures forall i :: 0 <= i < |s.rows| ==>
      out.1.rows[i] == (if s.rows[i].userId == userId then s.rows[i].(isRevoked := true, updatedAt := now) else s.rows[i])
    ensures out.0.Ok? ==> out.0.value.isRevoked && out.0.value.userId == userId
  {
    var rows := UpdateWhere(s.rows, (t: RefreshToken) => OfUser(t, userId), (t: RefreshToken) => MarkRevoked(t, now));
    match GetByUserId(s, userId)
    case None =>
      assert rows == s.rows;
      (Err(DatabaseError(RowNotFoundText)), s)
    case Some(t) => (Ok(MarkRevoked(t, now)), s.(rows := rows))
  }

  /** `delete`: every row of the user goes; never an error, even when there was none. */
  function Delete(s: Store, userId: string): (r: Store)
    ensures r.expiresAt == s.expiresAt
    ensures GetByUserId(r, userId).None?
    ensures forall i :: 0 <= i < |s.rows| && s.rows[i].userId != userId ==> s.rows[i] in r.rows
    ensures forall i :: 0 <= i < |r.rows| ==> r.rows[i] in s.rows
  {
    s.(rows := Filter(s.rows, (t: RefreshToken) => !OfUser(t, userId)))
  }

  /** Dropping the first row keeps the one-row-per-user property. */
  lemma TailKeepsAtMostOne(rows: seq<RefreshToken>)
    requires |rows| > 0 && AtMostOnePerUser(rows)
    ensures AtMostOnePerUser(rows[1..])
  {
    forall i, j | 0 <= i < j < |rows[1..]| ensures rows[1..][i].userId != rows[1..][j].userId {
      assert rows[1..][i] == rows[i + 1] && rows[1..][j] == rows[j + 1];
    }
  }

  /** A row of a user absent from a table may go in front of it. */
  lemma ConsKeepsAtMostOne(x: RefreshToken, rest: seq<RefreshToken>)
    requires AtMostOnePerUser(rest)
    requires forall k :: 0 <= k < |rest| ==> rest[k].userId != x.userId
    ensures AtMostOnePerUser([x] + rest)
  {
    var r := [x] + rest;
    forall i, j | 0 <= i < j < |r| ensures r[i].userId != r[j].userId {
      assert r[j] == rest[j - 1];
      if i > 0 {
        assert r[i] == rest[i - 1];
      }
    }
  }

  /** Removing rows keeps the one-row-per-user property. */
  lemma {:induction false} FilterKeepsAtMostOne(rows: seq<RefreshToken>, keep: RefreshToken -> bool)
    requires AtMostOnePerUser(rows)
    ensures AtMostOnePerUser(Filter(rows, keep))
  {
    if |rows| > 0 {
      var rest := Filter(rows[1..], keep);
      TailKeepsAtMostOne(rows);
      FilterKeepsAtMostOne(rows[1..], keep);
      if keep(rows[0]) {
        forall k | 0 <= k < |rest| ensures rest[k].userId != rows[0].userId {
          var m :| 0 <= m < |rows[1..]| && rows[1..][m] == rest[k];
          assert rows[m + 1] == rest[k];
        }
        ConsKeepsAtMostOne(rows[0], rest);
      }
    }
  }

  /** Each store operation keeps the table at one row per user at most. */
  lemma OperationsKeepAtMostOne(s: Store, userId: string, token: Token, id: string, now: Timestamp)
    requires AtMostOnePerUser(s.rows)
    ensures AtMostOnePerUser(Create(s, userId, token, id, now).1.rows)
    ensures AtMostOnePerUser(Revoke(s, userId, now).1.rows)
    ensures AtMostOnePerUser(Delete(s, userId).rows)
  {
    FilterKeepsAtMostOne(s.rows, (t: RefreshToken) => !OfUser(t, userId));
  }

  /** Every row the store creates carries the fixed instant, whatever the clock says:
      once the clock has passed it, a row is expired the moment it is created. */
  lemma CreatedRowsShareExpiry(s: Store, userId: string, token: Token, id: string, now: Timestamp)
    requires GetByUserId(s, userId).None?
    ensures Create(s, userId, token, id, now).0.Ok?
    ensures Create(s, userId, token, id, now).0.value.expiresAt == s.expiresAt
    ensures IsExpired(Create(s, userId, token, id, now).0.value, now) <==> now > s.expiresAt
  {}

  /** After a delete, a create for the same user succeeds and the new row is the one
      found for the user and for the token. */
  lemma DeleteThenCreate(s: Store, userId: string, token: Token, id: string, now: Timestamp)
    requires AtMostOnePerUser(s.rows)
    ensures var (r, s2) := Create(Delete(s, userId), userId, token, id, now);
            r.Ok? && GetByUserId(s2, userId) == Some(r.value)
            && (GetByToken(Delete(s, userId), token).None? ==> GetByToken(s2, token) == Some(r.value))
  {
    var d := Delete(s, userId);
    var (r, s2) := Create(d, userId, token, id, now);
    assert s2.rows[|d.rows|] == r.value;
    assert forall i :: 0 <= i < |d.rows| ==> s2.rows[i] == d.rows[i];
  }
}

=== FILE: session_models.dfy ===
/** The stored session records (`models::token::RefreshToken` and
    `models::session::Session`), with the clock read passed in as `now`. */
module SessionModels {
  import opened Jwt

  /** One row of the refresh-token table. */
  datatype RefreshToken = RefreshToken(
    id: string,
    userId: string,
    token: Token,
    expiresAt: Timestamp,
    createdAt: Timestamp,
    updatedAt: Timestamp,
    isRevoked: bool)

  /** `RefreshToken::new`: a fresh identifier, the clock for both time stamps, not
      revoked, the rest as given. */
  function NewRefreshToken(id: string, userId: string, token: Token, expiresAt: Timestamp, now: Timestamp): (t: RefreshToken)
    ensures t.userId == userId && t.token == token && t.expiresAt == expiresAt
    ensures !t.isRevoked && t.createdAt == now && t.updatedAt == now && t.id == id
  {
    RefreshToken(id, userId, token, expiresAt, now, now, false)
  }

  /** `RefreshToken::is_expired`: strictly after the expiry instant. */
  predicate IsExpired(t: RefreshToken, now: Timestamp) {
    now > t.expiresAt
  }

  /** What the row serialises to: every field but the token. */
  datatype RefreshTokenView = RefreshTokenView(
    id: string,
    userId: string,
    expiresAt: Timestamp,
    createdAt: Timestamp,
    updatedAt: Timestamp,
    isRevoked: bool)

  /** The serialised form (`#[serde(skip_serializing)]` on the token). */
  function Serialize(t: RefreshToken): (v: RefreshTokenView)
    ensures v.id == t.id && v.userId == t.userId && v.isRevoked == t.isRevoked
    ensures v.expiresAt == t.expiresAt && v.createdAt == t.createdAt && v.updatedAt == t.updatedAt
  {
    RefreshTokenView(t.id, t.userId, t.expiresAt, t.createdAt, t.updatedAt, t.isRevoked)
  }

  function BoolText(b: bool): string {
    if b then "true" else "false"
  }

  /** `Display for RefreshToken`, with `showTime` standing for chrono's rendering of an
      instant. */
  function Display(t: RefreshToken, showTime: Timestamp -> string): string {
    "RefreshToken { id: " + t.id + ", user_id: " + t.userId
      + ", expires_at: " + showTime(t.expiresAt) + ", created_at: " + showTime(t.createdAt)
      + ", is_revoked: " + BoolText(t.isRevoked) + " }"
  }

  /** Neither the serialised form nor the displayed text depends on the token: two
      rows that differ only in their token look the same. */
  lemma TokenIsRedacted(t: RefreshToken, other: Token, showTime: Timestamp -> string)
    ensures Serialize(t.(token := other)) == Serialize(t)
    ensures Display(t.(token := other), showTime) == Display(t, showTime)
  {}

  /** A freshly made row is live until its expiry instant, inclusive, and expired from
      the next second on. */
  lemma NewRefreshTokenLifetime(id: string, userId: string, token: Token, expiresAt: Timestamp, created: Timestamp, now: Timestamp)
    ensures !IsExpired(NewRefreshToken(id, userId, token, expiresAt, created), expiresAt)
    ensures IsExpired(NewRefreshToken(id, userId, token, expiresAt, created), now) <==> now > expiresAt
    ensures !NewRefreshToken(id, userId, token, expiresAt, created).isRevoked
  {}

  /** One row of the session table. */
  datatype Session = Session(
    id: string,
    userId: string,
    refreshToken: string,
    isRevoked: bool,
    expiresAt: Timestamp,
    createdAt: Timestamp,
    updatedAt: Timestamp)

  /** `Session::new`: expires `duration` seconds after the clock reading `now`. */
  function NewSession(id: string, userId: string, refreshToken: string, duration: int, now: Timestamp): (s: Session)
    ensures s.userId == userId && s.refreshToken == refreshToken && !s.isRevoked
    ensures s.expiresAt - s.createdAt == duration && s.createdAt == now && s.updatedAt == now
  {
    Session(id, userId, refreshToken, false, now + duration, now, now)
  }

  /** `Session::is_expired`: the expiry instant lies in the past. */
  predicate SessionIsExpired(s: Session, now: Timestamp) {
    s.expiresAt < now
  }

  /** A session made with a non-negative duration is live at its creation instant and
      stays live exactly through `duration` seconds. */
  lemma SessionLifetime(id: string, userId: string, refreshToken: string, duration: int, created: Timestamp, now: Timestamp)
    requires duration >= 0
    ensures !SessionIsExpired(NewSession(id, userId, refreshToken, duration, created), created)
    ensures SessionIsExpired(NewSession(id, userId, refreshToken, duration, created), now) <==> now > created + duration
  {}
}

=== FILE: tables.dfy ===
/** Database tables as sequences of rows in insertion order, with the three query
    shapes the repositories use: `SELECT … WHERE p LIMIT 1` (`fetch_optional` hands back
    the first matching row), `DELETE … WHERE p` (every matching row goes) and
    `UPDATE … WHERE p` (every matching row is rewritten in place). */
module Tables {
  import opened Wrappers

  /** Some row of `rows` satisfies `p`. */
  predicate AnyRow<T>(rows: seq<T>, p: T -> bool) {
    exists i :: 0 <= i < |rows| && p(rows[i])
  }

  /** The first row satisfying `p`, if any. */
  function FirstWhere<T>(rows: seq<T>, p: T -> bool): (r: Option<T>)
    ensures r.None? <==> !AnyRow(rows, p)
    ensures r.Some? ==> exists i :: 0 <= i < |rows| && rows[i] == r.value && p(rows[i])
                                    && forall j :: 0 <= j < i ==> !p(rows[j])
  {
    if |rows| == 0 then None
    else if p(rows[0]) then Some(rows[0])
    else
      var r := FirstWhere(rows[1..], p);
      assert r.Some? ==> exists i :: 0 <= i < |rows| - 1 && rows[1..][i] == r.value && p(rows[1..][i])
                                     && forall j :: 0 <= j < i ==> !p(rows[1..][j]);
      r
  }

  /** The rows satisfying `keep`, in their original order. */
  function Filter<T>(rows: seq<T>, keep: T -> bool): (r: seq<T>)
    ensures |r| <= |rows|
    ensures forall i :: 0 <= i < |r| ==> r[i] in rows && keep(r[i])
    ensures forall i :: 0 <= i < |rows| && keep(rows[i]) ==> rows[i] in r
  {
    if |rows| == 0 then []
    else
      var rest := Filter(rows[1..], keep);
      assert forall i :: 1 <= i < |rows| ==> rows[i] == rows[1..][i - 1];
      if keep(rows[0]) then [rows[0]] + rest else rest
  }

  /** Filtering keeps every row satisfying `keep` as often as it occurs, and adds nothing. */
  lemma {:induction false} FilterMultiset<T>(rows: seq<T>, keep: T -> bool)
    ensures forall x :: multiset(Filter(rows, keep))[x] == (if keep(x) then multiset(rows)[x] else 0)
  {
    if |rows| > 0 {
      FilterMultiset(rows[1..], keep);
      assert rows == [rows[0]] + rows[1..];
      assert multiset(rows) == multiset{rows[0]} + multiset(rows[1..]);
    }
  }

  /** Filtering with a condition every row meets keeps the table as it is. */
  lemma {:induction false} FilterKeepsAll<T>(rows: seq<T>, keep: T -> bool)
    requires forall i :: 0 <= i < |rows| ==> keep(rows[i])
    ensures Filter(rows, keep) == rows
  {
    if |rows| > 0 {
      FilterKeepsAll(rows[1..], keep);
      assert [rows[0]] + rows[1..] == rows;
    }
  }

  /** Number of rows satisfying `p` (`SELECT COUNT(*) … WHERE p`). */
  function CountWhere<T>(rows: seq<T>, p: T -> bool): (n: nat)
    ensures n <= |rows|
    ensures n == 0 <==> !AnyRow(rows, p)
  {
    if |rows| == 0 then 0
    else
      var rest := CountWhere(rows[1..], p);
      assert AnyRow(rows, p) <==> p(rows[0]) || AnyRow(rows[1..], p) by {
        if AnyRow(rows[1..], p) {
          var i :| 0 <= i < |rows| - 1 && p(rows[1..][i]);
          assert p(rows[i + 1]);
        }
      }
      (if p(rows[0]) then 1 else 0) + rest
  }

  /** Counting agrees with the size of the filtered table. */
  lemma {:induction false} CountIsFilterSize<T>(rows: seq<T>, p: T -> bool)
    ensures CountWhere(rows, p) == |Filter(rows, p)|
  {
    if |rows| > 0 {
      CountIsFilterSize(rows[1..], p);
    }
  }

  /** Every row satisfying `p` rewritten by `f`; the others untouched, order kept. */
  function UpdateWhere<T>(rows: seq<T>, p: T -> bool, f: T -> T): (r: seq<T>)
    ensures |r| == |rows|
    ensures forall i :: 0 <= i < |rows| ==> r[i] == (if p(rows[i]) then f(rows[i]) else rows[i])
  {
    seq(|rows|, i requires 0 <= i < |rows| => if p(rows[i]) then f(rows[i]) else rows[i])
  }

  /** When rewriting keeps the rows `p` selects selected, the first selected row after
      an `UPDATE` is the rewritten first selected row from before. */
  lemma {:induction false} UpdateThenFirst<T>(rows: seq<T>, p: T -> bool, f: T -> T)
    requires forall x :: p(x) ==> p(f(x))
    ensures FirstWhere(rows, p).None? ==> FirstWhere(UpdateWhere(rows, p, f), p).None?
    ensures FirstWhere(rows, p).Some? ==> FirstWhere(UpdateWhere(rows, p, f), p) == Some(f(FirstWhere(rows, p).value))
  {
    if |rows| > 0 {
      assert UpdateWhere(rows, p, f)[1..] == UpdateWhere(rows[1..], p, f);
      if !p(rows[0]) {
        UpdateThenFirst(rows[1..], p, f);
      }
    }
  }
}

=== FILE: text.dfy ===
/** Character classes and string helpers with the meaning Rust's `char` and `str`
    methods give them: `trim`, `is_ascii_*`, `is_alphanumeric`, `to_ascii_lowercase`,
    `starts_with`, `find`/`rfind` of a character, and decimal rendering of integers
    (`{}` in `format!`). */
module Text {
  import opened Wrappers

  // ---------------------------------------------------------------------------
  // Character classes
  // ---------------------------------------------------------------------------

  /** Unicode White_Space: exactly the characters `str::trim` strips. */
  predicate IsWhitespace(c: char) {
    || ('\t' <= c <= '\r')
    || c == ' '
    || c == '\U{85}'
    || c == '\U{A0}'
    || c == '\U{1680}'
    || ('\U{2000}' <= c <= '\U{200A}')
    || c == '\U{2028}'
    || c == '\U{2029}'
    || c == '\U{202F}'
    || c == '\U{205F}'
    || c == '\U{3000}'
  }

  predicate IsAsciiLower(c: char) { 'a' <= c <= 'z' }

  predicate IsAsciiUpper(c: char) { 'A' <= c <= 'Z' }

  predicate IsAsciiDigit(c: char) { '0' <= c <= '9' }

  predicate IsAsciiAlpha(c: char) { IsAsciiLower(c) || IsAsciiUpper(c) }

  predicate IsAsciiAlphanumeric(c: char) { IsAsciiAlpha(c) || IsAsciiDigit(c) }

  /** Letters and numerics of the Latin-1 Supplement block (Alphabetic, or general
      category Nd/Nl/No): the non-ASCII part of `char::is_alphanumeric` this model covers. */
  predicate IsLatin1Alphanumeric(c: char) {
    || c == '\U{AA}' || c == '\U{B2}' || c == '\U{B3}' || c == '\U{B5}'
    || c == '\U{B9}' || c == '\U{BA}'
    || ('\U{BC}' <= c <= '\U{BE}')
    || ('\U{C0}' <= c <= '\U{D6}')
    || ('\U{D8}' <= c <= '\U{F6}')
    || ('\U{F8}' <= c <= '\U{FF}')
  }

  /** `char::is_alphanumeric`: ASCII letters and digits, plus the Latin-1 ones. */
  predicate IsAlphanumeric(c: char) {
    IsAsciiAlphanumeric(c) || IsLatin1Alphanumeric(c)
  }

  lemma AsciiAlphanumericIsAlphanumeric(c: char)
    ensures IsAsciiAlphanumeric(c) ==> IsAlphanumeric(c)
    ensures c < '\U{80}' ==> (IsAlphanumeric(c) <==> IsAsciiAlphanumeric(c))
  {}

  /** `s.chars().any(p)`. */
  predicate AnyChar(s: string, p: char -> bool) {
    exists i :: 0 <= i < |s| && p(s[i])
  }

  /** `s.chars().all(p)`. */
  predicate AllChars(s: string, p: char -> bool) {
    forall i :: 0 <= i < |s| ==> p(s[i])
  }

  // ---------------------------------------------------------------------------
  // Trimming
  // ---------------------------------------------------------------------------

  /** `str::trim_start`: the longest suffix not starting with white space. */
  function TrimStart(s: string): (r: string)
    ensures |r| <= |s| && r == s[|s| - |r|..]
    ensures |r| > 0 ==> !IsWhitespace(r[0])
    ensures forall i :: 0 <= i < |s| - |r| ==> IsWhitespace(s[i])
    decreases |s|
  {
    if |s| > 0 && IsWhitespace(s[0]) then TrimStart(s[1..]) else s
  }

  /** `str::trim_end`: the longest prefix not ending with white space. */
  function TrimEnd(s: string): (r: string)
    ensures |r| <= |s| && r == s[..|r|]
    ensures |r| > 0 ==> !IsWhitespace(r[|r| - 1])
    ensures forall i :: |r| <= i < |s| ==> IsWhitespace(s[i])
    decreases |s|
  {
    if |s| > 0 && IsWhitespace(s[|s| - 1]) then TrimEnd(s[..|s| - 1]) else s
  }

  /** How many leading white-space characters `trim` drops. */
  function LeadingWhitespace(s: string): (n: nat)
    ensures n <= |s|
  {
    |s| - |TrimStart(s)|
  }

  /** `str::trim`: white space removed at both ends; what is left is the slice of `s`
      that starts after the leading white space. */
  function Trim(s: string): (r: string)
    ensures LeadingWhitespace(s) + |r| <= |s|
    ensures r == s[LeadingWhitespace(s)..LeadingWhitespace(s) + |r|]
    ensures |r| > 0 ==> !IsWhitespace(r[0]) && !IsWhitespace(r[|r| - 1])
    ensures forall i :: 0 <= i < LeadingWhitespace(s) ==> IsWhitespace(s[i])
    ensures forall i :: LeadingWhitespace(s) + |r| <= i < |s| ==> IsWhitespace(s[i])
  {
    var t := TrimStart(s);
    var r := TrimEnd(t);
    TrimSlices(s, t, r);
    r
  }

  /** The end-trimmed prefix of a suffix of `s` is a slice of `s`, and the white space
      `TrimEnd` dropped is white space of `s`. */
  lemma TrimSlices(s: string, t: string, r: string)
    requires |t| <= |s| && t == s[|s| - |t|..]
    requires |r| <= |t| && r == t[..|r|]
    requires |r| > 0 ==> !IsWhitespace(t[0])
    requires forall i :: |r| <= i < |t| ==> IsWhitespace(t[i])
    ensures r == s[|s| - |t|..|s| - |t| + |r|]
    ensures |r| > 0 ==> !IsWhitespace(r[0])
    ensures forall i :: |s| - |t| + |r| <= i < |s| ==> IsWhitespace(s[i])
  {
    var k := |s| - |t|;
    forall i | k + |r| <= i < |s| ensures IsWhitespace(s[i]) {
      assert s[i] == t[i - k];
    }
  }

  /** `s.trim().is_empty()`. */
  predicate IsBlank(s: string) {
    |Trim(s)| == 0
  }

  /** A string is blank exactly when every character in it is white space. */
  lemma BlankIffAllWhitespace(s: string)
    ensures IsBlank(s) <==> forall i :: 0 <= i < |s| ==> IsWhitespace(s[i])
  {
    if !IsBlank(s) {
      var r := Trim(s);
      assert s[LeadingWhitespace(s)] == r[0];
    }
  }

  /** Trimming a string that has no white space at either end changes nothing. */
  lemma TrimOfTrimmed(s: string)
    requires |s| > 0 ==> !IsWhitespace(s[0]) && !IsWhitespace(s[|s| - 1])
    ensures Trim(s) == s
  {}

  /** Trimming is idempotent. */
  lemma TrimIdempotent(s: string)
    ensures Trim(Trim(s)) == Trim(s)
  {
    TrimOfTrimmed(Trim(s));
  }

  /** White space around a string with non-white ends is exactly what `trim` removes. */
  lemma {:induction false} TrimPadded(a: string, t: string, b: string)
    requires AllChars(a, IsWhitespace) && AllChars(b, IsWhitespace)
    requires |t| > 0 && !IsWhitespace(t[0]) && !IsWhitespace(t[|t| - 1])
    ensures Trim(a + t + b) == t
  {
    assert a + t + b == a + (t + b);
    TrimStartPadded(a, t + b);
    TrimEndPadded(t, b);
  }

  lemma {:induction false} TrimStartPadded(a: string, u: string)
    requires AllChars(a, IsWhitespace)
    requires |u| > 0 && !IsWhitespace(u[0])
    ensures TrimStart(a + u) == u
    decreases |a|
  {
    if |a| > 0 {
      assert (a + u)[1..] == a[1..] + u;
      TrimStartPadded(a[1..], u);
    } else {
      assert a + u == u;
    }
  }

  lemma {:induction false} TrimEndPadded(u: string, b: string)
    requires AllChars(b, IsWhitespace)
    requires |u| > 0 && !IsWhitespace(u[|u| - 1])
    ensures TrimEnd(u + b) == u
    decreases |b|
  {
    if |b| > 0 {
      assert (u + b)[..|u + b| - 1] == u + b[..|b| - 1];
      TrimEndPadded(u, b[..|b| - 1]);
    } else {
      assert u + b == u;
    }
  }

  /** Characters with a class are never white space, so a string that contains one
      is not blank. */
  lemma NotBlankIfHas(s: string, i: int)
    requires 0 <= i < |s| && !IsWhitespace(s[i])
    ensures !IsBlank(s)
  {
    BlankIffAllWhitespace(s);
  }

  // ---------------------------------------------------------------------------
  // Case and prefixes
  // ---------------------------------------------------------------------------

  function AsciiLowerChar(c: char): char {
    if IsAsciiUpper(c) then (c as int + 32) as char else c
  }

  /** `str::to_ascii_lowercase`: ASCII capitals lowered, everything else kept. */
  function AsciiLower(s: string): (r: string)
    ensures |r| == |s|
    ensures forall i :: 0 <= i < |s| ==> r[i] == AsciiLowerChar(s[i])
  {
    seq(|s|, i requires 0 <= i < |s| => AsciiLowerChar(s[i]))
  }

  /** Lowering a string without ASCII capitals leaves it unchanged. */
  lemma AsciiLowerOfLower(s: string)
    requires forall i :: 0 <= i < |s| ==> !IsAsciiUpper(s[i])
    ensures AsciiLower(s) == s
  {}

  /** `str::starts_with` for a string pattern. */
  predicate StartsWith(s: string, prefix: string) {
    |prefix| <= |s| && s[..|prefix|] == prefix
  }

  /** A message framed by a fixed prefix and suffix gives the message back: two framed
      texts are equal only when their messages are. */
  lemma Unframe(p: string, x: string, y: string, sfx: string)
    requires p + x + sfx == p + y + sfx
    ensures x == y
  {
    assert |x| == |y|;
    assert x == (p + x + sfx)[|p|..|p| + |x|];
    assert y == (p + y + sfx)[|p|..|p| + |y|];
  }

  /** Lowering twice is lowering once. */
  lemma AsciiLowerIdempotent(s: string)
    ensures AsciiLower(AsciiLower(s)) == AsciiLower(s)
  {}

  /** Position of the first `c` in `s`. */
  function IndexOf(s: string, c: char): (r: Option<nat>)
    ensures r.None? ==> forall i :: 0 <= i < |s| ==> s[i] != c
    ensures r.Some? ==> r.value < |s| && s[r.value] == c && forall i :: 0 <= i < r.value ==> s[i] != c
  {
    if |s| == 0 then None
    else if s[0] == c then Some(0)
    else match IndexOf(s[1..], c)
      case None => None
      case Some(i) => Some(i + 1)
  }

  /** Position of the last `c` in `s`. */
  function LastIndexOf(s: string, c: char): (r: Option<nat>)
    ensures r.None? ==> forall i :: 0 <= i < |s| ==> s[i] != c
    ensures r.Some? ==> r.value < |s| && s[r.value] == c && forall i :: r.value < i < |s| ==> s[i] != c
  {
    if |s| == 0 then None
    else if s[|s| - 1] == c then Some(|s| - 1)
    else LastIndexOf(s[..|s| - 1], c)
  }

  /** An occurrence with none before it is the one `IndexOf` finds. */
  lemma IndexOfIs(s: string, c: char, i: nat)
    requires i < |s| && s[i] == c
    requires forall j :: 0 <= j < i ==> s[j] != c
    ensures IndexOf(s, c) == Some(i)
  {}

  /** An occurrence with none after it is the one `LastIndexOf` finds. */
  lemma LastIndexOfIs(s: string, c: char, i: nat)
    requires i < |s| && s[i] == c
    requires forall j :: i < j < |s| ==> s[j] != c
    ensures LastIndexOf(s, c) == Some(i)
  {}

  // ---------------------------------------------------------------------------
  // Decimal rendering
  // ---------------------------------------------------------------------------

  function DigitChar(d: nat): (c: char)
    requires d < 10
    ensures IsAsciiDigit(c)
  {
    ('0' as int + d) as char
  }

  predicate AllDigits(s: string) {
    forall i :: 0 <= i < |s| ==> IsAsciiDigit(s[i])
  }

  /** `{}` of an unsigned integer: decimal digits, most significant first, without
      leading zeros. */
  function NatToDecimal(n: nat): (r: string)
    ensures |r| > 0 && AllDigits(r)
    ensures r[0] == '0' ==> n == 0
    decreases n
  {
    if n < 10 then [DigitChar(n)] else NatToDecimal(n / 10) + [DigitChar(n % 10)]
  }

  /** `{}` of a signed integer. */
  function IntToDecimal(i: int): string {
    if i < 0 then "-" + NatToDecimal(-i) else NatToDecimal(i)
  }

  /** The value a string of decimal digits denotes. */
  function DecimalValue(s: string): nat
    requires AllDigits(s)
  {
    if |s| == 0 then 0 else DecimalValue(s[..|s| - 1]) * 10 + (s[|s| - 1] as int - '0' as int)
  }

  /** Reading back a rendered number gives the number: rendering is injective. */
  lemma {:induction false} DecimalRoundTrip(n: nat)
    ensures DecimalValue(NatToDecimal(n)) == n
    decreases n
  {
    if n >= 10 {
      var r := NatToDecimal(n);
      DecimalRoundTrip(n / 10);
      assert r[..|r| - 1] == NatToDecimal(n / 10);
    }
  }

  /** The value of an optionally negated string of decimal digits. */
  function SignedDecimalValue(s: string): int
    requires |s| > 0 && (s[0] == '-' ==> AllDigits(s[1..])) && (s[0] != '-' ==> AllDigits(s))
  {
    if s[0] == '-' then -(DecimalValue(s[1..]) as int) else DecimalValue(s) as int
  }

  /** Signed rendering reads back too; its characters are digits and at most a
      leading minus sign. */
  lemma IntDecimalRoundTrip(i: int)
    ensures var r := IntToDecimal(i);
            && |r| > 0 && (r[0] == '-' ==> AllDigits(r[1..])) && (r[0] != '-' ==> AllDigits(r))
            && SignedDecimalValue(r) == i
            && forall k :: 0 <= k < |r| ==> IsAsciiDigit(r[k]) || r[k] == '-'
  {
    if i < 0 {
      var r := IntToDecimal(i);
      assert r[1..] == NatToDecimal(-i);
      DecimalRoundTrip(-i);
    } else {
      DecimalRoundTrip(i);
    }
  }

  lemma NatToDecimalInjective(m: nat, n: nat)
    requires NatToDecimal(m) == NatToDecimal(n)
    ensures m == n
  {
    DecimalRoundTrip(m);
    DecimalRoundTrip(n);
  }
}

=== FILE: typed_jwt.dfy ===
/** The class-tagged token codec (`JWTService`): every token carries a `typ` claim naming
    its class, and decoding for one class rejects a token of the other even when its
    signature is good. */
module TypedJwt {
  import opened Wrappers
  import opened Jwt

  datatype TokenType = Access | Refresh

  /** `TokenType::to_string`. */
  function TypeName(t: TokenType): string {
    match t
    case Access => "access"
    case Refresh => "refresh"
  }

  /** The two class names differ, so the tag identifies the class. */
  lemma TypeNameInjective(a: TokenType, b: TokenType)
    ensures TypeName(a) == TypeName(b) <==> a == b
  {}

  /** Signing secret and the two lifetimes (`JWTConfig`). */
  datatype JwtConfig = JwtConfig(secret: string, refreshDays: int, accessMinutes: int)

  datatype JwtServiceError =
    | TokenError(lib: LibError)
    | InvalidTokenType(tokenType: string, xTokenType: string)

  /** The service; `leeway` is the decoding library's tolerance for expired tokens. */
  datatype JwtService = JwtService(config: JwtConfig, leeway: nat)

  /** The payload fields `Claims` declares: `email` and `typ` besides the registered ones. */
  const ClaimsShape := Shape(true, true)

  /** `Claims::new`, with the wall clock read once as `now`. */
  function NewClaims(userId: string, email: string, tokenType: TokenType, duration: int, now: Timestamp): Claims {
    Claims(userId, Some(email), now, now + duration, Some(TypeName(tokenType)))
  }

  /** `JWTService::encode`. */
  function Encode(svc: JwtService, userId: string, email: string, tokenType: TokenType,
                  duration: int, now: Timestamp): Token
  {
    Jwt.Encode(NewClaims(userId, email, tokenType, duration, now), svc.config.secret)
  }

  /** `JWTService::decode`: the library checks first, then the class tag. */
  function Decode(svc: JwtService, t: Token, expected: TokenType, now: Timestamp): (r: Result<Claims, JwtServiceError>)
    ensures r.Ok? ==> r.value.typ == Some(TypeName(expected))
    ensures r.Ok? <==> Jwt.Decode(t, svc.config.secret, ClaimsShape, now, svc.leeway).Ok?
                       && t.claims.typ == Some(TypeName(expected))
    ensures Jwt.Decode(t, svc.config.secret, ClaimsShape, now, svc.leeway).Ok?
            && t.claims.typ != Some(TypeName(expected))
            ==> r == Err(InvalidTokenType(TypeName(expected), t.claims.typ.value))
  {
    match Jwt.Decode(t, svc.config.secret, ClaimsShape, now, svc.leeway)
    case Err(e) => Err(TokenError(e))
    case Ok(c) =>
      if c.typ.value != TypeName(expected) then
        Err(InvalidTokenType(TypeName(expected), c.typ.value))
      else
        Ok(c)
  }

  /** Access tokens live `accessMinutes` minutes. */
  function GenerateAccessToken(svc: JwtService, userId: string, email: string, now: Timestamp): Token {
    Encode(svc, userId, email, Access, svc.config.accessMinutes * 60, now)
  }

  /** Refresh tokens live `refreshDays` days. */
  function GenerateRefreshToken(svc: JwtService, userId: string, email: string, now: Timestamp): Token {
    Encode(svc, userId, email, Refresh, svc.config.refreshDays * 86400, now)
  }

  /** `get_expires_in`: the lifetime the token was issued with, `exp − iat`; only access
      tokens are accepted, and the wall clock matters only for the validity check. */
  function GetExpiresIn(svc: JwtService, t: Token, now: Timestamp): (r: Result<int, JwtServiceError>)
    ensures r.Ok? <==> Decode(svc, t, Access, now).Ok?
    ensures r.Ok? ==> r.value == t.claims.exp - t.claims.iat
    ensures t.Signed? && t.claims.typ == Some(TypeName(Refresh)) ==> r.Err?
  {
    match Decode(svc, t, Access, now)
    case Err(e) => Err(e)
    case Ok(c) => Ok(c.exp - c.iat)
  }

  function ValidateAccessToken(svc: JwtService, t: Token, now: Timestamp): Result<Claims, JwtServiceError> {
    Decode(svc, t, Access, now)
  }

  function ValidateRefreshToken(svc: JwtService, t: Token, now: Timestamp): Result<Claims, JwtServiceError> {
    Decode(svc, t, Refresh, now)
  }

  /** A generated access token is refused as a refresh token, and a generated refresh
      token as an access token, at every instant, with the class mismatch reported
      whenever the library accepts the signature. */
  lemma ClassesNeverCross(svc: JwtService, userId: string, email: string, issued: Timestamp, now: Timestamp)
    ensures ValidateRefreshToken(svc, GenerateAccessToken(svc, userId, email, issued), now).Err?
    ensures ValidateAccessToken(svc, GenerateRefreshToken(svc, userId, email, issued), now).Err?
    ensures now <= issued + svc.config.accessMinutes * 60 + svc.leeway ==>
      ValidateRefreshToken(svc, GenerateAccessToken(svc, userId, email, issued), now)
        == Err(InvalidTokenType("refresh", "access"))
    ensures now <= issued + svc.config.refreshDays * 86400 + svc.leeway ==>
      ValidateAccessToken(svc, GenerateRefreshToken(svc, userId, email, issued), now)
        == Err(InvalidTokenType("access", "refresh"))
  {}

  /** Each generated token validates as its own class while it is unexpired. */
  lemma GeneratedTokensValidate(svc: JwtService, userId: string, email: string, issued: Timestamp, now: Timestamp)
    ensures now <= issued + svc.config.accessMinutes * 60 + svc.leeway ==>
      ValidateAccessToken(svc, GenerateAccessToken(svc, userId, email, issued), now).Ok?
    ensures now <= issued + svc.config.refreshDays * 86400 + svc.leeway ==>
      ValidateRefreshToken(svc, GenerateRefreshToken(svc, userId, email, issued), now).Ok?
  {}

  /** The advertised lifetime of a generated access token is `accessMinutes × 60` no
      matter when it is asked for, as long as the token still validates. */
  lemma ExpiresInIsIssuedLifetime(svc: JwtService, userId: string, email: string, issued: Timestamp, now: Timestamp)
    requires now <= issued + svc.config.accessMinutes * 60 + svc.leeway
    ensures GetExpiresIn(svc, GenerateAccessToken(svc, userId, email, issued), now)
            == Ok(svc.config.accessMinutes * 60)
  {}

  /** For a positive lifetime the decoded claims have `exp > iat` and carry the subject
      they were issued for. */
  lemma DecodedClaimsRoundTrip(svc: JwtService, userId: string, email: string, tokenType: TokenType,
                                duration: int, now: Timestamp)
    requires duration > 0
    ensures Decode(svc, Encode(svc, userId, email, tokenType, duration, now), tokenType, now).Ok?
    ensures var c := Decode(svc, Encode(svc, userId, email, tokenType, duration, now), tokenType, now).value;
            c.exp > c.iat && c.sub == userId && c.email == Some(email)
  {}
}

=== FILE: untyped_jwt.dfy ===
/** The untagged token codec (`JWT`) the authentication service uses: access and refresh
    tokens differ only in lifetime, so decoding accepts either. */
module UntypedJwt {
  import opened Wrappers
  import opened Jwt

  /** Signing secret and the two lifetimes (`JWTConfig`). */
  datatype JwtConfig = JwtConfig(secret: string, refreshDays: int, accessMinutes: int)

  /** The codec; `leeway` is the decoding library's tolerance for expired tokens. */
  datatype Codec = Codec(config: JwtConfig, leeway: nat)

  /** This `Claims` struct declares `email` but no `typ`. */
  const ClaimsShape := Shape(true, false)

  /** `JWT::encode`: claims issued at `now`, expiring `duration` seconds later. */
  function Encode(codec: Codec, userId: string, email: string, duration: int, now: Timestamp): Token {
    Jwt.Encode(Claims(userId, Some(email), now, now + duration, None), codec.config.secret)
  }

  /** `JWT::decode`: the library's checks and nothing else. */
  function Decode(codec: Codec, t: Token, now: Timestamp): Result<Claims, LibError> {
    Jwt.Decode(t, codec.config.secret, ClaimsShape, now, codec.leeway)
  }

  function GenerateAccessToken(codec: Codec, userId: string, email: string, now: Timestamp): Token {
    Encode(codec, userId, email, codec.config.accessMinutes * 60, now)
  }

  function GenerateRefreshToken(codec: Codec, userId: string, email: string, now: Timestamp): Token {
    Encode(codec, userId, email, codec.config.refreshDays * 86400, now)
  }

  /** `get_expires_in`: seconds left until `exp`, read against the clock at the call
      (negative inside the leeway window). */
  function GetExpiresIn(codec: Codec, t: Token, now: Timestamp): (r: Result<int, LibError>)
    ensures r.Ok? <==> Decode(codec, t, now).Ok?
    ensures r.Ok? ==> r.value == t.claims.exp - now && r.value >= -(codec.leeway as int)
  {
    match Decode(codec, t, now)
    case Err(e) => Err(e)
    case Ok(c) => Ok(c.exp - now)
  }

  /** Unlike the tagged codec, a refresh token passes for an access token and back. */
  lemma ClassesInterchangeable(codec: Codec, userId: string, email: string, issued: Timestamp, now: Timestamp)
    requires now <= issued + codec.config.refreshDays * 86400 + codec.leeway
    ensures Decode(codec, GenerateRefreshToken(codec, userId, email, issued), now).Ok?
    ensures Decode(codec, GenerateRefreshToken(codec, userId, email, issued), now).value.sub == userId
  {}

  /** The time left on a token shrinks second for second as the clock advances, and
      equals the full lifetime at the instant of issue. */
  lemma ExpiresInCountsDown(codec: Codec, userId: string, email: string, issued: Timestamp, now: Timestamp, later: Timestamp)
    requires issued <= now <= later <= issued + codec.config.accessMinutes * 60 + codec.leeway
    ensures GetExpiresIn(codec, GenerateAccessToken(codec, userId, email, issued), issued)
            == Ok(codec.config.accessMinutes * 60)
    ensures GetExpiresIn(codec, GenerateAccessToken(codec, userId, email, issued), later).value
            == GetExpiresIn(codec, GenerateAccessToken(codec, userId, email, issued), now).value - (later - now)
  {}

  /** A freshly generated refresh token decodes, and its expiry lies after the instant
      of issue and no later than `refreshDays` days after it. */
  lemma RefreshExpiryWindow(codec: Codec, userId: string, email: string, now: Timestamp)
    requires codec.config.refreshDays > 0
    ensures Decode(codec, GenerateRefreshToken(codec, userId, email, now), now).Ok?
    ensures var c := Decode(codec, GenerateRefreshToken(codec, userId, email, now), now).value;
            now < c.exp <= now + codec.config.refreshDays * 86400
  {}

  /** A malformed string never decodes. */
  lemma MalformedNeverDecodes(codec: Codec, text: string, now: Timestamp)
    ensures Decode(codec, Malformed(text), now) == Err(InvalidToken)
  {}
}

=== FILE: user_repository.dfy ===
/** The older user repository (`repository::user::UserRepository`): its own argument
    guards and checks in front of the SQL. Lookups by name and email compare lowered
    text (`LOWER(x) = LOWER($1)`); the email pattern is supplied when the repository is
    built, so it is a parameter here. */
module UserRepository {
  import opened Wrappers
  import opened Tables
  import Text

  type Timestamp = int

  /** A row of this generation's user table: the email is optional. */
  datatype User = User(id: string, username: string, email: Option<string>, password: string,
                       createdAt: Timestamp, updatedAt: Timestamp)

  datatype RepositoryError =
    | EmptyUsername
    | EmptyTable
    | EmptyEmail
    | EmptyPassword
    | EmptyTextSearch
    | UserNotFound(id: string)
    | UsernameAlreadyTaken
    | EmailAlreadyTaken
    | InvalidEmail(email: string)
    | SqlError(message: string)

  /** The `Display` texts; `sqlText` is sqlx's own message for a database failure. */
  function ErrorText(e: RepositoryError): (r: string)
    ensures e.UserNotFound? ==> r == "User not found: " + e.id
    ensures e.InvalidEmail? ==> r == "Invalid email address: " + e.email
    ensures e.SqlError? ==> r == "SQLx error: " + e.message
  {
    match e
    case EmptyUsername => "Empty username"
    case EmptyTable => "Empty table"
    case EmptyEmail => "Empty email"
    case EmptyPassword => "Empty password"
    case EmptyTextSearch => "Empty text search"
    case UserNotFound(id) => "User not found: " + id
    case UsernameAlreadyTaken => "Username already taken"
    case EmailAlreadyTaken => "Email already taken"
    case InvalidEmail(email) => "Invalid email address: " + email
    case SqlError(message) => "SQLx error: " + message
  }

  /** sqlx's text for a `fetch_one` that matched no row. */
  const RowNotFoundText := "no rows returned by a query that expected to return at least one row"

  /** The `LIMIT` clause when none is given. */
  const DefaultLimit := 10

  /** `validate_user`: username, then email presence, then email shape, then password. */
  function ValidateUser(u: User, emailPattern: string -> bool): (r: Result<(), RepositoryError>)
    ensures r.Ok? <==> u.username != [] && u.email.Some? && u.email.value != [] && emailPattern(u.email.value) && u.password != []
    ensures u.username == [] ==> r == Err(EmptyUsername)
    ensures u.username != [] && (u.email.None? || u.email.value == []) ==> r == Err(EmptyEmail)
    ensures u.username != [] && u.email.Some? && u.email.value != [] && !emailPattern(u.email.value)
            ==> r == Err(InvalidEmail(u.email.value))
    ensures u.username != [] && u.email.Some? && u.email.value != [] && emailPattern(u.email.value) && u.password == []
            ==> r == Err(EmptyPassword)
  {
    if u.username == [] then Err(EmptyUsername)
    else match u.email
      case None => Err(EmptyEmail)
      case Some(e) =>
        if e == [] then Err(EmptyEmail)
        else if !emailPattern(e) then Err(InvalidEmail(e))
        else if u.password == [] then Err(EmptyPassword)
        else Ok(())
  }

  /** Equal after lowering ASCII capitals. */
  predicate SameIgnoringCase(a: string, b: string) {
    Text.AsciiLower(a) == Text.AsciiLower(b)
  }

  /** `WHERE id = $1`. */
  function IdIs(id: string): User -> bool {
    (x: User) => x.id == id
  }

  /** The `SET` of `update`. */
  function Rename(u: User, now: Timestamp): User -> User {
    (x: User) => x.(username := u.username, email := u.email, updatedAt := now)
  }

  /** The `SET` of `update_password`. */
  function SetPassword(password: string): User -> User {
    (x: User) => x.(password := password)
  }

  /** `find_by_id`. */
  function FindById(users: seq<User>, id: string): (r: Option<User>)
    ensures r.Some? ==> r.value in users && r.value.id == id
    ensures r.None? <==> forall i :: 0 <= i < |users| ==> users[i].id != id
  {
    FirstWhere(users, IdIs(id))
  }

  /** `find_by_username`: an empty name is refused before the table is read. */
  function FindByUsername(users: seq<User>, username: string): (r: Result<Option<User>, RepositoryError>)
    ensures r.Err? <==> username == []
    ensures r.Err? ==> r.error == EmptyUsername
    ensures r.Ok? && r.value.Some? ==> r.value.value in users && SameIgnoringCase(r.value.value.username, username)
    ensures r.Ok? && r.value.None? <==> username != [] && forall i :: 0 <= i < |users| ==> !SameIgnoringCase(users[i].username, username)
  {
    if username == [] then Err(EmptyUsername)
    else Ok(FirstWhere(users, (u: User) => SameIgnoringCase(u.username, username)))
  }

  predicate HasEmail(u: User, email: string) {
    u.email.Some? && SameIgnoringCase(u.email.value, email)
  }

  /** `find_by_email`: an empty email is refused before the table is read. */
  function FindByEmail(users: seq<User>, email: string): (r: Result<Option<User>, RepositoryError>)
    ensures r.Err? <==> email == []
    ensures r.Err? ==> r.error == EmptyEmail
    ensures r.Ok? && r.value.Some? ==> r.value.value in users && HasEmail(r.value.value, email)
    ensures r.Ok? && r.value.None? <==> email != [] && forall i :: 0 <= i < |users| ==> !HasEmail(users[i], email)
  {
    if email == [] then Err(EmptyEmail)
    else Ok(FirstWhere(users, (u: User) => HasEmail(u, email)))
  }

  /** `create`: validation, then the username check, then the email check; the row
      gets its id and creation time from the database (`id`, `now`). */
  function Create(users: seq<User>, u: User, emailPattern: string -> bool, id: string, now: Timestamp)
    : (out: (Result<User, RepositoryError>, seq<User>))
    ensures out.0.Err? ==> out.1 == users
    ensures ValidateUser(u, emailPattern).Err? ==> out.0 == Err(ValidateUser(u, emailPattern).error)
    ensures ValidateUser(u, emailPattern).Ok? && FindByUsername(users, u.username).value.Some?
            ==> out.0 == Err(UsernameAlreadyTaken)
    ensures ValidateUser(u, emailPattern).Ok? && FindByUsername(users, u.username) == Ok(None)
            && FindByEmail(users, u.email.value).value.Some?
            ==> out.0 == Err(EmailAlreadyTaken)
    ensures out.0.Ok? <==>
      ValidateUser(u, emailPattern).Ok? && FindByUsername(users, u.username) == Ok(None)
      && FindByEmail(users, u.email.value) == Ok(None)
    ensures out.0.Ok? ==>
      out.0.value == User(id, u.username, u.email, u.password, now, now) && out.1 == users + [out.0.value]
  {
    match ValidateUser(u, emailPattern)
    case Err(e) => (Err(e), users)
    case Ok(_) =>
      if FindByUsername(users, u.username).value.Some? then (Err(UsernameAlreadyTaken), users)
      else if FindByEmail(users, u.email.value).value.Some? then (Err(EmailAlreadyTaken), users)
      else
        var row := User(id, u.username, u.email, u.password, now, now);
        (Ok(row), users + [row])
  }

  /** The rows from `offset` on, at most `limit` of them (`LIMIT … OFFSET …`). */
  function Window(rows: seq<User>, limit: nat, offset: nat): (r: seq<User>)
    ensures |r| <= limit
    ensures offset < |rows| && limit > 0 ==> r != [] && r[0] == rows[offset]
  {
    var lo := if offset < |rows| then offset else |rows|;
    var hi := if offset + limit < |rows| then offset + limit else |rows|;
    rows[lo..hi]
  }

  /** `find_all`: page `page` (default 0) of `limit` rows (default 10) of the table as
      listed, an empty page being an error; the database refuses negative values. */
  function FindAll(users: seq<User>, limit: Option<int>, page: Option<int>): (r: Result<seq<User>, RepositoryError>)
    ensures var l := limit.GetOr(DefaultLimit); var o := page.GetOr(0) * l;
            l >= 0 && o >= 0 ==>
              (r.Err? <==> o >= |users| || l == 0)
              && (r.Err? ==> r.error == EmptyTable)
              && (r.Ok? ==> r.value == users[o..if o + l < |users| then o + l else |users|])
  {
    var l := limit.GetOr(DefaultLimit);
    var o := page.GetOr(0) * l;
    if l < 0 then Err(SqlError("LIMIT must not be negative"))
    else if o < 0 then Err(SqlError("OFFSET must not be negative"))
    else
      var rows := Window(users, l, o);
      if rows == [] then Err(EmptyTable) else Ok(rows)
  }

  /** The lookup by `u`'s username succeeds and finds no row but `u`'s own. */
  predicate NameFreeFor(users: seq<User>, u: User) {
    FindByUsername(users, u.username).Ok?
    && (FindByUsername(users, u.username).value.None? || FindByUsername(users, u.username).value.value.id == u.id)
  }

  /** `u` carries no email, or the lookup by it succeeds and finds no row but `u`'s own. */
  predicate EmailFreeFor(users: seq<User>, u: User) {
    u.email.None?
    || (FindByEmail(users, u.email.value).Ok?
        && (FindByEmail(users, u.email.value).value.None? || FindByEmail(users, u.email.value).value.value.id == u.id))
  }

  /** `update`: the username, then the email (when given), must not belong to another
      row; a missing id is the database's "no rows" error. The row's `updated_at`
      becomes `now`. */
  function Update(users: seq<User>, u: User, now: Timestamp): (out: (Result<User, RepositoryError>, seq<User>))
    ensures out.0.Err? ==> out.1 == users
    ensures u.username == [] ==> out.0 == Err(EmptyUsername)
    ensures FindByUsername(users, u.username).Ok? && FindByUsername(users, u.username).value.Some?
            && FindByUsername(users, u.username).value.value.id != u.id
            ==> out.0 == Err(UsernameAlreadyTaken)
    ensures NameFreeFor(users, u) && u.email.Some? && u.email.value == [] ==> out.0 == Err(EmptyEmail)
    ensures NameFreeFor(users, u) && u.email.Some?
            && FindByEmail(users, u.email.value).Ok? && FindByEmail(users, u.email.value).value.Some?
            && FindByEmail(users, u.email.value).value.value.id != u.id
            ==> out.0 == Err(EmailAlreadyTaken)
    ensures NameFreeFor(users, u) && EmailFreeFor(users, u) && FindById(users, u.id).None?
            ==> out.0 == Err(SqlError(RowNotFoundText))
    ensures out.0.Ok? <==> NameFreeFor(users, u) && EmailFreeFor(users, u) && FindById(users, u.id).Some?
    ensures out.0.Ok? ==>
      FindById(users, u.id).Some?
      && out.0.value == FindById(users, u.id).value.(username := u.username, email := u.email, updatedAt := now)
      && out.1 == UpdateWhere(users, IdIs(u.id), Rename(u, now))
  {
    match FindByUsername(users, u.username)
    case Err(e) => (Err(e), users)
    case Ok(byName) =>
      if byName.Some? && byName.value.id != u.id then (Err(UsernameAlreadyTaken), users)
      else
        var emailCheck: Result<(), RepositoryError> :=
          if u.email.None? then Ok(())
          else match FindByEmail(users, u.email.value)
            case Err(e) => Err(e)
            case Ok(byEmail) => if byEmail.Some? && byEmail.value.id != u.id then Err(EmailAlreadyTaken) else Ok(());
        if emailCheck.Err? then (Err(emailCheck.error), users)
        else match FindById(users, u.id)
          case None => (Err(SqlError(RowNotFoundText)), users)
          case Some(row) =>
            (Ok(row.(username := u.username, email := u.email, updatedAt := now)),
             UpdateWhere(users, IdIs(u.id), Rename(u, now)))
  }

  /** `update_password`: an empty password is refused; no row with the id is
      `UserNotFound`. */
  function UpdatePassword(users: seq<User>, id: string, password: string): (out: (Result<(), RepositoryError>, seq<User>))
    ensures out.0.Err? ==> out.1 == users
    ensures password == [] ==> out.0 == Err(EmptyPassword)
    ensures password != [] ==> (out.0 == Err(UserNotFound(id)) <==> FindById(users, id).None?)
    ensures out.0.Ok? <==> password != [] && FindById(users, id).Some?
    ensures out.0.Ok? ==> out.1 == UpdateWhere(users, IdIs(id), SetPassword(password))
  {
    if password == [] then (Err(EmptyPassword), users)
    else if FindById(users, id).None? then (Err(UserNotFound(id)), users)
    else (Ok(()), UpdateWhere(users, IdIs(id), SetPassword(password)))
  }

  /** `delete`: no row with the id is `UserNotFound`. */
  function Delete(users: seq<User>, id: string): (out: (Result<(), RepositoryError>, seq<User>))
    ensures out.0.Err? <==> FindById(users, id).None?
    ensures out.0.Err? ==> out.0.error == UserNotFound(id) && out.1 == users
    ensures FindById(out.1, id).None?
    ensures forall i :: 0 <= i < |users| && users[i].id != id ==> users[i] in out.1
    ensures out.0.Ok? ==> forall x: User :: multiset(out.1)[x] == (if x.id == id then 0 else multiset(users)[x])
  {
    if FindById(users, id).None? then (Err(UserNotFound(id)), users)
    else
      FilterMultiset(users, (x: User) => !IdIs(id)(x));
      (Ok(()), Filter(users, (x: User) => !IdIs(id)(x)))
  }

  /** `needle` occurs in `hay` once both are lowered (`ILIKE '%needle%'`). */
  predicate ContainsIgnoringCase(hay: string, needle: string) {
    exists k :: 0 <= k <= |hay| && OccursAt(Text.AsciiLower(hay), Text.AsciiLower(needle), k)
  }

  /** `n` sits in `h` starting at position `k`. */
  predicate OccursAt(h: string, n: string, k: int) {
    0 <= k && k + |n| <= |h| && h[k..k + |n|] == n
  }

  predicate MatchesQuery(u: User, query: string) {
    ContainsIgnoringCase(u.username, query) || (u.email.Some? && ContainsIgnoringCase(u.email.value, query))
  }

  /** `search`: an empty query is refused, and so is a search with no match. */
  function Search(users: seq<User>, query: string): (r: Result<seq<User>, RepositoryError>)
    ensures query == [] ==> r == Err(EmptyTextSearch)
    ensures query != [] ==> (r == Err(EmptyTable) <==> forall i :: 0 <= i < |users| ==> !MatchesQuery(users[i], query))
    ensures r.Ok? ==> r.value != [] && forall i :: 0 <= i < |r.value| ==> r.value[i] in users && MatchesQuery(r.value[i], query)
    ensures r.Ok? ==> forall i :: 0 <= i < |users| && MatchesQuery(users[i], query) ==> users[i] in r.value
  {
    if query == [] then Err(EmptyTextSearch)
    else
      var found := Filter(users, (u: User) => MatchesQuery(u, query));
      assert forall i :: 0 <= i < |users| && MatchesQuery(users[i], query) ==> users[i] in found;
      if found == [] then Err(EmptyTable)
      else
        assert found[0] in users && MatchesQuery(found[0], query);
        Ok(found)
  }

  /** A created user is found again under its name in any ASCII capitalisation. */
  lemma CreateThenFind(users: seq<User>, u: User, emailPattern: string -> bool, id: string, now: Timestamp, spelling: string)
    requires Create(users, u, emailPattern, id, now).0.Ok?
    requires SameIgnoringCase(spelling, u.username)
    ensures FindByUsername(Create(users, u, emailPattern, id, now).1, spelling)
            == Ok(Some(Create(users, u, emailPattern, id, now).0.value))
  {
    var (r, after) := Create(users, u, emailPattern, id, now);
    assert after[|users|] == r.value;
    assert |Text.AsciiLower(spelling)| == |Text.AsciiLower(u.username)|;
    forall i | 0 <= i < |users| ensures !SameIgnoringCase(users[i].username, spelling) {
      assert !SameIgnoringCase(users[i].username, u.username);
    }
  }

  /** Validation reports the first problem in order: an empty username wins over a
      missing email and an empty password. */
  lemma ValidationOrder(id: string, password: string, now: Timestamp, emailPattern: string -> bool)
    ensures ValidateUser(User(id, "", None, password, now, now), emailPattern) == Err(EmptyUsername)
    ensures ValidateUser(User(id, "a", None, "", now, now), emailPattern) == Err(EmptyEmail)
    ensures ValidateUser(User(id, "a", Some(""), "", now, now), emailPattern) == Err(EmptyEmail)
  {}

  /** With no limit and no page the first ten rows come back; page `p` of a limit `l`
      starts at row `p × l`. */
  lemma PagingDefaults(users: seq<User>, l: nat, p: nat)
    requires 0 < |users| && 0 < l && p * l < |users|
    ensures FindAll(users, None, None) == Ok(users[..if 10 < |users| then 10 else |users|])
    ensures FindAll(users, Some(l), Some(p)).Ok? && FindAll(users, Some(l), Some(p)).value[0] == users[p * l]
  {}

  /** Deleting twice fails the second time. */
  lemma DeleteTwice(users: seq<User>, id: string)
    requires Delete(users, id).0.Ok?
    ensures Delete(Delete(users, id).1, id) == (Err(UserNotFound(id)), Delete(users, id).1)
  {}

  /** After a successful `update` the row read back by id is the one `update` returned. */
  lemma UpdateThenFindById(users: seq<User>, u: User, now: Timestamp)
    requires Update(users, u, now).0.Ok?
    ensures FindById(Update(users, u, now).1, u.id) == Some(Update(users, u, now).0.value)
  {
    UpdateThenFirst(users, IdIs(u.id), Rename(u, now));
  }

  /** After a successful `update_password` the row read back by id carries the new
      password and is otherwise the row from before. */
  lemma UpdatePasswordThenFindById(users: seq<User>, id: string, password: string)
    requires UpdatePassword(users, id, password).0.Ok?
    ensures FindById(UpdatePassword(users, id, password).1, id) == Some(FindById(users, id).value.(password := password))
  {
    UpdateThenFirst(users, IdIs(id), SetPassword(password));
  }

  /** Paging by `limit` tiles the table: row `i` is at position `i mod limit` of page
      `i div limit`. */
  lemma PagesTile(users: seq<User>, limit: nat, i: nat)
    requires 0 < limit && i < |users|
    ensures FindAll(users, Some(limit), Some(i / limit)).Ok?
    ensures |FindAll(users, Some(limit), Some(i / limit)).value| > i % limit
    ensures FindAll(users, Some(limit), Some(i / limit)).value[i % limit] == users[i]
  {
    var o := i / limit * limit;
    assert i == o + i % limit;
  }
}

=== FILE: user_service.dfy ===
/** The user-management service, in its two generations (`services::user::UserService`
    and the older `service::user::UserService`): the same checks in the same order,
    differing only in where `update` takes the email-verified flag from. The table is
    a sequence of rows; hashing, hash checking, the DTO validation and the search
    queries are parameters. */
module UserService {
  import opened Wrappers
  import opened Tables
  import Text

  type Timestamp = int

  datatype User = User(
    id: string,
    username: string,
    email: string,
    passwordHash: string,
    isEmailVerified: Option<bool>,
    createdAt: Timestamp,
    updatedAt: Timestamp)

  datatype UserServiceError =
    | UsernameExists(username: string)
    | EmailExists(email: string)
    | UserNotFound(id: string)
    | DatabaseError(message: string)
    | ValidationError(message: string)
    | InvalidPassword(message: string)
    | HashError(message: string)
    | SearchQuery

  /** `Display for UserServiceError`: each text quotes the value it carries. */
  function ErrorText(e: UserServiceError): (r: string)
    ensures e.UsernameExists? ==> r == "Username '" + e.username + "' already exists"
    ensures e.EmailExists? ==> r == "Email '" + e.email + "' already exists"
    ensures e.UserNotFound? ==> r == "User with ID '" + e.id + "' not found"
    ensures e.DatabaseError? ==> r == "Database error: " + e.message
    ensures e.ValidationError? ==> r == "Validation error: " + e.message
    ensures e.InvalidPassword? ==> r == "Invalid password: " + e.message
    ensures e.HashError? ==> r == "Password hashing error: " + e.message
  {
    match e
    case UsernameExists(u) => "Username '" + u + "' already exists"
    case EmailExists(m) => "Email '" + m + "' already exists"
    case UserNotFound(id) => "User with ID '" + id + "' not found"
    case DatabaseError(m) => "Database error: " + m
    case ValidationError(m) => "Validation error: " + m
    case InvalidPassword(m) => "Invalid password: " + m
    case HashError(m) => "Password hashing error: " + m
    case SearchQuery => "Search query cannot be empty"
  }

  /** Distinct failures read differently: the text determines the failure and the value
      it quotes. */
  lemma ErrorTextInjective(a: UserServiceError, b: UserServiceError)
    requires ErrorText(a) == ErrorText(b)
    ensures a == b
  {
    var t := ErrorText(a);
    assert t[0] == ErrorText(b)[0];
    assert t[4] == ErrorText(b)[4];
    match a
    case UsernameExists(u) => Text.Unframe("Username '", u, b.username, "' already exists");
    case EmailExists(m) => Text.Unframe("Email '", m, b.email, "' already exists");
    case UserNotFound(id) => Text.Unframe("User with ID '", id, b.id, "' not found");
    case DatabaseError(m) => Text.Unframe("Database error: ", m, b.message, "");
    case ValidationError(m) => Text.Unframe("Validation error: ", m, b.message, "");
    case InvalidPassword(m) => Text.Unframe("Invalid password: ", m, b.message, "");
    case HashError(m) => Text.Unframe("Password hashing error: ", m, b.message, "");
    case SearchQuery =>
  }

  datatype Generation = Current | Legacy

  function ById(users: seq<User>, id: string): (r: Option<User>)
    ensures r.Some? ==> r.value in users && r.value.id == id
    ensures r.None? <==> forall i :: 0 <= i < |users| ==> users[i].id != id
  {
    FirstWhere(users, (u: User) => u.id == id)
  }

  function ByUsername(users: seq<User>, username: string): (r: Option<User>)
    ensures r.Some? ==> r.value in users && r.value.username == username
    ensures r.None? <==> forall i :: 0 <= i < |users| ==> users[i].username != username
  {
    FirstWhere(users, (u: User) => u.username == username)
  }

  function ByEmail(users: seq<User>, email: string): (r: Option<User>)
    ensures r.Some? ==> r.value in users && r.value.email == email
    ensures r.None? <==> forall i :: 0 <= i < |users| ==> users[i].email != email
  {
    FirstWhere(users, (u: User) => u.email == email)
  }

  /** Ids, usernames and emails are each held by one row at most. */
  predicate Unique(users: seq<User>) {
    forall i, j :: 0 <= i < j < |users| ==>
      users[i].id != users[j].id && users[i].username != users[j].username && users[i].email != users[j].email
  }

  /** `create`: a failed DTO validation first, then a taken username, then a taken
      email, then a hashing failure; otherwise a new, unverified user is appended.
      `validation` is the validator's verdict and `hashed` the outcome of hashing the
      password. */
  function Create(users: seq<User>, username: string, email: string, validation: Option<string>,
                  hashed: Result<string, string>, id: string, now: Timestamp)
    : (out: (Result<User, UserServiceError>, seq<User>))
    ensures out.0.Err? ==> out.1 == users
    ensures validation.Some? ==> out.0 == Err(ValidationError(validation.value))
    ensures validation.None? && ByUsername(users, username).Some? ==> out.0 == Err(UsernameExists(username))
    ensures validation.None? && ByUsername(users, username).None? && ByEmail(users, email).Some?
            ==> out.0 == Err(EmailExists(email))
    ensures validation.None? && ByUsername(users, username).None? && ByEmail(users, email).None? && hashed.Err?
            ==> out.0 == Err(HashError(hashed.error))
    ensures out.0.Ok? <==>
      validation.None? && ByUsername(users, username).None? && ByEmail(users, email).None? && hashed.Ok?
    ensures out.0.Ok? ==>
      out.0.value == User(id, username, email, hashed.value, None, now, now) && out.1 == users + [out.0.value]
  {
    if validation.Some? then (Err(ValidationError(validation.value)), users)
    else if ByUsername(users, username).Some? then (Err(UsernameExists(username)), users)
    else if ByEmail(users, email).Some? then (Err(EmailExists(email)), users)
    else
      match hashed
      case Err(m) => (Err(HashError(m)), users)
      case Ok(h) =>
        var u := User(id, username, email, h, None, now, now);
        (Ok(u), users + [u])
  }

  /** Replaces the row with the given id. */
  function Replace(users: seq<User>, id: string, u: User): (r: seq<User>)
    ensures |r| == |users|
    ensures forall i :: 0 <= i < |users| ==> r[i] == (if users[i].id == id then u else users[i])
  {
    UpdateWhere(users, (x: User) => x.id == id, (x: User) => u)
  }

  /** `update`: a missing user, then a username held by another user, are refused;
      otherwise the username is replaced and everything else kept, except that the
      older generation takes the email-verified flag from the request. */
  function Update(gen: Generation, users: seq<User>, id: string, username: string, isEmailVerified: Option<bool>,
                  validation: Option<string>, now: Timestamp)
    : (out: (Result<User, UserServiceError>, seq<User>))
    ensures out.0.Err? ==> out.1 == users
    ensures validation.Some? ==> out.0 == Err(ValidationError(validation.value))
    ensures validation.None? && ById(users, id).None? ==> out.0 == Err(UserNotFound(id))
    ensures validation.None? && ById(users, id).Some? && ByUsername(users, username).Some? && ByUsername(users, username).value.id != id
            ==> out.0 == Err(UsernameExists(username))
    ensures out.0.Ok? <==>
      validation.None? && ById(users, id).Some?
      && (ByUsername(users, username).None? || ByUsername(users, username).value.id == id)
    ensures out.0.Ok? ==> ById(users, id).Some?
    ensures out.0.Ok? && ById(users, id).Some? ==>
      var before := ById(users, id).value;
      var u := out.0.value;
      u.id == id && u.username == username && u.email == before.email && u.passwordHash == before.passwordHash
      && u.createdAt == before.createdAt && u.updatedAt == now
      && u.isEmailVerified == (if gen == Current then before.isEmailVerified else isEmailVerified)
      && out.1 == Replace(users, id, u)
  {
    if validation.Some? then (Err(ValidationError(validation.value)), users)
    else
      match ById(users, id)
      case None => (Err(UserNotFound(id)), users)
      case Some(before) =>
        if ByUsername(users, username).Some? && ByUsername(users, username).value.id != id then
          (Err(UsernameExists(username)), users)
        else
          var flag := if gen == Current then before.isEmailVerified else isEmailVerified;
          var u := User(id, username, before.email, before.passwordHash, flag, before.createdAt, now);
          (Ok(u), Replace(users, id, u))
  }

  /** `change_password`: the current password must check out against the stored hash
      (`verify` fails for an unreadable hash); only then is the new hash stored. */
  function ChangePassword(users: seq<User>, id: string, currentPassword: string, validation: Option<string>,
                          verify: (string, string) -> Result<bool, string>, hashed: Result<string, string>, now: Timestamp)
    : (out: (Result<(), UserServiceError>, seq<User>))
    ensures out.0.Err? ==> out.1 == users
    ensures validation.Some? ==> out.0 == Err(ValidationError(validation.value))
    ensures validation.None? && ById(users, id).None? ==> out.0 == Err(UserNotFound(id))
    ensures validation.None? && ById(users, id).Some? && verify(currentPassword, ById(users, id).value.passwordHash).Err?
            ==> out.0 == Err(HashError(verify(currentPassword, ById(users, id).value.passwordHash).error))
    ensures validation.None? && ById(users, id).Some? && verify(currentPassword, ById(users, id).value.passwordHash) == Ok(false)
            ==> out.0 == Err(InvalidPassword("Current password is incorrect"))
    ensures validation.None? && ById(users, id).Some? && verify(currentPassword, ById(users, id).value.passwordHash) == Ok(true)
            && hashed.Err?
            ==> out.0 == Err(HashError(hashed.error))
    ensures out.0.Ok? ==>
      ById(users, id).Some? && verify(currentPassword, ById(users, id).value.passwordHash) == Ok(true) && hashed.Ok?
      && out.1 == UpdateWhere(users, (x: User) => x.id == id, (x: User) => x.(passwordHash := hashed.value, updatedAt := now))
    ensures validation.None? && ById(users, id).Some? && hashed.Ok?
            && verify(currentPassword, ById(users, id).value.passwordHash) == Ok(true)
            ==> out.0.Ok?
  {
    if validation.Some? then (Err(ValidationError(validation.value)), users)
    else
      match ById(users, id)
      case None => (Err(UserNotFound(id)), users)
      case Some(u) =>
        match verify(currentPassword, u.passwordHash)
        case Err(m) => (Err(HashError(m)), users)
        case Ok(ok) =>
          if !ok then (Err(InvalidPassword("Current password is incorrect")), users)
          else
            match hashed
            case Err(m) => (Err(HashError(m)), users)
            case Ok(h) =>
              (Ok(()), UpdateWhere(users, (x: User) => x.id == id, (x: User) => x.(passwordHash := h, updatedAt := now)))
  }

  /** `update_email`: refused when another user holds the email; the user's own email
      may be set again. The id is not checked first. */
  function UpdateEmail(users: seq<User>, id: string, email: string, validation: Option<string>, now: Timestamp)
    : (out: (Result<(), UserServiceError>, seq<User>))
    ensures out.0.Err? ==> out.1 == users
    ensures validation.Some? ==> out.0 == Err(ValidationError(validation.value))
    ensures validation.None? && ByEmail(users, email).Some? && ByEmail(users, email).value.id != id
            ==> out.0 == Err(EmailExists(email))
    ensures out.0.Ok? <==> validation.None? && (ByEmail(users, email).None? || ByEmail(users, email).value.id == id)
    ensures out.0.Ok? ==> out.1 == UpdateWhere(users, (x: User) => x.id == id, (x: User) => x.(email := email, updatedAt := now))
  {
    if validation.Some? then (Err(ValidationError(validation.value)), users)
    else if ByEmail(users, email).Some? && ByEmail(users, email).value.id != id then (Err(EmailExists(email)), users)
    else (Ok(()), UpdateWhere(users, (x: User) => x.id == id, (x: User) => x.(email := email, updatedAt := now)))
  }

  /** `search`: a query that is blank after trimming is refused before the table is
      read; `run` stands for the repository's search. */
  function Search(query: string, limit: int, offset: int, run: (string, int, int) -> seq<User>)
    : (r: Result<seq<User>, UserServiceError>)
    ensures r.Err? <==> Text.IsBlank(query)
    ensures r.Err? ==> r.error == SearchQuery
    ensures r.Ok? ==> r.value == run(query, limit, offset)
  {
    if Text.IsBlank(query) then Err(SearchQuery) else Ok(run(query, limit, offset))
  }

  /** `count_search`, with the same guard. */
  function CountSearch(query: string, run: string -> int): (r: Result<int, UserServiceError>)
    ensures r.Err? <==> Text.IsBlank(query)
    ensures r.Err? ==> r.error == SearchQuery
    ensures r.Ok? ==> r.value == run(query)
  {
    if Text.IsBlank(query) then Err(SearchQuery) else Ok(run(query))
  }

  /** A taken username is reported even when the email is taken too, and a query of
      spaces is refused whatever the repository would answer. */
  lemma ErrorPrecedence(users: seq<User>, username: string, email: string, hashed: Result<string, string>, id: string,
                        now: Timestamp, run: string -> int)
    requires ByUsername(users, username).Some? && ByEmail(users, email).Some?
    ensures Create(users, username, email, None, hashed, id, now).0 == Err(UsernameExists(username))
    ensures CountSearch("  ", run) == Err(SearchQuery)
  {
    assert Text.IsBlank("  ") by { Text.BlankIffAllWhitespace("  "); }
  }

  /** Appending a user with a fresh id, username and email keeps the table unique. */
  lemma CreateKeepsUnique(users: seq<User>, username: string, email: string, hashed: Result<string, string>, id: string, now: Timestamp)
    requires Unique(users)
    requires ById(users, id).None?
    ensures Unique(Create(users, username, email, None, hashed, id, now).1)
  {}

  /** In a unique table, the row holding a key is the one each lookup finds. */
  lemma UniqueLookups(users: seq<User>, i: int)
    requires Unique(users) && 0 <= i < |users|
    ensures ById(users, users[i].id) == Some(users[i])
    ensures ByUsername(users, users[i].username) == Some(users[i])
    ensures ByEmail(users, users[i].email) == Some(users[i])
  {
    forall k | 0 <= k < |users| && users[k] == ById(users, users[i].id).value ensures k == i {}
    forall k | 0 <= k < |users| && users[k] == ByUsername(users, users[i].username).value ensures k == i {}
    forall k | 0 <= k < |users| && users[k] == ByEmail(users, users[i].email).value ensures k == i {}
  }

  /** Rewriting the row of `id` into `u` keeps two rows apart when `u` keeps the id
      and the email, and its username is free or already held by `id`. */
  lemma RewritePair(users: seq<User>, id: string, u: User, i: int, j: int)
    requires Unique(users) && 0 <= i < j < |users|
    requires ById(users, id).Some? && u.id == id
    requires ByUsername(users, u.username).None? || ByUsername(users, u.username).value.id == id
    requires ByEmail(users, u.email).None? || ByEmail(users, u.email).value.id == id
    ensures var r := UpdateWhere(users, (x: User) => x.id == id, (x: User) => u);
            r[i].id != r[j].id && r[i].username != r[j].username && r[i].email != r[j].email
  {
    UniqueLookups(users, i);
    UniqueLookups(users, j);
  }

  /** Renaming keeps the table unique: the new name is free or already this user's. */
  lemma UpdateKeepsUnique(gen: Generation, users: seq<User>, id: string, username: string, flag: Option<bool>,
                          validation: Option<string>, now: Timestamp)
    requires Unique(users)
    ensures Unique(Update(gen, users, id, username, flag, validation, now).1)
  {
    var out := Update(gen, users, id, username, flag, validation, now);
    if out.0.Ok? {
      var u := out.0.value;
      var before := ById(users, id).value;
      var k :| 0 <= k < |users| && users[k] == before;
      UniqueLookups(users, k);
      forall i, j | 0 <= i < j < |users|
        ensures out.1[i].id != out.1[j].id && out.1[i].username != out.1[j].username && out.1[i].email != out.1[j].email
      {
        RewritePair(users, id, u, i, j);
      }
    }
  }

  /** Changing a password keeps ids, usernames and emails unique, and afterwards the
      lookup by id finds the user with the new hash and nothing else changed. */
  lemma ChangePasswordKeepsUnique(users: seq<User>, id: string, currentPassword: string, validation: Option<string>,
                                  verify: (string, string) -> Result<bool, string>, hashed: Result<string, string>,
                                  now: Timestamp)
    requires Unique(users)
    ensures var out := ChangePassword(users, id, currentPassword, validation, verify, hashed, now);
            Unique(out.1)
            && (out.0.Ok? ==> ById(out.1, id) == Some(ById(users, id).value.(passwordHash := hashed.value, updatedAt := now)))
  {
    if hashed.Ok? {
      PasswordRewriteKeepsUnique(users, id, hashed.value, now);
    }
  }

  /** Storing a new hash on the rows of `id` keeps the table unique and is what the
      lookup by id then finds. */
  lemma PasswordRewriteKeepsUnique(users: seq<User>, id: string, h: string, now: Timestamp)
    requires Unique(users)
    ensures var r := UpdateWhere(users, (x: User) => x.id == id, (x: User) => x.(passwordHash := h, updatedAt := now));
            Unique(r) && (ById(users, id).Some? ==> ById(r, id) == Some(ById(users, id).value.(passwordHash := h, updatedAt := now)))
  {
    var r := UpdateWhere(users, (x: User) => x.id == id, (x: User) => x.(passwordHash := h, updatedAt := now));
    forall i | 0 <= i < |users|
      ensures r[i].id == users[i].id && r[i].username == users[i].username && r[i].email == users[i].email
    {
      assert r[i] == if users[i].id == id then users[i].(passwordHash := h, updatedAt := now) else users[i];
    }
    KeysKept(users, r);
    if ById(users, id).Some? {
      var before := ById(users, id).value;
      var k :| 0 <= k < |users| && users[k] == before;
      var found := ById(r, id).value;
      var m :| 0 <= m < |r| && r[m] == found;
      assert users[m].id == found.id == id == users[k].id;
      SameIdSameRow(users, m, k);
      assert r[k] == before.(passwordHash := h, updatedAt := now);
    }
  }

  /** Two tables whose rows agree on id, username and email, row by row, are unique
      together. */
  lemma KeysKept(users: seq<User>, r: seq<User>)
    requires Unique(users) && |r| == |users|
    requires forall i :: 0 <= i < |users| ==>
      r[i].id == users[i].id && r[i].username == users[i].username && r[i].email == users[i].email
    ensures Unique(r)
  {}

  /** In a unique table, rows with the same id are the same row. */
  lemma SameIdSameRow(users: seq<User>, a: int, b: int)
    requires Unique(users) && 0 <= a < |users| && 0 <= b < |users|
    requires users[a].id == users[b].id
    ensures a == b
  {}



  /** Changing the email keeps the table unique: the new email is free or already this
      user's. */
  lemma UpdateEmailKeepsUnique(users: seq<User>, id: string, email: string, validation: Option<string>, now: Timestamp)
    requires Unique(users)
    ensures Unique(UpdateEmail(users, id, email, validation, now).1)
  {
    var out := UpdateEmail(users, id, email, validation, now);
    if out.0.Ok? && ById(users, id).Some? {
      var before := ById(users, id).value;
      var u := before.(email := email, updatedAt := now);
      var k :| 0 <= k < |users| && users[k] == before;
      UniqueLookups(users, k);
      forall i | 0 <= i < |users| ensures out.1[i] == UpdateWhere(users, (x: User) => x.id == id, (x: User) => u)[i] {
        if users[i].id == id {
          UniqueLookups(users, i);
        }
      }
      forall i, j | 0 <= i < j < |users|
        ensures out.1[i].id != out.1[j].id && out.1[i].username != out.1[j].username && out.1[i].email != out.1[j].email
      {
        RewritePair(users, id, u, i, j);
      }
    }
  }

  /** The two generations of `update` agree except on the email-verified flag. */
  lemma GenerationsDifferOnlyInFlag(users: seq<User>, id: string, username: string, flag: Option<bool>,
                                    validation: Option<string>, now: Timestamp)
    ensures var a := Update(Current, users, id, username, flag, validation, now);
            var b := Update(Legacy, users, id, username, flag, validation, now);
            a.0.Ok? == b.0.Ok?
            && (a.0.Ok? ==> b.0.value == a.0.value.(isEmailVerified := flag))
            && (a.0.Err? ==> a.0 == b.0)
  {}
}

=== FILE: validation_service.dfy ===
/** The user service's input rules (`ValidationService`): user names of letters,
    digits, `_` and `-`; passwords mixing four character classes, where "special"
    means not alphanumeric in the Unicode sense. */
module ValidationService {
  import opened Wrappers
  import opened Text
  import PasswordPolicy

  predicate IsUsernameChar(c: char) {
    IsAlphanumeric(c) || c == '_' || c == '-'
  }

  /** `is_valid_username`. */
  predicate IsValidUsername(u: string) {
    !IsBlank(u) && AllChars(u, IsUsernameChar)
  }

  /** Not alphanumeric, in the sense of `char::is_alphanumeric`. */
  predicate IsSpecial(c: char) { !IsAlphanumeric(c) }

  /** `is_valid_password`. */
  predicate IsValidPassword(p: string) {
    && !IsBlank(p)
    && AnyChar(p, IsAsciiLower)
    && AnyChar(p, IsAsciiUpper)
    && AnyChar(p, IsAsciiDigit)
    && AnyChar(p, IsSpecial)
  }

  const UsernameRule := "Username can only contain alphanumeric characters, underscores, and hyphens"

  /** `validate_username`: refuses exactly the names the rule rejects. */
  function ValidateUsername(u: string): (r: Result<(), PasswordPolicy.ValidationError>)
    ensures r.Ok? <==> IsValidUsername(u)
    ensures r.Err? ==> r.error.code == UsernameRule
  {
    if IsValidUsername(u) then Ok(()) else Err(PasswordPolicy.ValidationError(UsernameRule))
  }

  /** `validate_password`: refuses exactly the passwords the rule rejects. */
  function ValidatePassword(p: string): (r: Result<(), PasswordPolicy.ValidationError>)
    ensures r.Ok? <==> IsValidPassword(p)
    ensures r.Err? ==> r.error.code == PasswordPolicy.PasswordRule
  {
    if IsValidPassword(p) then Ok(()) else Err(PasswordPolicy.ValidationError(PasswordPolicy.PasswordRule))
  }

  /** No user-name character is white space, so the blank check only rules out the
      empty name: a name is valid exactly when it is non-empty and made of allowed
      characters. */
  lemma UsernameNonEmptySuffices(u: string)
    ensures IsValidUsername(u) <==> |u| > 0 && AllChars(u, IsUsernameChar)
  {
    if |u| > 0 && AllChars(u, IsUsernameChar) {
      assert IsUsernameChar(u[0]);
      NotBlankIfHas(u, 0);
    }
  }

  /** Passwords valid here are valid under the ASCII rule of the first service layer. */
  lemma StricterThanAsciiRule(p: string)
    ensures IsValidPassword(p) ==> PasswordPolicy.IsValidPassword(p)
  {
    if IsValidPassword(p) {
      var i :| 0 <= i < |p| && IsSpecial(p[i]);
      assert PasswordPolicy.IsAsciiSpecial(p[i]);
    }
  }

  /** The converse fails: a Latin-1 letter such as `é` is special under the ASCII rule
      and not here. */
  lemma AccentedLetterSeparatesRules(q: string)
    requires q == "Pa1\U{E9}"
    ensures PasswordPolicy.IsValidPassword(q) && !IsValidPassword(q)
  {
    NotBlankIfHas(q, 0);
    assert IsAsciiLower(q[1]) && IsAsciiUpper(q[0]) && IsAsciiDigit(q[2]);
    assert PasswordPolicy.IsAsciiSpecial(q[3]);
    assert IsAlphanumeric(q[0]) && IsAlphanumeric(q[1]) && IsAlphanumeric(q[2]);
    assert IsLatin1Alphanumeric(q[3]);
    assert !AnyChar(q, IsSpecial) by {
      forall i | 0 <= i < |q| ensures !IsSpecial(q[i]) {
        assert i == 0 || i == 1 || i == 2 || i == 3;
      }
    }
  }

  /** A password with a character of each class at the given positions passes. */
  lemma HasAllClasses(p: string, lower: nat, upper: nat, digit: nat, special: nat)
    requires lower < |p| && upper < |p| && digit < |p| && special < |p|
    requires IsAsciiLower(p[lower]) && IsAsciiUpper(p[upper])
    requires IsAsciiDigit(p[digit]) && IsSpecial(p[special])
    ensures ValidatePassword(p).Ok?
  {
    NotBlankIfHas(p, lower);
  }

  /** The accepted user-name test vectors. */
  lemma UsernamesAccepted(u: string)
    requires u in ["username", "user_name", "user-name", "user_name-123"]
    ensures ValidateUsername(u).Ok?
  {
    UsernameNonEmptySuffices(u);
  }

  /** The refused user-name test vectors. */
  lemma UsernamesRefused(u: string)
    requires u in ["", "username!", "user name", "user@name"]
    ensures ValidateUsername(u).Err?
  {
    if u == "username!" {
      assert !IsUsernameChar(u[8]);
    } else if u != "" {
      assert !IsUsernameChar(u[4]);
    }
  }

  /** The accepted password test vectors. */
  lemma PasswordsAccepted(p: string)
    requires p in ["Password1!", "P@ssw0rd!", "P@ssw0rd!123"]
    ensures ValidatePassword(p).Ok?
  {
    if p == "Password1!" {
      HasAllClasses(p, 1, 0, 8, 9);
    } else {
      HasAllClasses(p, 2, 0, 5, 1);
    }
  }

  /** The refused password test vectors, each missing one class. */
  lemma PasswordsRefused(p: string)
    requires p in ["", "password", "PASSWORD", "password1", "Password!"]
    ensures ValidatePassword(p).Err?
  {
    if p == "password" || p == "password1" {
      assert !AnyChar(p, IsAsciiUpper);
    } else if p == "PASSWORD" {
      assert !AnyChar(p, IsAsciiLower);
    } else if p == "Password!" {
      assert !AnyChar(p, IsAsciiDigit);
    }
  }
}

=== FILE: wrappers.dfy ===
/** Optional values and success/failure results, the two shapes the service code
    returns everywhere (`Option<T>` and `Result<T, E>` in the original). */
module Wrappers {

  datatype Option<+T> = None | Some(value: T) {

    /** The wrapped value, or `default` when there is none (`unwrap_or`). */
    function GetOr(default: T): T {
      match this
      case Some(v) => v
      case None => default
    }
  }

  datatype Result<+T, +E> = Ok(value: T) | Err(error: E) {

    predicate IsFailure() {
      Err?
    }

    function PropagateFailure<U>(): Result<U, E>
      requires Err?
    {
      Err(error)
    }

    function Extract(): T
      requires Ok?
    {
      value
    }

    /** Drops the error, keeping only whether a value was produced (`.ok()`). */
    function ToOption(): Option<T> {
      match this
      case Ok(v) => Some(v)
      case Err(_) => None
    }
  }
}
